=== FILE: README.md ===
# Creamplayer download path, modelled in Dafny

Creamplayer is a desktop music downloader built on Electron. It has three parts:

- The renderer is a Vue application. It turns what the user types or pastes into catalogue rows. The input can be a song link, a playlist link, a `163cn.tv` short link, a share text copied from the Cloud Music app, or plain search words. The renderer also keeps the list of rows and downloads them one by one or in batches.
- The main process runs a Python downloader and passes its progress back. It also resolves short links by following their redirects.
- The Python downloader fetches the audio file, writes the tags and can merge a lyric with its translation.

This project models that path in Dafny, one module per file of the application:

| module | file | what it holds |
|---|---|---|
| `TextScan` | (shared) | character classes, literal and case-folded matching, leftmost match, global `exec` loops, trimming, joining, code-point order |
| `Songs` | `src/types/song.ts` | the list row, a catalogue track, the downloader's answer |
| `Netease` | `src/api/netease.ts` | the pure parsers: short ids, short links, song and playlist ids, link detection, share-text templates, `parseInput` |
| `NeteaseClient` | `src/api/netease.ts` | the request-making half: the five-strategy short-link resolver, the play-URL request rule, song lookup, the exported `search` and `download` |
| `DownloadApi` | `src/api/download.ts` | file-name sanitising, `extractMusicLink`, the downloader's argument string, the progress remap, `electron.download` |
| `Preload` | `preload.cjs` | the channel allow-list and the single progress-callback slot (a class) |
| `MainProcess` | `main.cjs` | the command line, the synthetic progress ticker, the success-line parse, error messages, the redirect-following short-link resolver with its landing-page scan, the cookie hook, the window title |
| `Downloader` | `resources/musicdownloader.py` | file extension and path, `splitlines`, the lyric/translation merge (with loops as methods), `main`'s control flow |
| `ListStore` | `src/stores/list.ts` | the list of rows as a class: `download`, `open`, `downloadAll` in batches |

Each regular expression of the source is written out as a scanner. A scanner is a matcher, `(string, nat) -> Option<T>`, that says whether the pattern matches at one position. `TextScan.FirstAt` then finds the leftmost match.

Everything outside the program is a function parameter. This covers HTTP requests, IPC, child processes, JSON parsing, URL encoding and decoding, and the download store that fetches a song's URL.

## Model

| member | source | states |
|---|---|---|
| TextScan.FirstAt | src/api/netease.ts:17 | the position found is the leftmost one at or after the start where the matcher succeeds, and none is found only when it succeeds nowhere |
| TextScan.ExecAllFirst | main.cjs:567-569 | a global `exec` loop collects nothing exactly when the pattern matches nowhere, and its first capture is the leftmost match's |
| TextScan.ExecLoop | main.cjs:567-569 | the `while (exec)` loop returns the captures `ExecAll` defines: leftmost match, then the search resumes after it |
| TextScan.LazyEndIsFirst | src/api/netease.ts:62 | a lazy `(.+?)` group ends at the first place where the rest of the pattern fits, and fails only when no end fits |
| TextScan.TrimByIdempotent | src/api/download.ts:19 | trimming a trimmed text changes nothing |
| TextScan.TrimByEmpty | resources/musicdownloader.py:322 | trimming leaves nothing exactly when every character is white space |
| TextScan.LexLessTotal | resources/musicdownloader.py:345 | code-point order on strings is total on distinct strings, the order `sorted` uses |
| Songs.FromCatalog | src/api/netease.ts:333-345 | a row built from a catalogue track keeps its id, name, album and cover, joins the artists with `/`, and has no URL, lyrics, state, path or progress yet |
| Netease.ExtractShortId | src/api/netease.ts:16-22 | the id is the non-empty alphanumeric run after the leftmost `163cn.tv/` that has one; none when no such run exists |
| Netease.ExtractShortUrl | src/api/netease.ts:92-115 | the `163cn.tv` link when there is one, else the `music.163.com` one, else the `y.music.163.com` one; the result is an ASCII piece of the text |
| Netease.ExtractSongId | src/api/netease.ts:118-125 | the digits of the leftmost song link, after the first separator that fits |
| Netease.ExtractPlaylistId | src/api/netease.ts:128-135 | the digits of the leftmost playlist link |
| Netease.ContainsLinks | src/api/netease.ts:223-233 | true exactly when the text has an http(s) scheme, a catalogue host followed on its line by a song or playlist key, or a `163cn.tv/` |
| Netease.ExtractCompleteShareInfo | src/api/netease.ts:56-89 | the first of the three share templates that matches anywhere decides, and the song and artist are that template's leftmost captures, trimmed (the second template has no artist); nothing when none matches; the album is never filled |
| Netease.ExtractSongInfoFromShareText | src/api/netease.ts:236-247 | only the first template, groups untrimmed |
| Netease.ShareInfoTrimsSongInfo | src/api/netease.ts:56-89 | whenever the simple extractor finds a song, the full extractor finds the same song and artist, trimmed |
| Netease.AsciiTextHasNoShareInfo | src/api/netease.ts:56-89 | a text of ASCII characters only matches no share template |
| Netease.ParseInput | src/api/netease.ts:250-322 | a link is always parsed as a link; a short link the resolver answers gives that song with the share text as meta; a song-id result without meta is the link's own digits; a playlist result means no song id; an exact-match search holds the share text's song and artist; plain text is kept as a search only when no link, song id or playlist id is found; an empty link search only for a text holding a link |
| Netease.ParseInputBranches | src/api/netease.ts:250-322 | each branch in its order: an unresolved short link with a shared song gives the exact-match search; failing that, a song id, then a playlist id, then other links with or without a shared song; a text whose short link (if any) settles nothing and that holds none of these is a plain search |
| Netease.FullSongLinkShortUrl | src/api/netease.ts:101-112 | the alternative short-link pattern cuts a full song link down to `https://music.163.com/song` |
| Netease.FullSongLinkId | src/api/netease.ts:118-125 | the song-id pattern finds the id of a full song link |
| Netease.FullSongLinkParse | src/api/netease.ts:257-288 | a full song link is first sent to the short-link resolver; its own id is used only when the resolver gives nothing |
| NeteaseClient.MainProcessUrl | src/api/netease.ts:365-381 | the link sent to the main process starts with `http`, with `https://` added only when it was missing |
| NeteaseClient.ExtractDirectId | src/api/netease.ts:384 | five to twelve digits after the leftmost `song`, `music` or `s` key and separator that is followed by at least five digits |
| NeteaseClient.DirectIdAttempt | src/api/netease.ts:384-399 | an embedded id is kept only when the song lookup knows it |
| NeteaseClient.ForceHttps | src/api/netease.ts:406 | only a leading `http:` is changed to `https:` |
| NeteaseClient.RedirectAttempt | src/api/netease.ts:402-472 | the song id in the final URL, else the first `song?id=` with five or more digits in the page; nothing when the fetch fails or is not ok, or when there is no id in the final URL and the page cannot be read |
| NeteaseClient.PickHit | src/api/netease.ts:487-499 | the first hit with the exact title that lists the artist, else the top hit |
| NeteaseClient.SearchShared | src/api/netease.ts:475-504 | searches only with both song and artist, five hits, and answers with a picked hit |
| NeteaseClient.ShortIdAttempt | src/api/netease.ts:507-524 | answers exactly when the short id exists and its search has a hit, and then with the top hit's id |
| NeteaseClient.ResolveWith | src/api/netease.ts:354-531 | nothing for a text without a catalogue host; otherwise the first strategy's answer, in order |
| NeteaseClient.ResolveShortUrl | src/api/netease.ts:354-531 | the strategies run in order and stop at the first answer: the result is `ResolveWith`, and the strategies tried are exactly those up to the answering one |
| NeteaseClient.ShareTextIdleForExtractedLink | src/api/netease.ts:475-504 | the share-text strategy never answers for the short link `parseInput` hands over |
| NeteaseClient.PlayRequests | src/api/netease.ts:161-206 | no cookie gives one anonymous request; the highest quality or `anonymous` off gives one request with the cookie; otherwise the request with the cookie follows exactly when the anonymous one answers with a `null` URL; quality 0 means the highest |
| NeteaseClient.PlayUrl | src/api/netease.ts:161-206 | the requests made are `PlayRequests`; `url` rejects exactly when the last request fails, and otherwise resolves with that request's URL (none for a `null` or missing one) |
| NeteaseClient.FailureStopsRequests | src/api/netease.ts:194-199 | a failed first request is the only one made, and a second request is made only after a `null` URL |
| NeteaseClient.LyricUrl | src/api/netease.ts:208-210 | the lyric endpoint holds the id between its fixed parts, so the id can be read back |
| NeteaseClient.GetSongById | src/api/netease.ts:325-351 | a row exactly when the lookup finds a track: its id, its artists joined with `/`, no URL or path yet |
| NeteaseClient.JsSlice | src/api/netease.ts:652 | `Array.prototype.slice`: the piece between the clamped bounds (negative ones counted from the end), empty when they cross; never longer than the array; for bounds `0 <= start <= end` at most `end - start` long |
| NeteaseClient.FoundRowsComplete | src/api/netease.ts:655-660 | every id of the page that the lookup knows gives a row in the result |
| NeteaseClient.PageRows | src/api/netease.ts:654-660 | the loop pushes exactly the found rows, in id order |
| NeteaseClient.HitRows | src/api/netease.ts:717-738 | one row per hit, in hit order |
| NeteaseClient.Search | src/api/netease.ts:635-744 | the answer is `SearchAnswer` of the parsed input: the song found by id; the found rows of the playlist page, at most `limit`; the top hit of an exact match search; nothing for other links or blank text; the text search's hits in order; nothing whenever a request fails |
| NeteaseClient.Download | src/api/netease.ts:746-755 | the play-URL requests for the given cookie, quality and mode (defaults `""`, the highest quality, anonymous); a failed last request rejects with the song untouched; otherwise the song gets the URL and the lyric endpoint and no other field changes |
| DownloadApi.CheckFileName | src/api/download.ts:3-6 | every invalid character becomes `-`, every other one stays in place, and the length is kept |
| DownloadApi.CheckFileNameIdempotent | src/api/download.ts:3-6 | sanitising twice equals sanitising once |
| DownloadApi.CheckFileNameKeepsValidNames | src/api/download.ts:3-6 | a name without invalid characters is unchanged |
| DownloadApi.ExtractMusicLink | src/api/download.ts:9-89 | `""` for an empty text; the trimmed text when it already is a link; then short links, standard links, links built from a bare id, else the trimmed text |
| DownloadApi.ExtractMusicLinkShape | src/api/download.ts:9-89 | the answer is the trimmed text, a piece of it with an http(s) scheme, or the id prefix plus a piece of it; empty only for a blank text |
| DownloadApi.DownloadArgs | src/api/download.ts:137-151 | the argument string: the link as `-s` and `-u`, the file name `-f` from the sanitised and encoded name and artist, and ` -sl` at the end exactly when lyrics are saved |
| DownloadApi.DownloadArgsCarryUrlFlag | src/api/download.ts:137-151 | the arguments always hold the `-u "` the main process requires |
| DownloadApi.AdjustRange | src/api/download.ts:165 | the remap sends 0..100 into 15..95 and never goes backwards |
| DownloadApi.DeliverEvents | src/api/download.ts:159-177 | each progress event reaches the registered callback in order |
| DownloadApi.Download | src/api/download.ts:93-203 | the guards before any IPC call; the invoke with `DownloadArgs`; the reports 15, the remapped events and 100; the listener removed afterwards; `false` when the call is rejected |
| Preload.IsValidChannel | preload.cjs:29-34 | true exactly for the seven allowed channels |
| Preload.Bridge.Invoke | preload.cjs:29-34 | an allowed channel is forwarded and its answer returned; any other gives nothing and no IPC call |
| Preload.Bridge.OnDownloadProgress | preload.cjs:38-41 | the new callback replaces the stored one |
| Preload.Bridge.RemoveDownloadProgress | preload.cjs:43-46 | the slot is emptied |
| Preload.Bridge.ProgressEvent | preload.cjs:18-26 | an event goes to the stored callback, and is dropped when there is none |
| Preload.LatestCallbackWins | preload.cjs:15-46 | after two registrations only the second callback hears events, and none does after removal |
| MainProcess.NormalizeShortUrl | main.cjs:405-411 | the cleaned link has no white space and starts with an http(s) scheme |
| MainProcess.NormalizeIdempotent | main.cjs:405-411 | cleaning a cleaned link changes nothing |
| MainProcess.ParseUrl | main.cjs:430 | the protocol is `https:` or `http:` as the link's scheme says, the host holds no `/`, `?` or `#`, and the path starts with `/` |
| MainProcess.AbsoluteLocation | main.cjs:515-531 | an absolute Location stays as it is; `//x` takes the initial scheme; `/x` goes on the initial host; anything else goes next to the initial path |
| MainProcess.LocationAgreesOffProtocolRelative | main.cjs:515-531 | the handler as written agrees with `AbsoluteLocation` on every Location except protocol-relative ones |
| MainProcess.ProtocolRelativeMisresolved | main.cjs:517-524 | a protocol-relative Location is sent to a path on the short-link host |
| MainProcess.SongIdsAreDigits | main.cjs:567-569 | every collected id is a non-empty run of digits following `song?id=` |
| MainProcess.CollectSongIds | main.cjs:567-569 | the loop returns the ids of every match, left to right, without overlap |
| MainProcess.FirstCollectedId | main.cjs:567-569 | the first id collected is the leftmost one, and none is collected exactly when there is none |
| MainProcess.ScanHtml | main.cjs:551-605 | the page scan in the handler's order: song link, `song?id=` loop, meta tag, `data-rid`, `REDUX_STATE` |
| MainProcess.MetaStepUnreachable | main.cjs:577-581 | the meta-tag step never decides, because a page it matches is already decided by the step before it |
| MainProcess.FollowRedirect | main.cjs:456-494 | past ten redirects it gives up; below that, a link the song-link match (`Netease.ExtractSongId` in the handler) accepts gives that id |
| MainProcess.ResolveShortUrl | main.cjs:419-424 | a cleaned link that holds a song link gives its own id without a request; the rest of the chain resolves Location headers with `LocationAsWritten`, as the handler does |
| MainProcess.AfterResponseStep | main.cjs:508-531 | one response: a failed request gives nothing; a 3xx with a Location leads on to the link the Location resolver makes; a 3xx without one gives nothing; every other status has its body scanned |
| MainProcess.FollowShortUrl | main.cjs:395-635 | the handler's loop returns what `ResolveShortUrl` says, with Locations resolved as written; it makes no request exactly when the cleaned link holds a song link, and otherwise requests the cleaned link first and at most ten redirect targets after it |
| MainProcess.OneRedirect | main.cjs:508-531 | a redirect whose target holds no song link is answered by fetching the target the Location resolver gives, one redirect further |
| MainProcess.ProtocolRelativeChangesAnswer | main.cjs:515-531 | a redirect to `//example.com/p` whose page names a song: as written, the handler fetches `https://163cn.tv//example.com/p` and, when that fails, answers nothing; resolved per `AbsoluteLocation`, it answers with the song the page names |
| MainProcess.EscapeRoundTrip | main.cjs:18 | escaping the quotes of the download folder loses nothing |
| MainProcess.Command | main.cjs:114 | exactly `"<executable>"<args> --download-dir="<folder with its quotes escaped>"` |
| MainProcess.TicksShape | main.cjs:298-312 | the ticker's values rise strictly by 4, stay within 4..100 and reach 100 on the 25th tick |
| MainProcess.SyntheticProgress | main.cjs:298-312 | the interval loop sends exactly `Ticks` |
| MainProcess.ErrorMessageFor | main.cjs:175-186 | the dialog message, in priority order: missing executable, missing module, permission, generic |
| MainProcess.SuccessResult | main.cjs:317-334 | the decoded, trimmed capture after the first `successfully:`, null when there is none or it is empty |
| MainProcess.SuccessLineGivesPath | main.cjs:317-334 | when the output's first `successfully:` is followed by a line holding a non-empty path, the answer is that path, trimmed and decoded |
| MainProcess.MarkerFound | main.cjs:325 | output written after the first `successfully:` does not move where the first `successfully:` is found, and the text after the marker is that output |
| MainProcess.HandleDownload | main.cjs:13-351 | the guard on the arguments; a missing executable gives `false` with no progress events and no dialog; a failed run gives `false` and the error dialog with `ErrorMessageFor`; output without `successfully` gives `false` and the "download incomplete" dialog; success sends a final 100 and returns the parsed path |
| MainProcess.RequestHeaders.MoveFlagToCookie | main.cjs:651-659 | a non-empty `flag` header is removed and sent as `Cookie`; otherwise nothing changes |
| MainProcess.GreetingAt | main.cjs:208-224 | morning before 12, afternoon before 19, evening after |
| MainProcess.GreetingMovesForward | main.cjs:213-219 | over one day the greeting never goes back |
| Downloader.FileExtension | resources/musicdownloader.py:32-33 | what follows the last dot, up to the first `?`; `mp3` when there is no dot |
| Downloader.FilePath | resources/musicdownloader.py:36-38 | `<dir>/<name>.<ext>`, with `(<counter>)` right before the dot when the counter is not zero; always ends in `.<ext>` |
| Downloader.SplitLines | resources/musicdownloader.py:321 | `str.splitlines`: no piece holds a line break, and there are no pieces exactly when the text is empty |
| Downloader.SplitLinesRoundTrip | resources/musicdownloader.py:321 | each piece followed by the boundary it was cut at (`\r\n`, one break character, or nothing at the very end) gives the text back |
| Downloader.SplitLinesOnLineFeeds | resources/musicdownloader.py:321-356 | for a text whose only breaks are line feeds, none at its end, joining the pieces with line feeds gives the text back |
| Downloader.BlankLine | resources/musicdownloader.py:322 | `line.strip()` is empty exactly for blank lines |
| Downloader.TaggedLineKept | resources/musicdownloader.py:322-324 | a line is kept exactly when it is not blank and its first `]` is at least two characters after its first `[` |
| Downloader.BracketLineNotBlank | resources/musicdownloader.py:322 | a line holding `[` always passes the `line.strip()` test, so that test never decides whether a line is kept |
| Downloader.TaggedLineTag | resources/musicdownloader.py:323 | whatever is done to the text after it, a kept line's tag runs from its first `[` to its first `]`, at least two characters later |
| Downloader.TagSlice | resources/musicdownloader.py:323 | such a slice opens with `[`, closes with `]` and holds no other `]` |
| Downloader.TabulateKeys | resources/musicdownloader.py:321-326 | a tag is in the dictionary exactly when some line carries it |
| Downloader.TabulateLastWins | resources/musicdownloader.py:326 | the text stored under a tag is that of the last line carrying it |
| Downloader.HeaderLinesAreHeaders | resources/musicdownloader.py:340-342 | a line is among the header lines exactly when it is a line of the lyric that opens with `[ti:`, `[ar:` or `[al:` |
| Downloader.HeaderLinesKeepOrder | resources/musicdownloader.py:340-342 | the header lines of two stretches of a lyric are those of the first, then those of the second, so the lyric's order is kept |
| Downloader.SortStrings | resources/musicdownloader.py:345 | `sorted` gives the same strings in strictly ascending order |
| Downloader.BodyShape | resources/musicdownloader.py:345-354 | every merged line carries a tag, and an original line its non-empty text; a translation comes right after its original |
| Downloader.TranslationIffPresent | resources/musicdownloader.py:351-354 | an original line is followed by a translation exactly when the translation has non-empty text for its tag |
| Downloader.PrimariesAscending | resources/musicdownloader.py:345 | the original lines come in strictly ascending tag order |
| Downloader.PrimaryForEveryTag | resources/musicdownloader.py:346-348 | a tag gets an original line exactly when its text is not empty |
| Downloader.MergedLinesShape | resources/musicdownloader.py:311-356 | the merged lines are the headers, then the body over the sorted tags of the original |
| Downloader.ParseLyric | resources/musicdownloader.py:321-326 | the parsing loop builds the dictionary `Tabulate` describes |
| Downloader.CollectHeaders | resources/musicdownloader.py:340-342 | the copying loop returns the header lines |
| Downloader.AppendBody | resources/musicdownloader.py:345-354 | the loop over the sorted tags appends the rendered body |
| Downloader.MergeLyricsWithTranslation | resources/musicdownloader.py:311-356 | returns `Merge`: the original when either lyric is empty, else the merged lines joined with line feeds |
| Downloader.RunMain | resources/musicdownloader.py:359-441 | the exit status and the `successfully:<path>` line, for each error path and for success |
| ListStore.SettledOutcome | src/stores/list.ts:11-48 | a settled row is `downloaded` with the path and 100 on success; `vip` when the store answers otherwise, and still `downloading` when the store rejects, in both cases with the path untouched and the progress at the store's last report; catalogue fields never change |
| ListStore.Heard | src/stores/list.ts:21-45 | the callback hears 2 and every report of the store, then 100 on success or 0 on failure; nothing more when the store rejects |
| ListStore.NoneCompleted | src/stores/list.ts:68 | the count is zero exactly when no row succeeds |
| ListStore.BatchCount | src/stores/list.ts:66-68 | a batch's successes are what `Completed` adds for its rows |
| ListStore.List.UpdateProgress | src/stores/list.ts:21-28 | the row's progress becomes the value; the callback hears it when given |
| ListStore.List.Finish | src/stores/list.ts:37-47 | the row after the store's answer, and the result `true` exactly for a non-empty path |
| ListStore.List.Download | src/stores/list.ts:11-48 | an index with no row rejects and changes nothing; otherwise only that row changes, to `Settled`; the result rejects exactly when the store rejects, and is otherwise whether a non-empty path came back; the callback hears `Heard` |
| ListStore.List.RunBatch | src/stores/list.ts:60-66 | every row of the batch ends as `Outcome` and no other row changes; the batch rejects exactly when one of its rows' stores rejects; otherwise the results are the rows' successes in index order |
| ListStore.BatchesCover | src/stores/list.ts:59-61 | the batches `slice(i, i + maxConcurrent)` for `i = 0, maxConcurrent, ...` cover the indices once, in order, each non-empty and at most the batch size |
| ListStore.List.DownloadAll | src/stores/list.ts:55-73 | the batches run are the first ones of `Batches` (`[i, i + maxConcurrent)` for `i = 0, maxConcurrent, ...`, the last cut at the row count), all of them when nothing rejects; they cover the indices from 0 once, in order, each non-empty and at most the batch size; their rows end as `Outcome` and later rows are untouched; the count comes back exactly when no row's store rejects, and is then the number of successes over all rows; otherwise the last batch run holds a rejecting row and no earlier row rejects |
| ListStore.List.OpenPath | src/stores/list.ts:50-53 | the path sent to the `open` channel, `""` when the row has none; an index with no row throws |

## Left out

- Network, timing and timeouts. Every request is an oracle parameter, and a timeout is a failed request.
- Concurrency. `downloadAll` runs each batch's downloads in index order, one after another. Rows are independent, so the rows and the count are as in any interleaving. The shared progress slot of the preload bridge is not modelled across concurrent rows.
- NeteaseClient.PageRows pushes rows in id order. The source pushes them as the concurrent lookups finish, so its order can differ. The set of rows is the same.
- NeteaseClient.HitRows leaves out the `try` around building one row. It never throws on a well-formed hit.
- MainProcess.ParseUrl covers only what the handler reads from `url.parse` of an http(s) link. User info, ports and IDN hosts are not modelled.
- `decodeURIComponent`, `encodeURIComponent`, `unquote`, `quote` and `JSON.parse` are oracles. Their exceptions are not modelled, except where `unquote` of a missing argument raises in `main`.
- Shell expansion of the command line is not modelled. The child process is an oracle outcome.
- `Date.now` and `format` for the publish time are left out. The `publishTime` field is taken from the catalogue track as it is.
- DownloadApi.Adjust works in exact integer arithmetic. `Math.floor(15 + p * 0.8)` is taken on integer progress values; no floating point rounding is modelled.
- The download store (`src/stores/download.ts`) and the search store are thin glue. The download store is the `StoreRun` oracle: the progress reports it makes (5 and 10), the URL and lyrics it writes, and its answer. The answer is None when its promise rejects, as it does when `NeteaseClient.Download` rejects because a play-URL request failed; the store's own code between the two is not part of this model.
- `testResolveShortUrl` is a diagnostic export and is not modelled.
- `searchByShortLink` in `src/api/netease.ts` is never called, so it is not modelled.
- The login window, the `netease-login`, `get-netease-login`, `open`, `set-download-path` and `get-download-path` handlers, and window creation in `main.cjs` are not modelled. They are Electron and file-system calls with no logic.
- `getDownloadPath` and `setDownloadPath` in `src/api/download.ts` only forward to the bridge and are not modelled.
- `os.path.join` is modelled as on POSIX (`JoinPath`). Windows separators and drive letters are not modelled.
- Downloader.RunMain covers only the arguments `-u`, `-f`, `-t`, `-ar` and `-al`.
- Downloader.RunMain models only the printed lines the main process reads, the `successfully` ones. Other prints are left out.
- `download_file`, `save_lyrics` and the MP3 and FLAC tag writers are oracles. Their success flag and the line they print are parameters.
- Downloader.RunMain's first `successfully:` line can be the MP3 writer's metadata line. The main process reads that one, and this is modelled through `MetadataLine`.
- ListStore.List.DownloadAll requires a batch size of at least 1 when there are rows. With a smaller one the source's loop never ends.
- Downloader.TaggedLineTag states only the tag's position. The tag's text is covered through `TagSlice`, and the stripped text after the tag is left to `Strip` in `ParseTagged`.

## Findings

| source | as written | input that shows it | evidently intended | confidence | as-written member | corrected member |
|---|---|---|---|---|---|---|
| main.cjs:515-531 | a Location starting with `/` is tested first, so a protocol-relative `//host/path` is joined to the short-link host as a path | a short link answered by a 302 to `//example.com/p`, whose page names a song: the handler requests `https://163cn.tv//example.com/p`, and when that request fails it answers nothing | the `//` branch at main.cjs:523-524 takes the initial scheme, requests `https://example.com/p` and answers with the song the page names | not executed | MainProcess.ProtocolRelativeChangesAnswer | MainProcess.AbsoluteLocation |

=== FILE: download_api.dfy ===
/**
 * The renderer's download entry point (src/api/download.ts): sanitising file names, pulling a
 * catalogue link out of whatever the row's `url` holds, building the downloader's command line,
 * and driving the progress listener around the `download` IPC call.
 *
 * `encodeURIComponent` is a parameter (`encode`); the main process's answer to the IPC call and
 * the progress events it sends while it runs are parameters too.
 */
module DownloadApi {
  import opened TextScan
  import opened Songs
  import Netease
  import Preload

  // ---------------------------------------------------------------------------------------------
  // checkFileName: /[\\/:*?<>|]/g replaced by "-"

  /** The characters a file name may not contain. */
  predicate IsInvalidFileChar(c: char)
  {
    c == '\\' || c == '/' || c == ':' || c == '*' || c == '?' || c == '<' || c == '>' || c == '|'
  }

  /** `checkFileName`: every invalid character becomes `-`, every other one stays where it is. */
  function CheckFileName(name: string): (r: string)
    ensures |r| == |name|
    ensures forall i :: 0 <= i < |r| ==> if IsInvalidFileChar(name[i]) then r[i] == '-' else r[i] == name[i]
    ensures forall i :: 0 <= i < |r| ==> !IsInvalidFileChar(r[i])
  {
    if name == [] then []
    else [if IsInvalidFileChar(name[0]) then '-' else name[0]] + CheckFileName(name[1..])
  }

  /** A sanitised name is left alone by a second pass. */
  lemma CheckFileNameIdempotent(name: string)
    ensures CheckFileName(CheckFileName(name)) == CheckFileName(name)
  {
    var r := CheckFileName(name);
    var rr := CheckFileName(r);
    assert forall i :: 0 <= i < |r| ==> rr[i] == r[i];
  }

  /** A name without invalid characters is its own sanitised form. */
  lemma CheckFileNameKeepsValidNames(name: string)
    requires forall i :: 0 <= i < |name| ==> !IsInvalidFileChar(name[i])
    ensures CheckFileName(name) == name
  {
    var r := CheckFileName(name);
    assert forall i :: 0 <= i < |r| ==> r[i] == name[i];
  }

  // ---------------------------------------------------------------------------------------------
  // extractMusicLink

  /** `[^\s)]`: anything but white space and a closing parenthesis. */
  predicate NotSpaceParen(c: char) { !IsJsSpace(c) && c != ')' }

  /** `https?:\/\/music\.163\.com[^\s)]+` at `p` (ASCII case folded): where the run of `[^\s)]`
      after the host ends, when it holds at least one character. */
  function MusicRunAt(s: string, p: nat): (e: Option<nat>)
    ensures e.Some? <==> (var h := p + Netease.SchemeLength(s, p) + 13;
      Netease.SchemeLength(s, p) > 0 && HasAtCi(s, p + Netease.SchemeLength(s, p), "music.163.com")
      && h < |s| && NotSpaceParen(s[h]))
    ensures e.Some? ==> var h := p + Netease.SchemeLength(s, p) + 13;
      h < e.value <= |s| && e.value == RunEnd(s, h, NotSpaceParen)
  {
    var n := Netease.SchemeLength(s, p);
    var h := p + n + 13;
    if n > 0 && HasAtCi(s, p + n, "music.163.com") && h < |s| && NotSpaceParen(s[h]) then
      Some(RunEnd(s, h, NotSpaceParen))
    else None
  }

  /** `key` (lower case) followed by a digit starts somewhere in `[a, b)` and ends before `b`. */
  function KeyDigitsIn(s: string, a: nat, b: nat, key: string): (r: bool)
    requires b <= |s|
    decreases b - a
    ensures r <==> exists j: nat :: a <= j && j + |key| < b && HasAtCi(s, j, key) && IsDigit(s[j + |key|])
  {
    if a + |key| >= b then false
    else if HasAtCi(s, a, key) && IsDigit(s[a + |key|]) then true
    else
      var r := KeyDigitsIn(s, a + 1, b, key);
      assert forall j: nat :: a <= j && j + |key| < b && HasAtCi(s, j, key) && IsDigit(s[j + |key|]) ==> a + 1 <= j;
      r
  }

  /** `(https?:\/\/music\.163\.com[^\s)]+<key>\d+[^\s)]*)` at `p`.  Every character of `<key>` and
      of the digits is a `[^\s)]` character, so a match spans the whole `[^\s)]` run after the host
      whichever occurrence of the key the engine settles on. */
  function KeyedStandardAt(s: string, p: nat, key: string): (r: Option<string>)
    ensures r.Some? <==> (MusicRunAt(s, p).Some? &&
      KeyDigitsIn(s, p + Netease.SchemeLength(s, p) + 14, MusicRunAt(s, p).value, key))
    ensures r.Some? ==> r == Some(s[p..MusicRunAt(s, p).value])
  {
    match MusicRunAt(s, p)
    case None => None
    case Some(e) =>
      if KeyDigitsIn(s, p + Netease.SchemeLength(s, p) + 14, e, key) then Some(s[p..e]) else None
  }

  function SongStandardAt(s: string, p: nat): Option<string> { KeyedStandardAt(s, p, "song?id=") }

  function PlaylistStandardAt(s: string, p: nat): Option<string> { KeyedStandardAt(s, p, "playlist?id=") }

  function AlbumStandardAt(s: string, p: nat): Option<string> { KeyedStandardAt(s, p, "album?id=") }

  /** `(https?:\/\/music\.163\.com[^\s)]+)` at `p`. */
  function PlainStandardAt(s: string, p: nat): (r: Option<string>)
    ensures r.Some? <==> MusicRunAt(s, p).Some?
    ensures r.Some? ==> r == Some(s[p..MusicRunAt(s, p).value])
  {
    match MusicRunAt(s, p)
    case None => None
    case Some(e) => Some(s[p..e])
  }

  /** `<key>(\d+)` at `p`: the whole match, key in its original case and the digits. */
  function IdKeyAt(s: string, p: nat, key: string): (r: Option<string>)
    ensures r.Some? <==> HasAtCi(s, p, key) && p + |key| < |s| && IsDigit(s[p + |key|])
    ensures r.Some? ==> r == Some(s[p..RunEnd(s, p + |key|, IsDigit)])
  {
    if HasAtCi(s, p, key) && p + |key| < |s| && IsDigit(s[p + |key|]) then
      Some(s[p..RunEnd(s, p + |key|, IsDigit)])
    else None
  }

  function SongKeyAt(s: string, p: nat): Option<string> { IdKeyAt(s, p, "song?id=") }

  function PlaylistKeyAt(s: string, p: nat): Option<string> { IdKeyAt(s, p, "playlist?id=") }

  function AlbumKeyAt(s: string, p: nat): Option<string> { IdKeyAt(s, p, "album?id=") }

  /** The prefix put in front of a bare `song?id=…` found in the text. */
  const IdLinkPrefix := "https://music.163.com/#/"

  /** `cleaned.startsWith('http://') || cleaned.startsWith('https://')`, case sensitive. */
  predicate IsHttpLink(s: string)
  {
    StartsWith(s, "http://") || StartsWith(s, "https://")
  }

  /** The first of the standard-link patterns that matches, in the order song, playlist, album,
      any link. */
  function FirstStandardLink(t: string): (r: Option<string>)
    ensures r.None? <==> (!MatchesSomewhere(t, SongStandardAt) && !MatchesSomewhere(t, PlaylistStandardAt)
      && !MatchesSomewhere(t, AlbumStandardAt) && !MatchesSomewhere(t, PlainStandardAt))
    ensures MatchesSomewhere(t, SongStandardAt) ==> r.Some? && IsLeftmostMatch(t, SongStandardAt, r.value)
  {
    match Leftmost(t, SongStandardAt)
    case Some(v) => Some(v)
    case None =>
      match Leftmost(t, PlaylistStandardAt)
      case Some(v) => Some(v)
      case None =>
        match Leftmost(t, AlbumStandardAt)
        case Some(v) => Some(v)
        case None => Leftmost(t, PlainStandardAt)
  }

  /** The first of the bare-id patterns that matches (song, playlist, album), as a full link. */
  function FirstIdLink(t: string): (r: Option<string>)
    ensures r.None? <==> (!MatchesSomewhere(t, SongKeyAt) && !MatchesSomewhere(t, PlaylistKeyAt)
      && !MatchesSomewhere(t, AlbumKeyAt))
    ensures MatchesSomewhere(t, SongKeyAt) ==> exists v :: IsLeftmostMatch(t, SongKeyAt, v) && r == Some(IdLinkPrefix + v)
  {
    match Leftmost(t, SongKeyAt)
    case Some(v) => Some(IdLinkPrefix + v)
    case None =>
      match Leftmost(t, PlaylistKeyAt)
      case Some(v) => Some(IdLinkPrefix + v)
      case None =>
        match Leftmost(t, AlbumKeyAt)
        case Some(v) => Some(IdLinkPrefix + v)
        case None => None
  }

  /** `extractMusicLink`: "" for an empty text; the trimmed text when it already is an http(s)
      link; otherwise the first short link, else the first standard link, else a full link built
      from a bare id, else the trimmed text. */
  function ExtractMusicLink(shareText: string): (r: string)
    ensures shareText == "" ==> r == ""
    ensures shareText != "" && IsHttpLink(Trim(shareText)) ==> r == Trim(shareText)
    ensures shareText != "" && !IsHttpLink(Trim(shareText)) ==>
      r == match Netease.ExtractShortUrl(Trim(shareText))
        case Some(u) => u
        case None =>
          match FirstStandardLink(Trim(shareText))
          case Some(u) => u
          case None =>
            match FirstIdLink(Trim(shareText))
            case Some(u) => u
            case None => Trim(shareText)
  {
    if shareText == "" then ""
    else
      var t := Trim(shareText);
      if IsHttpLink(t) then t
      else match Netease.ExtractShortUrl(t)
        case Some(u) => u
        case None =>
          match FirstStandardLink(t)
          case Some(u) => u
          case None =>
            match FirstIdLink(t)
            case Some(u) => u
            case None => t
  }

  /** A piece of `s` starting at `p` and at least eight characters long has the scheme `s` has at `p`. */
  lemma SchemeOfPiece(s: string, p: nat, v: string)
    requires HasAt(s, p, v) && |v| >= 8
    ensures Netease.SchemeLength(v, 0) == Netease.SchemeLength(s, p)
  {
    assert forall i :: 0 <= i < 8 ==> v[i] == s[p + i];
  }

  /** What the standard-link patterns capture at `p` is a piece of `s` that begins with an http(s)
      scheme (in any letter case). */
  lemma MusicRunShape(s: string, p: nat)
    requires MusicRunAt(s, p).Some?
    ensures var v := s[p..MusicRunAt(s, p).value]; IsSubstring(v, s) && Netease.SchemeLength(v, 0) > 0
  {
    var v := s[p..MusicRunAt(s, p).value];
    assert HasAt(s, p, v);
    SchemeOfPiece(s, p, v);
  }

  /** A link the short-link patterns capture at `p` begins with an http(s) scheme. */
  lemma HostLinkShape(s: string, p: nat, host: string)
    requires Netease.HostLinkAt(s, p, host).Some?
    ensures Netease.SchemeLength(Netease.HostLinkAt(s, p, host).value, 0) > 0
  {
    var v := Netease.HostLinkAt(s, p, host).value;
    SchemeOfPiece(s, p, v);
  }

  /** A short link found by the short-link patterns begins with an http(s) scheme. */
  lemma ShortLinkShape(t: string)
    requires Netease.ExtractShortUrl(t).Some?
    ensures Netease.SchemeLength(Netease.ExtractShortUrl(t).value, 0) > 0
  {
    var v := Netease.ExtractShortUrl(t).value;
    if Leftmost(t, Netease.ShortLinkAt).Some? {
      var p: nat :| p <= |t| && Netease.ShortLinkAt(t, p) == Some(v);
      HostLinkShape(t, p, Netease.ShortHost);
    } else if Leftmost(t, Netease.MusicLinkAt).Some? {
      var p: nat :| p <= |t| && Netease.MusicLinkAt(t, p) == Some(v);
      HostLinkShape(t, p, Netease.MusicHost);
    } else {
      var p: nat :| p <= |t| && Netease.YMusicLinkAt(t, p) == Some(v);
      HostLinkShape(t, p, Netease.YMusicHost);
    }
  }

  /** A standard link found in `t` is a piece of it that begins with an http(s) scheme. */
  lemma StandardLinkShape(t: string)
    requires FirstStandardLink(t).Some?
    ensures var v := FirstStandardLink(t).value; IsSubstring(v, t) && Netease.SchemeLength(v, 0) > 0
  {
    if Leftmost(t, SongStandardAt).Some? {
      var p: nat :| p <= |t| && SongStandardAt(t, p) == Leftmost(t, SongStandardAt);
      MusicRunShape(t, p);
    } else if Leftmost(t, PlaylistStandardAt).Some? {
      var p: nat :| p <= |t| && PlaylistStandardAt(t, p) == Leftmost(t, PlaylistStandardAt);
      MusicRunShape(t, p);
    } else if Leftmost(t, AlbumStandardAt).Some? {
      var p: nat :| p <= |t| && AlbumStandardAt(t, p) == Leftmost(t, AlbumStandardAt);
      MusicRunShape(t, p);
    } else {
      var p: nat :| p <= |t| && PlainStandardAt(t, p) == Leftmost(t, PlainStandardAt);
      MusicRunShape(t, p);
    }
  }

  /** The link built on a bare-id match at `p` is the prefix followed by a piece of `t`. */
  lemma IdMatchShape(t: string, p: nat, key: string)
    requires IdKeyAt(t, p, key).Some?
    ensures var r := IdLinkPrefix + IdKeyAt(t, p, key).value;
      StartsWith(r, IdLinkPrefix) && IsSubstring(r[|IdLinkPrefix|..], t)
  {
    var v := IdKeyAt(t, p, key).value;
    var r := IdLinkPrefix + v;
    assert HasAt(t, p, v);
    assert r[|IdLinkPrefix|..] == v;
    assert r[..|IdLinkPrefix|] == IdLinkPrefix;
  }

  /** A bare-id link is the prefix followed by a piece of `t`. */
  lemma IdLinkShape(t: string)
    requires FirstIdLink(t).Some?
    ensures var v := FirstIdLink(t).value;
      StartsWith(v, IdLinkPrefix) && IsSubstring(v[|IdLinkPrefix|..], t)
  {
    var r := FirstIdLink(t).value;
    if Leftmost(t, SongKeyAt).Some? {
      var p: nat :| p <= |t| && SongKeyAt(t, p) == Leftmost(t, SongKeyAt);
      IdMatchShape(t, p, "song?id=");
    } else if Leftmost(t, PlaylistKeyAt).Some? {
      var p: nat :| p <= |t| && PlaylistKeyAt(t, p) == Leftmost(t, PlaylistKeyAt);
      IdMatchShape(t, p, "playlist?id=");
    } else {
      var p: nat :| p <= |t| && AlbumKeyAt(t, p) == Leftmost(t, AlbumKeyAt);
      IdMatchShape(t, p, "album?id=");
    }
  }

  /** What `extractMusicLink` gives back: the trimmed text itself, a piece of it that begins with an
      http(s) scheme, or the bare-id link built on a piece of it.  An empty answer comes only from
      a text that is empty once trimmed. */
  lemma {:induction false} ExtractMusicLinkShape(shareText: string)
    ensures var r := ExtractMusicLink(shareText); var t := Trim(shareText);
      || r == t
      || (IsSubstring(r, t) && Netease.SchemeLength(r, 0) > 0)
      || (StartsWith(r, IdLinkPrefix) && IsSubstring(r[|IdLinkPrefix|..], t))
    ensures ExtractMusicLink(shareText) == "" <==> Trim(shareText) == ""
  {
    var t := Trim(shareText);
    if shareText == "" {
      assert TrimStartBy(shareText, IsJsSpace) == "";
    } else if IsHttpLink(t) {
    } else if Netease.ExtractShortUrl(t).Some? {
      ShortLinkShape(t);
    } else if FirstStandardLink(t).Some? {
      StandardLinkShape(t);
    } else if FirstIdLink(t).Some? {
      IdLinkShape(t);
    }
  }

  // ---------------------------------------------------------------------------------------------
  // The command line

  /** One ` -<flag> "<value>"` argument. */
  function Quoted(flag: string, value: string): string
  {
    " -" + flag + " \"" + value + "\""
  }

  /** The sanitised, encoded name, artist and album fields. */
  function NameField(song: Song, encode: string -> string): string { encode(CheckFileName(song.name)) }

  function ArtistField(song: Song, encode: string -> string): string { encode(CheckFileName(song.artist)) }

  /** The arguments after `-u`, up to the optional ` -sl`. */
  function ArgsTail(song: Song, encode: string -> string): string
  {
    var lyricsUrl := match song.lyrics case Some(l) => l case None => "";
    Quoted("c", song.cover) + Quoted("l", lyricsUrl) + " -i " + song.id
    + Quoted("t", NameField(song, encode)) + Quoted("ar", ArtistField(song, encode))
    + Quoted("al", encode(CheckFileName(song.album))) + Quoted("p", song.publishTime)
  }

  /** Where the first three pieces of `a + b + c + d` sit. */
  lemma Layout(a: string, b: string, c: string, d: string, x: string)
    requires x == a + b + c + d
    ensures HasAt(x, 0, a)
    ensures HasAt(x, |a|, b)
    ensures HasAt(x, |a| + |b|, c)
  {
    assert x[..|a|] == a;
    assert x[|a|..|a| + |b|] == b;
    assert x[|a| + |b|..|a| + |b| + |c|] == c;
  }

  /** The arguments end with ` -sl` exactly when it was appended: otherwise they end with the
      closing quote of `-p`. */
  lemma SaveLyricSuffix(body: string, saveLyric: bool)
    requires body != [] && body[|body| - 1] == '"'
    ensures EndsWith(body + (if saveLyric then " -sl" else ""), " -sl") <==> saveLyric
  {
    var x := body + (if saveLyric then " -sl" else "");
    if saveLyric {
      assert x[|x| - 4..] == " -sl";
    } else {
      assert x[|x| - 1] == '"' && " -sl"[3] == 'l';
    }
  }

  /** The downloader's arguments for `song`, whose link is `url`: the link as `-s` and again as
      `-u`, `-f` as `"<name> - <artist>"` from the sanitised and encoded fields, and ` -sl` at the
      end exactly when the lyrics are to be saved as a file. */
  function DownloadArgs(url: string, song: Song, saveLyric: bool, encode: string -> string): (args: string)
    ensures StartsWith(args, Quoted("s", url))
    ensures HasAt(args, |Quoted("s", url)|, Quoted("f", NameField(song, encode) + " - " + ArtistField(song, encode)))
    ensures HasAt(args, |Quoted("s", url)| + |Quoted("f", NameField(song, encode) + " - " + ArtistField(song, encode))|, Quoted("u", url))
    ensures EndsWith(args, " -sl") <==> saveLyric
  {
    var head := Quoted("s", url);
    var file := Quoted("f", NameField(song, encode) + " - " + ArtistField(song, encode));
    var link := Quoted("u", url);
    var tail := ArgsTail(song, encode) + (if saveLyric then " -sl" else "");
    var args := head + file + link + tail;
    Layout(head, file, link, tail, args);
    assert args == head + file + link + ArgsTail(song, encode) + (if saveLyric then " -sl" else "");
    SaveLyricSuffix(head + file + link + ArgsTail(song, encode), saveLyric);
    args
  }

  /** The arguments always carry the `-u "` the main process looks for before it runs anything. */
  lemma DownloadArgsCarryUrlFlag(url: string, song: Song, saveLyric: bool, encode: string -> string)
    ensures Contains(DownloadArgs(url, song, saveLyric, encode), "-u \"")
  {
    var args := DownloadArgs(url, song, saveLyric, encode);
    var k := |Quoted("s", url)| + |Quoted("f", NameField(song, encode) + " - " + ArtistField(song, encode))|;
    assert args[k..k + |Quoted("u", url)|] == Quoted("u", url);
    assert args[k + 1..k + 5] == Quoted("u", url)[1..5] == "-u \"";
    ContainsAt(args, "-u \"", k + 1);
  }

  // ---------------------------------------------------------------------------------------------
  // Progress

  /** `Math.floor(15 + progress * 0.8)` on the integer progress values the main process sends. */
  function Adjust(p: int): (a: int)
    ensures 5 * a <= 75 + 4 * p < 5 * a + 5
  {
    (75 + 4 * p) / 5
  }

  /** The listener maps 0..100 into 15..95, never going backwards. */
  lemma AdjustRange(p: int, q: int)
    requires 0 <= p <= q <= 100
    ensures 15 <= Adjust(p) <= Adjust(q) <= 95
  {
  }

  /** What the listener passes on for a sequence of events. */
  function Adjusted(events: seq<int>): (r: seq<int>)
    ensures |r| == |events| && forall i :: 0 <= i < |r| ==> r[i] == Adjust(events[i])
  {
    if events == [] then [] else [Adjust(events[0])] + Adjusted(events[1..])
  }

  /** The deliveries the bridge makes for a sequence of events while `slot` is registered. */
  function Deliveries(slot: Option<nat>, events: seq<int>): (r: seq<Preload.Delivery>)
    ensures slot.None? ==> r == []
    ensures slot.Some? ==> |r| == |events| && forall i :: 0 <= i < |r| ==> r[i] == Preload.Delivery(slot.value, events[i])
  {
    if slot.None? || events == [] then [] else [Preload.Delivery(slot.value, events[0])] + Deliveries(slot, events[1..])
  }

  /** The main process's progress events reach the bridge one after the other. */
  method DeliverEvents(bridge: Preload.Bridge, events: seq<int>)
    modifies bridge
    ensures bridge.delivered == old(bridge.delivered) + Deliveries(old(bridge.slot), events)
    ensures bridge.slot == old(bridge.slot) && bridge.sent == old(bridge.sent)
  {
    var i := 0;
    while i < |events|
      invariant 0 <= i <= |events|
      invariant bridge.delivered == old(bridge.delivered) + Deliveries(old(bridge.slot), events[..i])
      invariant bridge.slot == old(bridge.slot) && bridge.sent == old(bridge.sent)
    {
      bridge.ProgressEvent(events[i]);
      assert events[..i + 1] == events[..i] + [events[i]];
      DeliveriesAppend(bridge.slot, events[..i], events[i]);
      i := i + 1;
    }
    assert events[..i] == events;
  }

  lemma DeliveriesAppend(slot: Option<nat>, events: seq<int>, e: int)
    ensures Deliveries(slot, events + [e]) ==
      Deliveries(slot, events) + (if slot.Some? then [Preload.Delivery(slot.value, e)] else [])
  {
    var r := Deliveries(slot, events + [e]);
    if slot.Some? {
      assert forall i :: 0 <= i < |r| ==> r[i] == (Deliveries(slot, events) + [Preload.Delivery(slot.value, e)])[i];
    }
  }

  // ---------------------------------------------------------------------------------------------
  // electron.download

  /** `electron.download`.  `song.url` is replaced by the extracted link (`url` is the field
      afterwards); a missing link, or an extracted one not starting with `http`, gives `false`
      before any IPC call.  Otherwise the `download` channel is invoked with `DownloadArgs`; with a
      progress callback the call's `listener` is registered first and 15 reported, each event the
      main process sends is reported through `Adjust`, and the listener is removed afterwards,
      after reporting 100 on a normal return.  A rejected call (`ipc` None) gives `false`. */
  method Download(song: Song, saveLyric: bool, hasCallback: bool, listener: nat, encode: string -> string,
                  events: seq<int>, ipc: string -> Option<DownloadAnswer>, bridge: Preload.Bridge)
    returns (r: DownloadAnswer, url: Option<string>, reports: seq<int>)
    modifies bridge
    ensures song.url.None? || song.url.value == "" ==>
      r == FalseAnswer && url == song.url && reports == [] && bridge.sent == old(bridge.sent)
    ensures song.url.Some? && song.url.value != "" ==> url == Some(ExtractMusicLink(song.url.value))
    ensures url.Some? && !StartsWith(url.value, "http") ==>
      r == FalseAnswer && reports == [] && bridge.sent == old(bridge.sent)
    ensures url.Some? && StartsWith(url.value, "http") ==>
      var args := DownloadArgs(url.value, song, saveLyric, encode);
      && bridge.sent == old(bridge.sent) + [Preload.IpcCall("download", args)]
      && r == (match ipc(args) case Some(a) => a case None => FalseAnswer)
      && (hasCallback ==>
            && reports == [15] + Adjusted(events) + (if ipc(args).Some? then [100] else [])
            && bridge.slot.None?
            && bridge.delivered == old(bridge.delivered) + Deliveries(Some(listener), events))
      && (!hasCallback ==>
            && reports == []
            && bridge.slot == old(bridge.slot)
            && bridge.delivered == old(bridge.delivered) + Deliveries(old(bridge.slot), events))
    ensures r == FalseAnswer || bridge.sent != old(bridge.sent)
  {
    reports := [];
    url := song.url;
    if song.url.None? || song.url.value == "" {
      return FalseAnswer, url, reports;
    }
    url := Some(ExtractMusicLink(song.url.value));
    if !StartsWith(url.value, "http") {
      return FalseAnswer, url, reports;
    }
    var args := DownloadArgs(url.value, song, saveLyric, encode);
    r, reports := InvokeDownload(args, hasCallback, listener, events, ipc, bridge);
  }

  /** The IPC part of `electron.download`, once the arguments are known. */
  method InvokeDownload(args: string, hasCallback: bool, listener: nat, events: seq<int>,
                        ipc: string -> Option<DownloadAnswer>, bridge: Preload.Bridge)
    returns (r: DownloadAnswer, reports: seq<int>)
    modifies bridge
    ensures bridge.sent == old(bridge.sent) + [Preload.IpcCall("download", args)]
    ensures r == (match ipc(args) case Some(a) => a case None => FalseAnswer)
    ensures hasCallback ==>
      && reports == [15] + Adjusted(events) + (if ipc(args).Some? then [100] else [])
      && bridge.slot.None?
      && bridge.delivered == old(bridge.delivered) + Deliveries(Some(listener), events)
    ensures !hasCallback ==>
      && reports == []
      && bridge.slot == old(bridge.slot)
      && bridge.delivered == old(bridge.delivered) + Deliveries(old(bridge.slot), events)
  {
    reports := [];
    if hasCallback {
      bridge.OnDownloadProgress(listener);
      reports := [15];
    }
    DeliverEvents(bridge, events);
    var started := reports + (if hasCallback then Adjusted(events) else []);
    var answer := bridge.Invoke("download", args, (channel: string, a: string) => ipc(a));
    assert Preload.IsValidChannel("download") by {
      assert Preload.ValidChannels[0] == "download";
    }
    match answer.value
    case Some(a) =>
      if hasCallback {
        reports := started + [100];
        bridge.RemoveDownloadProgress();
      }
      r := a;
    case None =>
      if hasCallback {
        reports := started;
        bridge.RemoveDownloadProgress();
      }
      r := FalseAnswer;
  }
}

=== FILE: downloader.dfy ===
/**
 * The helper script the main process runs (resources/musicdownloader.py): the file extension
 * taken from the audio link, the target path, the merge of a lyric with its translation, and the
 * script's exit protocol (`-u` required, exit status 1 on failure, a `successfully:<path>` line
 * on success).
 *
 * The HTTP download, the tag writers (eyed3, mutagen), `urllib.parse.quote`/`unquote` and the
 * separate lyric file are parameters; `os.path.join` is the POSIX two-argument join.
 */
module Downloader {
  import opened TextScan

  // ---------------------------------------------------------------------------------------------
  // File names

  /** `t.split('?')[0]`: `t` up to its first `?`. */
  function UpToQuery(t: string): (r: string)
    ensures r <= t && '?' !in r
    ensures |r| == |t| || t[|r|] == '?'
  {
    match FindChar(t, '?')
    case None => t
    case Some(q) => t[..q]
  }

  /** `url.split('.')[-1].split('?')[0] if '.' in url else 'mp3'`: what follows the last dot, up
      to the first `?` after it. */
  function FileExtension(url: string): (r: string)
    ensures '.' !in url ==> r == "mp3"
    ensures '.' in url ==> (
      var k := FindLastChar(url, '.').value;
      && r <= url[k + 1..] && '.' !in r && '?' !in r
      && (|r| == |url| - k - 1 || url[k + 1 + |r|] == '?'))
  {
    match FindLastChar(url, '.')
    case None => "mp3"
    case Some(k) =>
      var r := UpToQuery(url[k + 1..]);
      assert forall i :: 0 <= i < |r| ==> r[i] == url[k + 1..][i];
      r
  }

  /** `os.path.join(directory, name)` on POSIX: an absolute name replaces the directory, and a
      separator is put between the two unless the directory is empty or already ends in one. */
  function JoinPath(directory: string, name: string): (r: string)
    ensures StartsWith(name, "/") ==> r == name
    ensures !StartsWith(name, "/") ==> EndsWith(r, name)
    ensures !StartsWith(name, "/") && directory != "" ==> StartsWith(r, directory) && |r| > |directory| + |name| - 1
    ensures !StartsWith(name, "/") ==>
      r == if directory == "" then name else directory + (if EndsWith(directory, "/") then "" else "/") + name
  {
    if StartsWith(name, "/") then name
    else if directory == "" then
      assert HasAt(name, |name| - |name|, name);
      name
    else if EndsWith(directory, "/") then
      assert (directory + name)[..|directory|] == directory;
      assert (directory + name)[|directory + name| - |name|..] == name;
      directory + name
    else
      assert (directory + "/" + name)[..|directory|] == directory;
      assert (directory + "/" + name)[|directory + "/" + name| - |name|..] == name;
      directory + "/" + name
  }

  /** `generate_file_path`: `<dir>/<name>.<ext>`, with `(<counter>)` before the dot when the
      counter is not zero. */
  function FilePath(name: string, ext: string, directory: string, counter: int): (r: string)
    ensures EndsWith(r, "." + ext)
    ensures counter == 0 ==> r == JoinPath(directory, name) + ("." + ext)
    ensures counter != 0 ==> StartsWith(r, JoinPath(directory, name) + "(" + IntToString(counter) + ")")
    ensures counter != 0 ==> r == JoinPath(directory, name) + "(" + IntToString(counter) + ")" + ("." + ext)
  {
    var base := JoinPath(directory, name);
    if counter != 0 then
      var head := base + "(" + IntToString(counter) + ")";
      SuffixAfterPrefix(head + ("." + ext), head, "." + ext);
      head + ("." + ext)
    else
      SuffixAfterPrefix(base + ("." + ext), base, "." + ext);
      base + ("." + ext)
  }

  /** A text made of a head and a tail starts with the head and ends with the tail. */
  lemma SuffixAfterPrefix(r: string, head: string, tail: string)
    requires r == head + tail
    ensures StartsWith(r, head) && EndsWith(r, tail)
  {
    assert r[..|head|] == head;
    assert r[|r| - |tail|..] == tail;
  }

  // ---------------------------------------------------------------------------------------------
  // Lines of a lyric

  /** A character `str.splitlines` does not split at. */
  predicate IsLineContent(c: char) { !IsPyLineBreak(c) }

  /** Python `str.splitlines()`: the text cut at every line boundary, "\r\n" counting as one, with
      no empty last line after a final boundary. */
  function SplitLines(s: string): (lines: seq<string>)
    decreases |s|
    ensures s == [] <==> lines == []
    ensures forall i :: 0 <= i < |lines| ==> forall j :: 0 <= j < |lines[i]| ==> !IsPyLineBreak(lines[i][j])
  {
    if s == [] then []
    else
      var e := RunEnd(s, 0, IsLineContent);
      if e == |s| then
        assert forall j :: 0 <= j < |s| ==> IsLineContent(s[j]);
        [s]
      else
        var next := if s[e] == '\r' && e + 1 < |s| && s[e + 1] == '\n' then e + 2 else e + 1;
        assert forall j :: 0 <= j < e ==> s[..e][j] == s[j];
        [s[..e]] + SplitLines(s[next..])
  }

  /** A line boundary of `str.splitlines`: "\r\n" or a single break character. */
  predicate IsLineEnd(t: string)
  {
    t == "\r\n" || (|t| == 1 && IsPyLineBreak(t[0]))
  }

  /** The line boundary `str.splitlines` cuts after each of its pieces: "\r\n", a single break
      character, or nothing after a last piece that runs to the end of the text. */
  function LineEnds(s: string): (ends: seq<string>)
    decreases |s|
    ensures forall i :: 0 <= i < |ends| ==> IsLineEnd(ends[i]) || (ends[i] == "" && i == |ends| - 1)
  {
    if s == [] then []
    else
      var e := RunEnd(s, 0, IsLineContent);
      if e == |s| then [""]
      else
        var next := if s[e] == '\r' && e + 1 < |s| && s[e + 1] == '\n' then e + 2 else e + 1;
        assert IsLineEnd(s[e..next]) by {
          if next == e + 2 { assert s[e..next] == [s[e], s[e + 1]]; }
        }
        [s[e..next]] + LineEnds(s[next..])
  }

  /** Each piece followed by the boundary it was cut at, one after another. */
  function Rejoin(lines: seq<string>, ends: seq<string>): string
    requires |lines| == |ends|
  {
    if lines == [] then [] else lines[0] + ends[0] + Rejoin(lines[1..], ends[1..])
  }

  lemma RejoinCons(line: string, end: string, lines: seq<string>, ends: seq<string>)
    requires |lines| == |ends|
    ensures Rejoin([line] + lines, [end] + ends) == line + end + Rejoin(lines, ends)
  {
    assert ([line] + lines)[1..] == lines && ([end] + ends)[1..] == ends;
  }

  lemma JoinCons(line: string, lines: seq<string>, sep: string)
    requires lines != []
    ensures Join([line] + lines, sep) == line + sep + Join(lines, sep)
  {
    assert ([line] + lines)[1..] == lines;
  }

  lemma ThreeParts(s: string, i: nat, j: nat)
    requires i <= j <= |s|
    ensures s == s[..i] + s[i..j] + s[j..]
  {
  }

  /** `splitlines` on a text holding a boundary: the piece before the first one, then the rest. */
  lemma SplitAtFirstBreak(s: string, e: nat, next: nat)
    requires s != [] && e == RunEnd(s, 0, IsLineContent) && e < |s|
    requires next == if s[e] == '\r' && e + 1 < |s| && s[e + 1] == '\n' then e + 2 else e + 1
    ensures SplitLines(s) == [s[..e]] + SplitLines(s[next..])
  {
  }

  /** `LineEnds` on a text holding a boundary: the first boundary, then the rest's. */
  lemma EndsAtFirstBreak(s: string, e: nat, next: nat)
    requires s != [] && e == RunEnd(s, 0, IsLineContent) && e < |s|
    requires next == if s[e] == '\r' && e + 1 < |s| && s[e + 1] == '\n' then e + 2 else e + 1
    ensures LineEnds(s) == [s[e..next]] + LineEnds(s[next..])
  {
  }

  /** The pieces `splitlines` makes, each with the boundary it was cut at, give the text back. */
  lemma {:induction false} SplitLinesRoundTrip(s: string)
    decreases |s|
    ensures |LineEnds(s)| == |SplitLines(s)| && Rejoin(SplitLines(s), LineEnds(s)) == s
  {
    if s != [] {
      var e := RunEnd(s, 0, IsLineContent);
      if e == |s| {
        assert SplitLines(s) == [s] && LineEnds(s) == [""];
        RejoinCons(s, "", [], []);
      } else {
        var next := if s[e] == '\r' && e + 1 < |s| && s[e + 1] == '\n' then e + 2 else e + 1;
        SplitAtFirstBreak(s, e, next);
        EndsAtFirstBreak(s, e, next);
        SplitLinesRoundTrip(s[next..]);
        RejoinCons(s[..e], s[e..next], SplitLines(s[next..]), LineEnds(s[next..]));
        ThreeParts(s, e, next);
      }
    }
  }

  /** Every line break of the text is a line feed. */
  predicate OnlyLineFeeds(s: string)
  {
    forall i :: 0 <= i < |s| ==> (IsPyLineBreak(s[i]) ==> s[i] == '\n')
  }

  /** In such a text the first boundary is a single line feed, and the rest is such a text. */
  lemma FirstBreakIsLineFeed(s: string, e: nat)
    requires OnlyLineFeeds(s) && e == RunEnd(s, 0, IsLineContent) && e < |s|
    ensures s[e] == '\n' && OnlyLineFeeds(s[e + 1..])
  {
    var rest := s[e + 1..];
    forall i | 0 <= i < |rest| ensures IsPyLineBreak(rest[i]) ==> rest[i] == '\n' {
      assert rest[i] == s[e + 1 + i];
    }
  }

  /** A text whose only line breaks are single line feeds, not at its end, is the line-feed join
      of its pieces. */
  lemma {:induction false} SplitLinesOnLineFeeds(s: string)
    decreases |s|
    requires OnlyLineFeeds(s) && (s == [] || s[|s| - 1] != '\n')
    ensures Join(SplitLines(s), "\n") == s
  {
    if s != [] {
      var e := RunEnd(s, 0, IsLineContent);
      if e == |s| {
        assert SplitLines(s) == [s];
      } else {
        FirstBreakIsLineFeed(s, e);
        var rest := s[e + 1..];
        assert rest != [] && rest[|rest| - 1] == s[|s| - 1];
        SplitAtFirstBreak(s, e, e + 1);
        SplitLinesOnLineFeeds(rest);
        JoinCons(s[..e], SplitLines(rest), "\n");
        ThreeParts(s, e, e + 1);
        assert s[e..e + 1] == "\n";
      }
    }
  }

  /** The line holds only whitespace. */
  predicate Blank(s: string)
  {
    s == [] || (IsPySpace(s[0]) && Blank(s[1..]))
  }

  lemma {:induction false} BlankAllSpace(s: string)
    ensures Blank(s) <==> AllBy(s, IsPySpace)
  {
    if s != [] {
      BlankAllSpace(s[1..]);
      assert forall i :: 0 < i < |s| ==> s[i] == s[1..][i - 1];
    }
  }

  /** `not line.strip()` holds exactly for blank lines. */
  lemma BlankLine(line: string)
    ensures Strip(line) == "" <==> Blank(line)
  {
    TrimByEmpty(line, IsPySpace);
    BlankAllSpace(line);
  }

  /** A line holding a `[` is never blank, so the script's `line.strip()` test adds nothing to
      its `'[' in line` test. */
  lemma BracketLineNotBlank(line: string)
    requires '[' in line
    ensures Strip(line) != ""
  {
    BlankLine(line);
    BlankAllSpace(line);
    var i :| 0 <= i < |line| && line[i] == '[';
    assert !IsPySpace(line[i]);
  }

  /** Where the time tag of a kept line sits, its first `[` and its first `]`, or None for a line
      the merge skips: one without `[` (which covers every blank line, by `BracketLineNotBlank`),
      without `]`, or whose tag would be two characters or fewer. */
  function TagSpan(line: string): (r: Option<(nat, nat)>)
    ensures r.Some? ==> r.value.0 + 2 <= r.value.1 < |line|
  {
    if '[' !in line then None
    else
      var a := FindChar(line, '[').value;
      match FindChar(line, ']')
      case None => None
      case Some(b) => if b < a + 2 then None else Some((a, b))
  }

  /** A tagged lyric line: the time tag (`line[line.find('['):line.find(']')+1]`) and the text
      after it passed through `clean`, or None for a line the merge skips. */
  function SplitTagged(line: string, clean: string -> string): Option<(string, string)>
  {
    match TagSpan(line)
    case None => None
    case Some((a, b)) => Some((line[a..b + 1], clean(line[b + 1..])))
  }

  /** The script's parse of a lyric line: the text after the tag is stripped. */
  function ParseTagged(line: string): Option<(string, string)>
  {
    SplitTagged(line, Strip)
  }

  /** A line is kept exactly when it is not blank and its first `]` comes at least two
      characters after its first `[`. */
  lemma TaggedLineKept(line: string)
    ensures ParseTagged(line).Some? <==> (Strip(line) != "" && '[' in line && ']' in line
      && FindChar(line, '[').value + 2 <= FindChar(line, ']').value)
  {
    if '[' in line {
      BracketLineNotBlank(line);
    }
  }

  /** The slice of a line from a `[` to the first `]`, two or more characters later, is a time tag
      with no other `]` inside. */
  lemma TagSlice(line: string, a: nat, b: nat)
    requires a + 2 <= b < |line| && line[a] == '[' && line[b] == ']' && ']' !in line[..b]
    ensures var tag := line[a..b + 1];
      && |tag| > 2 && tag[0] == '[' && tag[|tag| - 1] == ']' && ']' !in tag[..|tag| - 1]
  {
    var tag := line[a..b + 1];
    assert tag[..|tag| - 1] == line[..b][a..];
  }

  /** A kept line's tag runs from its first `[` to its first `]`, at least two characters later
      (so by `TagSlice` it opens with `[`, closes with `]` and holds no other `]`). */
  lemma TaggedLineTag(line: string, clean: string -> string)
    requires SplitTagged(line, clean).Some?
    ensures var a := FindChar(line, '[').value;
      var b := FindChar(line, ']').value;
      var tag := SplitTagged(line, clean).value.0;
      a + 2 <= b && tag == line[a..b + 1]
  {
    var (a, b) := TagSpan(line).value;
    assert a == FindChar(line, '[').value && b == FindChar(line, ']').value;
  }

  /** The script's tag dictionary: tags in first-insertion order (a Python dict keeps it) and the
      text last stored under each. */
  datatype TagTable = TagTable(keys: seq<string>, content: map<string, string>)
  {
    ghost predicate Valid() {
      && (forall i, j :: 0 <= i < j < |keys| ==> keys[i] != keys[j])
      && (forall k :: k in content <==> k in keys)
    }
  }

  /** `table[tag] = text`. */
  function Put(table: TagTable, tag: string, text: string): (r: TagTable)
    requires table.Valid()
    ensures r.Valid()
    ensures r.content == table.content[tag := text]
  {
    if tag in table.content then TagTable(table.keys, table.content[tag := text])
    else TagTable(table.keys + [tag], table.content[tag := text])
  }

  /** The dictionary a parsing loop builds from `lines`, where `parse` gives the tag and text
      of a kept line. */
  function Tabulate(lines: seq<string>, parse: string -> Option<(string, string)>): (r: TagTable)
    ensures r.Valid()
  {
    if lines == [] then TagTable([], map[])
    else
      var t := Tabulate(lines[..|lines| - 1], parse);
      match parse(lines[|lines| - 1])
      case None => t
      case Some((tag, text)) => Put(t, tag, text)
  }

  /** `line` is kept under `tag`. */
  predicate Carries(line: string, tag: string, parse: string -> Option<(string, string)>)
  {
    parse(line).Some? && parse(line).value.0 == tag
  }

  /** A tag is in the dictionary exactly when some line carries it. */
  lemma {:induction false} TabulateKeys(lines: seq<string>, parse: string -> Option<(string, string)>, tag: string)
    ensures tag in Tabulate(lines, parse).content <==> exists i :: 0 <= i < |lines| && Carries(lines[i], tag, parse)
  {
    if lines != [] {
      var init := lines[..|lines| - 1];
      TabulateKeys(init, parse, tag);
      if exists i :: 0 <= i < |init| && Carries(init[i], tag, parse) {
        var i :| 0 <= i < |init| && Carries(init[i], tag, parse);
        assert lines[i] == init[i];
      }
      if exists i :: 0 <= i < |lines| && Carries(lines[i], tag, parse) {
        var i :| 0 <= i < |lines| && Carries(lines[i], tag, parse);
        if i < |init| { assert init[i] == lines[i]; }
      }
    }
  }

  /** The text stored under a tag is the text of the last line that carries it. */
  lemma {:induction false} TabulateLastWins(lines: seq<string>, parse: string -> Option<(string, string)>, tag: string, i: nat)
    requires i < |lines| && Carries(lines[i], tag, parse)
    requires forall j :: i < j < |lines| ==> !Carries(lines[j], tag, parse)
    ensures tag in Tabulate(lines, parse).content
    ensures Tabulate(lines, parse).content[tag] == parse(lines[i]).value.1
  {
    var init := lines[..|lines| - 1];
    if i < |init| {
      assert init[i] == lines[i];
      forall j | i < j < |init| ensures !Carries(init[j], tag, parse) { assert init[j] == lines[j]; }
      TabulateLastWins(init, parse, tag, i);
    }
  }

  /** `line.startswith('[ti:') or line.startswith('[ar:') or line.startswith('[al:')`. */
  predicate IsHeader(line: string)
  {
    StartsWith(line, "[ti:") || StartsWith(line, "[ar:") || StartsWith(line, "[al:")
  }

  /** The header lines of a lyric, in their order. */
  function HeaderLines(lines: seq<string>): (r: seq<string>)
    ensures |r| <= |lines|
  {
    if lines == [] then []
    else HeaderLines(lines[..|lines| - 1]) + (if IsHeader(lines[|lines| - 1]) then [lines[|lines| - 1]] else [])
  }

  /** The header lines keep the order of the lyric: those of an earlier stretch of lines come
      before those of a later one. */
  lemma {:induction false} HeaderLinesKeepOrder(a: seq<string>, b: seq<string>)
    decreases |b|
    ensures HeaderLines(a + b) == HeaderLines(a) + HeaderLines(b)
  {
    if b == [] {
      assert a + b == a;
    } else {
      var init := b[..|b| - 1];
      HeaderLinesKeepOrder(a, init);
      assert (a + b)[..|a + b| - 1] == a + init;
      assert (a + b)[|a + b| - 1] == b[|b| - 1];
    }
  }

  /** The header lines are exactly the lines that open with `[ti:`, `[ar:` or `[al:`. */
  lemma {:induction false} HeaderLinesAreHeaders(lines: seq<string>)
    ensures forall x :: x in HeaderLines(lines) <==> x in lines && IsHeader(x)
  {
    if lines != [] {
      var init := lines[..|lines| - 1];
      HeaderLinesAreHeaders(init);
      assert lines == init + [lines[|lines| - 1]];
    }
  }

  // ---------------------------------------------------------------------------------------------
  // Sorting the tags (`sorted` on distinct strings, Python's code-point order)

  /** `s` is in strictly ascending code-point order. */
  predicate StrictlyAscending(s: seq<string>)
  {
    forall i, j :: 0 <= i < j < |s| ==> LexLess(s[i], s[j])
  }

  /** A string below the head of an ascending sequence can be put in front of it. */
  lemma PrependAscending(k: string, s: seq<string>)
    requires s != [] && LexLess(k, s[0])
    ensures StrictlyAscending(s) ==> StrictlyAscending([k] + s)
  {
    if StrictlyAscending(s) {
      forall j | 1 <= j < |[k] + s| ensures LexLess(k, ([k] + s)[j]) {
        if j > 1 { LexLessTransitive(k, s[0], s[j - 1]); }
      }
    }
  }

  /** The head of an ascending sequence stays in front of the rest once a larger, new string has
      been inserted into that rest. */
  lemma KeepHeadAscending(k: string, s: seq<string>, rest: seq<string>)
    requires s != [] && !LexLess(k, s[0])
    requires multiset(rest) == multiset(s[1..]) + multiset{k}
    requires StrictlyAscending(s[1..]) && k !in s[1..] ==> StrictlyAscending(rest)
    ensures StrictlyAscending(s) && k !in s ==> StrictlyAscending([s[0]] + rest)
  {
    if StrictlyAscending(s) && k !in s {
      assert s == [s[0]] + s[1..];
      LexLessTotal(k, s[0]);
      forall j | 0 <= j < |rest| ensures LexLess(s[0], rest[j]) {
        assert rest[j] in multiset(rest);
        if rest[j] != k {
          assert rest[j] in multiset(s[1..]);
          var m :| 0 <= m < |s[1..]| && s[1..][m] == rest[j];
          assert s[m + 1] == rest[j];
        }
      }
    }
  }

  /** `k` put into its place in an ascending sequence. */
  function Insert(k: string, s: seq<string>): (r: seq<string>)
    ensures multiset(r) == multiset(s) + multiset{k}
    ensures StrictlyAscending(s) && k !in s ==> StrictlyAscending(r)
  {
    if s == [] then [k]
    else if LexLess(k, s[0]) then
      PrependAscending(k, s);
      [k] + s
    else
      var rest := Insert(k, s[1..]);
      assert s == [s[0]] + s[1..];
      KeepHeadAscending(k, s, rest);
      [s[0]] + rest
  }

  /** The head of a sequence of distinct strings is not among the rest, however reordered. */
  lemma HeadNotInRest(s: seq<string>, rest: seq<string>)
    requires s != [] && multiset(rest) == multiset(s[1..])
    ensures (forall i, j :: 0 <= i < j < |s| ==> s[i] != s[j]) ==> s[0] !in rest
  {
    if s[0] in rest {
      assert s[0] in multiset(s[1..]);
      var m :| 0 <= m < |s[1..]| && s[1..][m] == s[0];
      assert s[m + 1] == s[0];
    }
  }

  /** `sorted` on a sequence of distinct strings: the same strings, ascending. */
  function SortStrings(s: seq<string>): (r: seq<string>)
    ensures multiset(r) == multiset(s)
    ensures (forall i, j :: 0 <= i < j < |s| ==> s[i] != s[j]) ==> StrictlyAscending(r)
  {
    if s == [] then []
    else
      var rest := SortStrings(s[1..]);
      assert s == [s[0]] + s[1..];
      HeadNotInRest(s, rest);
      Insert(s[0], rest)
  }

  // ---------------------------------------------------------------------------------------------
  // The merged lyric

  /** A line of the merged body: the original text under its tag, or the translation under it. */
  datatype LyricLine = Primary(tag: string, text: string) | Translated(tag: string, text: string)

  /** The text of a body line: `<tag><text>` or `<tag>【译】<text>`. */
  function Render(l: LyricLine): string
  {
    match l
    case Primary(tag, text) => tag + text
    case Translated(tag, text) => tag + "【译】" + text
  }

  function RenderAll(ls: seq<LyricLine>): (r: seq<string>)
    ensures |r| == |ls|
    ensures forall i :: 0 <= i < |ls| ==> r[i] == Render(ls[i])
  {
    if ls == [] then [] else RenderAll(ls[..|ls| - 1]) + [Render(ls[|ls| - 1])]
  }

  /** The translation has non-empty text for `tag`. */
  predicate HasTranslation(tag: string, translation: map<string, string>)
  {
    tag in translation && translation[tag] != ""
  }

  /** What the loop over the sorted tags adds for `tag`: nothing when its text is empty, else
      the original line, followed by the translation when that is there and not empty. */
  function Entry(tag: string, original: map<string, string>, translation: map<string, string>): seq<LyricLine>
    requires tag in original
  {
    if original[tag] == "" then []
    else if HasTranslation(tag, translation) then [Primary(tag, original[tag]), Translated(tag, translation[tag])]
    else [Primary(tag, original[tag])]
  }

  /** The merged body for the tags in `tags`, taken in that order. */
  function Body(tags: seq<string>, original: map<string, string>, translation: map<string, string>): seq<LyricLine>
    requires forall k :: k in tags ==> k in original
  {
    if tags == [] then []
    else Body(tags[..|tags| - 1], original, translation) + Entry(tags[|tags| - 1], original, translation)
  }

  /** Line `i` of a body is well placed: it carries a tag of `tags`, an original line carries the
      tag's non-empty text, and a translated line carries the tag's non-empty translation right
      after the original line of the same tag. */
  ghost predicate WellPlaced(b: seq<LyricLine>, i: int, tags: seq<string>, original: map<string, string>, translation: map<string, string>)
    requires 0 <= i < |b|
  {
    && b[i].tag in tags && b[i].tag in original
    && (b[i].Primary? ==> b[i].text == original[b[i].tag] != "")
    && (b[i].Translated? ==> (HasTranslation(b[i].tag, translation) && b[i].text == translation[b[i].tag]
          && i > 0 && b[i - 1] == Primary(b[i].tag, original[b[i].tag])))
  }

  lemma {:induction false} BodyShape(tags: seq<string>, original: map<string, string>, translation: map<string, string>)
    requires forall k :: k in tags ==> k in original
    ensures forall i :: 0 <= i < |Body(tags, original, translation)| ==>
      WellPlaced(Body(tags, original, translation), i, tags, original, translation)
  {
    if tags != [] {
      var init := tags[..|tags| - 1];
      var last := tags[|tags| - 1];
      assert tags == init + [last];
      assert forall k :: k in init ==> k in tags;
      BodyShape(init, original, translation);
      var b0 := Body(init, original, translation);
      var e := Entry(last, original, translation);
      var b := b0 + e;
      assert b == Body(tags, original, translation);
      forall i | 0 <= i < |b| ensures WellPlaced(b, i, tags, original, translation) {
        if i < |b0| {
          assert WellPlaced(b0, i, init, original, translation);
          assert b[i] == b0[i];
          if i > 0 { assert b[i - 1] == b0[i - 1]; }
        } else {
          assert b[i] == e[i - |b0|];
          if i - |b0| == 1 { assert b[i - 1] == e[0]; }
        }
      }
    }
  }

  /** The original line `i` of a body is followed by a translated line exactly when the
      translation has non-empty text for its tag. */
  ghost predicate TranslationFollows(b: seq<LyricLine>, i: int, translation: map<string, string>)
    requires 0 <= i < |b| && b[i].Primary?
  {
    (i + 1 < |b| && b[i + 1].Translated?) <==> HasTranslation(b[i].tag, translation)
  }

  lemma {:induction false} TranslationIffPresent(tags: seq<string>, original: map<string, string>, translation: map<string, string>)
    requires forall k :: k in tags ==> k in original
    ensures forall i :: 0 <= i < |Body(tags, original, translation)| && Body(tags, original, translation)[i].Primary? ==>
      TranslationFollows(Body(tags, original, translation), i, translation)
  {
    if tags != [] {
      var init := tags[..|tags| - 1];
      var last := tags[|tags| - 1];
      assert forall k :: k in init ==> k in tags;
      TranslationIffPresent(init, original, translation);
      var b0 := Body(init, original, translation);
      var e := Entry(last, original, translation);
      var b := b0 + e;
      assert b == Body(tags, original, translation);
      forall i | 0 <= i < |b| && b[i].Primary? ensures TranslationFollows(b, i, translation) {
        if i < |b0| {
          assert b[i] == b0[i];
          assert TranslationFollows(b0, i, translation);
          if i + 1 < |b0| {
            assert b[i + 1] == b0[i + 1];
          } else if i + 1 < |b| {
            assert b[i + 1] == e[0];
          }
        } else {
          assert b[i] == e[i - |b0|];
          assert i == |b0|;
          if i + 1 < |b| { assert b[i + 1] == e[1]; }
        }
      }
    }
  }

  /** Over ascending tags, the original lines come in strictly ascending tag order: one line per
      tag at most. */
  ghost predicate PrimariesOrdered(b: seq<LyricLine>)
  {
    forall i, j :: 0 <= i < j < |b| && b[i].Primary? && b[j].Primary? ==> LexLess(b[i].tag, b[j].tag)
  }

  lemma {:induction false} PrimariesAscending(tags: seq<string>, original: map<string, string>, translation: map<string, string>)
    requires forall k :: k in tags ==> k in original
    requires StrictlyAscending(tags)
    ensures PrimariesOrdered(Body(tags, original, translation))
  {
    if tags != [] {
      var init := tags[..|tags| - 1];
      var last := tags[|tags| - 1];
      assert forall k :: k in init ==> k in tags;
      PrimariesAscending(init, original, translation);
      BodyShape(init, original, translation);
      var b0 := Body(init, original, translation);
      var e := Entry(last, original, translation);
      var b := b0 + e;
      assert b == Body(tags, original, translation);
      assert PrimariesOrdered(b0);
      forall i, j | 0 <= i < j < |b| && b[i].Primary? && b[j].Primary?
        ensures LexLess(b[i].tag, b[j].tag)
      {
        if j < |b0| {
          assert b[i] == b0[i] && b[j] == b0[j];
        } else {
          assert b[j] == e[j - |b0|];
          assert b[j].tag == last && j == |b0|;
          assert b[i] == b0[i];
          assert WellPlaced(b0, i, init, original, translation);
          var m :| 0 <= m < |init| && init[m] == b0[i].tag;
          assert tags[m] == b0[i].tag;
          assert LexLess(tags[m], tags[|tags| - 1]);
        }
      }
    }
  }

  /** Every tag of `tags` with non-empty text gets its original line. */
  lemma {:induction false} TagGetsPrimary(tags: seq<string>, original: map<string, string>, translation: map<string, string>, tag: string)
    requires forall k :: k in tags ==> k in original
    requires tag in tags && original[tag] != ""
    ensures exists i :: 0 <= i < |Body(tags, original, translation)| && Body(tags, original, translation)[i] == Primary(tag, original[tag])
  {
    var init := tags[..|tags| - 1];
    var last := tags[|tags| - 1];
    assert forall k :: k in init ==> k in tags;
    var b0 := Body(init, original, translation);
    var e := Entry(last, original, translation);
    var b := b0 + e;
    assert b == Body(tags, original, translation);
    if tag == last {
      assert e[0] == Primary(tag, original[tag]);
      assert b[|b0|] == e[0];
    } else {
      assert tags == init + [last];
      assert tag in init;
      TagGetsPrimary(init, original, translation, tag);
      var i :| 0 <= i < |b0| && b0[i] == Primary(tag, original[tag]);
      assert b[i] == b0[i];
    }
  }

  /** A tag gets an original line exactly when it is among `tags` and its text is not empty. */
  lemma PrimaryForEveryTag(tags: seq<string>, original: map<string, string>, translation: map<string, string>, tag: string)
    requires forall k :: k in tags ==> k in original
    ensures (exists i :: 0 <= i < |Body(tags, original, translation)| && Body(tags, original, translation)[i].Primary?
               && Body(tags, original, translation)[i].tag == tag)
      <==> tag in tags && original[tag] != ""
  {
    var b := Body(tags, original, translation);
    if tag in tags && original[tag] != "" {
      TagGetsPrimary(tags, original, translation, tag);
      var i :| 0 <= i < |b| && b[i] == Primary(tag, original[tag]);
      assert b[i].Primary? && b[i].tag == tag;
    }
    if exists i :: 0 <= i < |b| && b[i].Primary? && b[i].tag == tag {
      var i :| 0 <= i < |b| && b[i].Primary? && b[i].tag == tag;
      BodyShape(tags, original, translation);
      assert WellPlaced(b, i, tags, original, translation);
    }
  }

  /** The lines `merge_lyrics_with_translation` joins, for two non-empty lyrics. */
  function MergedLines(original: string, translation: string): seq<string>
  {
    var lines := SplitLines(original);
    var ot := Tabulate(lines, ParseTagged);
    var tt := Tabulate(SplitLines(translation), ParseTagged);
    var tags := SortStrings(ot.keys);
    assert forall k :: k in tags ==> k in ot.content by {
      forall k | k in tags ensures k in ot.content { assert k in multiset(tags); }
    }
    HeaderLines(lines) + RenderAll(Body(tags, ot.content, tt.content))
  }

  /** `merge_lyrics_with_translation`: the original when either lyric is empty, else the merged
      lines joined with line feeds. */
  function Merge(original: string, translation: string): string
  {
    if original == "" || translation == "" then original
    else Join(MergedLines(original, translation), "\n")
  }

  /** The merged lines are the header lines followed by the body over the sorted tags, whose tags
      come from the original lyric, in strictly ascending order, each with an original line when
      its last text is not empty. */
  lemma MergedLinesShape(original: string, translation: string)
    ensures var lines := SplitLines(original);
      var ot := Tabulate(lines, ParseTagged);
      var tags := SortStrings(ot.keys);
      && StrictlyAscending(tags)
      && (forall k :: k in tags <==> k in ot.content)
      && MergedLines(original, translation)[..|HeaderLines(lines)|] == HeaderLines(lines)
  {
    var lines := SplitLines(original);
    var ot := Tabulate(lines, ParseTagged);
    var tags := SortStrings(ot.keys);
    forall k ensures k in tags <==> k in ot.content {
      assert k in tags <==> k in multiset(tags);
      assert k in ot.keys <==> k in multiset(ot.keys);
    }
  }

  // ---------------------------------------------------------------------------------------------
  // The merge, step by step

  /** The parsing loop: every tagged line stores its text under its tag. */
  method ParseLyric(text: string) returns (table: TagTable)
    ensures table == Tabulate(SplitLines(text), ParseTagged)
  {
    var lines := SplitLines(text);
    table := TagTable([], map[]);
    for i := 0 to |lines|
      invariant table == Tabulate(lines[..i], ParseTagged)
    {
      assert lines[..i + 1][..i] == lines[..i];
      match ParseTagged(lines[i])
      case None =>
      case Some((tag, content)) =>
        table := Put(table, tag, content);
    }
    assert lines[..|lines|] == lines;
  }

  /** The loop that copies the header lines, in order. */
  method CollectHeaders(lines: seq<string>) returns (merged: seq<string>)
    ensures merged == HeaderLines(lines)
  {
    merged := [];
    for i := 0 to |lines|
      invariant merged == HeaderLines(lines[..i])
    {
      assert lines[..i + 1][..i] == lines[..i];
      if IsHeader(lines[i]) {
        merged := merged + [lines[i]];
      }
    }
    assert lines[..|lines|] == lines;
  }

  /** One step of the loop over the sorted tags: the body grows by the rendered entry of the next tag. */
  lemma BodyStep(tags: seq<string>, i: nat, original: map<string, string>, translation: map<string, string>)
    requires i < |tags|
    requires forall k :: k in tags ==> k in original
    ensures forall k :: k in tags[..i] ==> k in original
    ensures RenderAll(Body(tags[..i + 1], original, translation))
      == RenderAll(Body(tags[..i], original, translation)) + RenderAll(Entry(tags[i], original, translation))
  {
    assert tags[..i + 1][..i] == tags[..i] && tags[..i + 1][i] == tags[i];
    assert forall k :: k in tags[..i] ==> k in tags;
    RenderAppend(Body(tags[..i], original, translation), Entry(tags[i], original, translation));
  }

  /** The lines one tag adds: `tag + text` when its text is not empty, then `tag + "【译】" +
      translation` when its translation is there and not empty. */
  lemma EntryLines(tag: string, original: map<string, string>, translation: map<string, string>)
    requires tag in original
    ensures original[tag] == "" ==> RenderAll(Entry(tag, original, translation)) == []
    ensures original[tag] != "" && !HasTranslation(tag, translation) ==>
      RenderAll(Entry(tag, original, translation)) == [tag + original[tag]]
    ensures original[tag] != "" && HasTranslation(tag, translation) ==>
      RenderAll(Entry(tag, original, translation)) == [tag + original[tag], tag + "【译】" + translation[tag]]
  {
    var e := Entry(tag, original, translation);
    if original[tag] != "" && HasTranslation(tag, translation) {
      assert RenderAll(e)[0] == Render(e[0]) && RenderAll(e)[1] == Render(e[1]);
    } else if original[tag] != "" {
      assert RenderAll(e)[0] == Render(e[0]);
    }
  }

  /** One pass of the loop over the sorted tags: the original line of `tag` when its text is not
      empty, then its translation when that is there and not empty. */
  method AppendEntry(body: seq<string>, tag: string, original: map<string, string>, translation: map<string, string>)
    returns (next: seq<string>)
    requires tag in original
    ensures next == body + RenderAll(Entry(tag, original, translation))
  {
    EntryLines(tag, original, translation);
    next := body;
    var content := original[tag];
    if content != "" {
      next := next + [tag + content];
      if tag in translation && translation[tag] != "" {
        next := next + [tag + "【译】" + translation[tag]];
      }
    }
  }

  /** The loop over the sorted tags. */
  method AppendBody(tags: seq<string>, original: map<string, string>, translation: map<string, string>)
    returns (body: seq<string>)
    requires forall k :: k in tags ==> k in original
    ensures body == RenderAll(Body(tags, original, translation))
  {
    body := [];
    for i := 0 to |tags|
      invariant body == RenderAll(Body(tags[..i], original, translation))
    {
      BodyStep(tags, i, original, translation);
      body := AppendEntry(body, tags[i], original, translation);
    }
    assert tags[..|tags|] == tags;
  }

  /** `merge_lyrics_with_translation`. */
  method MergeLyricsWithTranslation(original: string, translation: string) returns (r: string)
    ensures r == Merge(original, translation)
  {
    if original == "" || translation == "" {
      return original;
    }
    var originalLines := ParseLyric(original);
    var translationLines := ParseLyric(translation);
    var headers := CollectHeaders(SplitLines(original));
    var tags := SortStrings(originalLines.keys);
    assert forall k :: k in tags ==> k in originalLines.content by {
      forall k | k in tags ensures k in originalLines.content { assert k in multiset(tags); }
    }
    var body := AppendBody(tags, originalLines.content, translationLines.content);
    r := Join(headers + body, "\n");
  }

  lemma RenderAppend(a: seq<LyricLine>, b: seq<LyricLine>)
    ensures RenderAll(a + b) == RenderAll(a) + RenderAll(b)
  {
  }

  // ---------------------------------------------------------------------------------------------
  // The script's entry point

  /** The command-line values `main` reads (None: the flag was not given). */
  datatype CliArgs = CliArgs(
    u: Option<string>,
    f: Option<string>,
    t: Option<string>,
    ar: Option<string>,
    al: Option<string>,
    downloadDir: string)

  /** How a run ends: its exit status, the download it asked for, and the lines it printed that
      carry `successfully:` (what the main process reads). */
  datatype RunResult = RunResult(exitCode: int, download: Option<(string, string)>, marked: seq<string>)

  /** The line a tag writer prints when it succeeds: the MP3 writer prints the URL-quoted path,
      the FLAC writer the path after a space. */
  function MetadataLine(ext: string, path: string, quote: string -> string, mp3: bool, flac: bool): seq<string>
  {
    if ext == "mp3" && mp3 then ["MP3 metadata saved successfully:" + quote(path)]
    else if ext == "flac" && flac then ["FLAC metadata saved successfully: " + path]
    else []
  }

  /** `main`.  No `-u` (or an empty one) ends with status 1 before any download; a missing `-f`
      makes `unquote` raise, which also ends with status 1; a failed download ends with status 1;
      after a good download a missing `-t`, `-ar` or `-al` raises in `unquote` (status 1);
      otherwise the tag writer for the extension runs and the last marked line is
      `successfully:<path>` whether or not it succeeded. */
  method RunMain(args: CliArgs, unquote: string -> string, quote: string -> string,
                 fetch: (string, string) -> bool, setMp3: string -> bool, setFlac: string -> bool)
    returns (r: RunResult)
    ensures !Truthy(args.u) ==> r == RunResult(1, None, [])
    ensures Truthy(args.u) && args.f.None? ==> r == RunResult(1, None, [])
    ensures Truthy(args.u) && args.f.Some? ==>
      var path := FilePath(unquote(args.f.value), FileExtension(args.u.value), args.downloadDir, 0);
      && r.download == Some((args.u.value, path))
      && (!fetch(args.u.value, path) ==> r.exitCode == 1 && r.marked == [])
      && (fetch(args.u.value, path) && (args.t.None? || args.ar.None? || args.al.None?) ==> r.exitCode == 1 && r.marked == [])
      && (fetch(args.u.value, path) && args.t.Some? && args.ar.Some? && args.al.Some? ==>
            && r.exitCode == 0
            && r.marked == MetadataLine(FileExtension(args.u.value), path, quote, setMp3(path), setFlac(path)) + ["successfully:" + path])
  {
    if !Truthy(args.u) {
      return RunResult(1, None, []);
    }
    if args.f.None? {
      return RunResult(1, None, []);
    }
    var decodedFilename := unquote(args.f.value);
    var fileExtension := FileExtension(args.u.value);
    var filePath := FilePath(decodedFilename, fileExtension, args.downloadDir, 0);
    var downloadSuccess := fetch(args.u.value, filePath);
    if !downloadSuccess {
      return RunResult(1, Some((args.u.value, filePath)), []);
    }
    if args.t.None? || args.ar.None? || args.al.None? {
      return RunResult(1, Some((args.u.value, filePath)), []);
    }
    var marked: seq<string> := [];
    if fileExtension == "mp3" {
      if setMp3(filePath) {
        marked := ["MP3 metadata saved successfully:" + quote(filePath)];
      }
    } else if fileExtension == "flac" {
      if setFlac(filePath) {
        marked := ["FLAC metadata saved successfully: " + filePath];
      }
    }
    marked := marked + ["successfully:" + filePath];
    r := RunResult(0, Some((args.u.value, filePath)), marked);
  }
}

=== FILE: list_store.dfy ===
/**
 * The result-list store (src/stores/list.ts): the rows the list shows, the download of one row
 * with its state transitions (`downloading`, then `downloaded` or `vip`) and progress, and the
 * batched download of every row.
 *
 * The download store the list hands each row to (src/stores/download.ts, which in turn runs the
 * catalogue and the main-process download) is a parameter: for the row it is given, it says what
 * it answered, the progress values it reported through the list's `updateProgress`, and the `url`
 * and `lyrics` it wrote into the shared row object.
 */
module ListStore {
  import opened TextScan
  import opened Songs

  /** What the download store does with a row: its answer (None when its promise rejects, as it
      does when the play-URL request fails), the progress values it reports (in order) and the
      `url` and `lyrics` fields it leaves on the row. */
  datatype StoreRun = StoreRun(answer: Option<DownloadAnswer>, reports: seq<int>, url: Option<string>, lyrics: Option<string>)

  /** The download store's answer is a non-empty path. */
  predicate Saved(run: StoreRun)
  {
    run.answer.Some? && run.answer.value.Truthy()
  }

  /** The row as the download store receives it: progress 0, state `downloading`, then the
      preparation report of 2. */
  function Prepared(row: Song): (r: Song)
  {
    row.(progress := Some(0), state := Some("downloading")).(progress := Some(2))
  }

  /** The row once the download store is done with it: the `url` and `lyrics` it wrote, and the
      progress of its last report (unchanged when it reported nothing). */
  function AfterStore(row: Song, run: StoreRun): Song
  {
    row.(url := run.url, lyrics := run.lyrics,
         progress := if run.reports == [] then row.progress else Some(run.reports[|run.reports| - 1]))
  }

  /** The row once `download` has the store's answer. */
  function Finished(row: Song, answer: DownloadAnswer): Song
  {
    if answer.Truthy() then row.(path := Some(answer.path), state := Some("downloaded"), progress := Some(100))
    else row.(state := Some("vip"))
  }

  /** The row once `download(index)` has settled, given what the download store did with it: a
      rejection leaves it as the store left it, still `downloading`. */
  function Settled(row: Song, run: StoreRun): Song
  {
    match run.answer
    case None => AfterStore(Prepared(row), run)
    case Some(answer) => Finished(AfterStore(Prepared(row), run), answer)
  }

  /** The values the component's progress callback hears: 2, every report of the download store,
      then 100 on success or 0 on failure, and nothing more when the store rejects. */
  function Heard(run: StoreRun): (r: seq<int>)
    ensures |r| > |run.reports| && r[..|run.reports| + 1] == [2] + run.reports
    ensures run.answer.None? ==> |r| == |run.reports| + 1
    ensures run.answer.Some? ==> |r| == |run.reports| + 2 && r[|r| - 1] == (if Saved(run) then 100 else 0)
  {
    [2] + run.reports + (if run.answer.None? then [] else [if Saved(run) then 100 else 0])
  }

  /** A settled row: `downloaded` with the saved path and progress 100 when the store answered
      with a non-empty path; `vip` when it answered otherwise, and still `downloading` when it
      rejected, in both cases with the path untouched and the progress left at the store's last
      report; the catalogue fields never change. */
  lemma SettledOutcome(row: Song, run: StoreRun)
    ensures var s := Settled(row, run);
      && s.id == row.id && s.name == row.name && s.artist == row.artist && s.album == row.album
      && s.cover == row.cover && s.publishTime == row.publishTime
      && s.url == run.url && s.lyrics == run.lyrics
      && (Saved(run) ==> s.state == Some("downloaded") && s.path == Some(run.answer.value.path) && s.progress == Some(100))
      && (!Saved(run) ==>
            (&& s.state == Some(if run.answer.None? then "downloading" else "vip") && s.path == row.path
             && s.progress == Some(if run.reports == [] then 2 else run.reports[|run.reports| - 1])))
  {
    var p := Prepared(row);
    assert p.id == row.id && p.path == row.path;
  }

  /** The row `download` leaves behind when the store is the given one. */
  function Outcome(row: Song, store: Song -> StoreRun): Song
  {
    Settled(row, store(Prepared(row)))
  }

  /** The store answered this row with a non-empty path. */
  predicate Succeeds(row: Song, store: Song -> StoreRun)
  {
    Saved(store(Prepared(row)))
  }

  /** The store's promise for this row rejects. */
  predicate Rejects(row: Song, store: Song -> StoreRun)
  {
    store(Prepared(row)).answer.None?
  }

  /** `results.filter((result) => result).length`. */
  function CountTrue(results: seq<bool>): (r: nat)
    ensures r <= |results|
  {
    if results == [] then 0 else CountTrue(results[..|results| - 1]) + (if results[|results| - 1] then 1 else 0)
  }

  lemma {:induction false} CountTrueAppend(a: seq<bool>, b: seq<bool>)
    ensures CountTrue(a + b) == CountTrue(a) + CountTrue(b)
  {
    if b == [] {
      assert a + b == a;
    } else {
      var init := b[..|b| - 1];
      CountTrueAppend(a, init);
      assert (a + b)[..|a + b| - 1] == a + init;
    }
  }

  /** Nothing is counted exactly when no result is true. */
  lemma {:induction false} CountTrueZero(results: seq<bool>)
    ensures CountTrue(results) == 0 <==> forall k :: 0 <= k < |results| ==> !results[k]
  {
    if results != [] {
      var init := results[..|results| - 1];
      CountTrueZero(init);
      assert forall k :: 0 <= k < |init| ==> init[k] == results[k];
    }
  }

  /** Whether a row's download succeeds, as a test on rows. */
  function SuccessFlag(store: Song -> StoreRun): Song -> bool
  {
    row => Succeeds(row, store)
  }

  /** A test applied to each row, row by row. */
  function Flags(rows: seq<Song>, flag: Song -> bool): (r: seq<bool>)
    ensures |r| == |rows|
    ensures forall j :: 0 <= j < |rows| ==> r[j] == flag(rows[j])
  {
    seq(|rows|, j requires 0 <= j < |rows| => flag(rows[j]))
  }

  /** The number of rows whose download succeeds. */
  function Completed(rows: seq<Song>, store: Song -> StoreRun): (r: nat)
    ensures r <= |rows|
  {
    CountTrue(Flags(rows, SuccessFlag(store)))
  }

  /** No row counts exactly when no row's download succeeds. */
  lemma NoneCompleted(rows: seq<Song>, store: Song -> StoreRun)
    ensures Completed(rows, store) == 0 <==> forall j :: 0 <= j < |rows| ==> !Succeeds(rows[j], store)
  {
    CountTrueZero(Flags(rows, SuccessFlag(store)));
  }

  /** The successes of a batch over `[lo, hi)` are what `Completed` adds for those rows. */
  lemma BatchCount(rows: seq<Song>, lo: nat, hi: nat, results: seq<bool>, store: Song -> StoreRun)
    requires lo <= hi <= |rows| && |results| == hi - lo
    requires forall k :: 0 <= k < |results| ==> results[k] == Succeeds(rows[lo + k], store)
    ensures Completed(rows[..hi], store) == Completed(rows[..lo], store) + CountTrue(results)
  {
    FlagsCount(rows, lo, hi, results, SuccessFlag(store));
  }

  /** The flags of `rows[..hi]` count those of `rows[..lo]` and then those of the rows after. */
  lemma FlagsCount(rows: seq<Song>, lo: nat, hi: nat, results: seq<bool>, flag: Song -> bool)
    requires lo <= hi <= |rows| && |results| == hi - lo
    requires forall k :: 0 <= k < |results| ==> results[k] == flag(rows[lo + k])
    ensures CountTrue(Flags(rows[..hi], flag)) == CountTrue(Flags(rows[..lo], flag)) + CountTrue(results)
  {
    var before, after := Flags(rows[..lo], flag), Flags(rows[..hi], flag);
    assert after == before + results by {
      forall j | 0 <= j < hi ensures after[j] == (before + results)[j] {
        if j < lo {
          assert rows[..hi][j] == rows[..lo][j];
        } else {
          assert rows[..hi][j] == rows[lo + (j - lo)];
        }
      }
    }
    CountTrueAppend(before, results);
  }

  /** The integers `lo`, `lo + 1`, ..., `hi - 1`. */
  function Range(lo: int, hi: int): (r: seq<int>)
    requires lo <= hi
    ensures |r| == hi - lo && forall k :: 0 <= k < |r| ==> r[k] == lo + k
  {
    seq(hi - lo, k => lo + k)
  }

  lemma RangeSplit(lo: int, mid: int, hi: int)
    requires lo <= mid <= hi
    ensures Range(lo, mid) + Range(mid, hi) == Range(lo, hi)
  {
    var a, b, c := Range(lo, mid), Range(mid, hi), Range(lo, hi);
    assert |a + b| == |c|;
    forall k | 0 <= k < |c| ensures (a + b)[k] == c[k] {
      if k < |a| { assert (a + b)[k] == a[k]; } else { assert (a + b)[k] == b[k - |a|]; }
    }
  }

  /** The batches one after another. */
  function Flatten(batches: seq<seq<int>>): seq<int>
  {
    if batches == [] then [] else Flatten(batches[..|batches| - 1]) + batches[|batches| - 1]
  }

  lemma FlattenAppend(batches: seq<seq<int>>, b: seq<int>)
    ensures Flatten(batches + [b]) == Flatten(batches) + b
  {
    assert (batches + [b])[..|batches|] == batches;
  }

  /** Every batch is non-empty and holds at most `size` indices. */
  predicate BatchSizes(batches: seq<seq<int>>, size: int)
  {
    forall k :: 0 <= k < |batches| ==> 1 <= |batches[k]| <= size
  }

  lemma BatchSizesAppend(batches: seq<seq<int>>, b: seq<int>, size: int)
    requires BatchSizes(batches, size) && 1 <= |b| <= size
    ensures BatchSizes(batches + [b], size)
  {
    forall k | 0 <= k < |batches| + 1
      ensures 1 <= |(batches + [b])[k]| <= size
    {
      if k < |batches| {
        assert (batches + [b])[k] == batches[k];
      }
    }
  }

  /** The batches `downloadAll` makes of the indices `[lo, n)`: `slice(i, i + size)` for
      `i = lo, lo + size, ...`, the last one cut at `n`. */
  function Batches(lo: nat, n: nat, size: int): (r: seq<seq<int>>)
    requires lo <= n && (lo < n ==> size >= 1)
    decreases n - lo
    ensures lo == n <==> r == []
  {
    if lo == n then [] else [Range(lo, Min(lo + size, n))] + Batches(Min(lo + size, n), n, size)
  }

  /** The batches of `[lo, n)` cover it once, in order, each non-empty and at most `size` long. */
  lemma {:induction false} BatchesCover(lo: nat, n: nat, size: int)
    requires lo <= n && (lo < n ==> size >= 1)
    decreases n - lo
    ensures Flatten(Batches(lo, n, size)) == Range(lo, n) && BatchSizes(Batches(lo, n, size), size)
  {
    if lo < n {
      var hi := Min(lo + size, n);
      var rest := Batches(hi, n, size);
      BatchesCover(hi, n, size);
      FlattenPrepend(Range(lo, hi), rest);
      RangeSplit(lo, hi, n);
      forall k | 0 <= k < |rest| + 1 ensures 1 <= |([Range(lo, hi)] + rest)[k]| <= size {
        if k > 0 { assert ([Range(lo, hi)] + rest)[k] == rest[k - 1]; }
      }
    }
  }

  lemma {:induction false} FlattenPrepend(b: seq<int>, batches: seq<seq<int>>)
    decreases |batches|
    ensures Flatten([b] + batches) == b + Flatten(batches)
  {
    if batches != [] {
      var init := batches[..|batches| - 1];
      FlattenPrepend(b, init);
      assert ([b] + batches)[..|batches|] == [b] + init;
    }
  }

  /** The batches run so far are the first ones `downloadAll` makes of all the rows, and the
      rest are those of `[done, n)`. */
  predicate OnSchedule(batches: seq<seq<int>>, done: nat, n: nat, size: int)
  {
    done <= n && (0 < n ==> size >= 1) && batches + Batches(done, n, size) == Batches(0, n, size)
  }

  /** Running the next batch over `[done, Min(done + size, n))` keeps to the schedule. */
  lemma ScheduleStep(batches: seq<seq<int>>, done: nat, n: nat, size: int)
    requires OnSchedule(batches, done, n, size) && done < n
    ensures OnSchedule(batches + [Range(done, Min(done + size, n))], Min(done + size, n), n, size)
  {
    var hi := Min(done + size, n);
    assert Batches(done, n, size) == [Range(done, hi)] + Batches(hi, n, size);
    assert batches + [Range(done, hi)] + Batches(hi, n, size) == batches + Batches(done, n, size);
  }

  /** No row in `[lo, hi)` has a rejecting store. */
  predicate NoneRejects(rows: seq<Song>, lo: int, hi: int, store: Song -> StoreRun)
    requires 0 <= lo && hi <= |rows|
  {
    forall j :: lo <= j < hi ==> !Rejects(rows[j], store)
  }

  /** Some row in `[lo, hi)` has a rejecting store. */
  predicate SomeRejects(rows: seq<Song>, lo: int, hi: int, store: Song -> StoreRun)
    requires 0 <= lo && hi <= |rows|
  {
    exists j :: lo <= j < hi && Rejects(rows[j], store)
  }

  lemma NoneRejectsJoin(rows: seq<Song>, lo: int, mid: int, hi: int, store: Song -> StoreRun)
    requires 0 <= lo <= mid <= hi <= |rows|
    requires NoneRejects(rows, lo, mid, store) && NoneRejects(rows, mid, hi, store)
    ensures NoneRejects(rows, lo, hi, store)
  {
  }

  /** The rows `downloadAll` has gone through so far: the first `done` are as `Outcome` leaves
      them, the others as they were. */
  predicate RowsAfter(orig: seq<Song>, cur: seq<Song>, done: int, store: Song -> StoreRun)
  {
    && |cur| == |orig| && 0 <= done <= |orig|
    && forall j :: 0 <= j < |cur| ==> cur[j] == if j < done then Outcome(orig[j], store) else orig[j]
  }

  /** A batch over `[lo, hi)` run on the rows after the first `lo` moves the count of rows gone
      through to `hi`, and the batch saw the rows as they were. */
  lemma BatchRows(orig: seq<Song>, prev: seq<Song>, cur: seq<Song>, lo: int, hi: int, store: Song -> StoreRun)
    requires RowsAfter(orig, prev, lo, store) && lo <= hi <= |orig|
    requires |cur| == |prev| && forall j :: 0 <= j < |cur| && !(lo <= j < hi) ==> cur[j] == prev[j]
    requires forall j :: lo <= j < hi ==> cur[j] == Outcome(prev[j], store)
    ensures RowsAfter(orig, cur, hi, store)
    ensures forall j :: lo <= j < hi ==> prev[j] == orig[j]
    ensures SomeRejects(prev, lo, hi, store) <==> SomeRejects(orig, lo, hi, store)
    ensures NoneRejects(prev, lo, hi, store) <==> NoneRejects(orig, lo, hi, store)
  {
    assert forall j :: lo <= j < hi ==> prev[j] == orig[j];
  }

  /** The state of `downloadAll` after the batches run so far, which cover `[0, done)`: the
      rows gone through, the batch sizes, and either the count of successes so far with no
      rejection yet, or a rejection in the last batch (from `start`) and none before it. */
  predicate Between(orig: seq<Song>, cur: seq<Song>, batches: seq<seq<int>>, count: nat, done: nat, start: nat,
                    rejected: bool, size: int, store: Song -> StoreRun)
  {
    && done <= |orig| && Flatten(batches) == Range(0, done)
    && RowsAfter(orig, cur, done, store) && BatchSizes(batches, size)
    && OnSchedule(batches, done, |orig|, size)
    && (!rejected ==> count == Completed(orig[..done], store) && NoneRejects(orig, 0, done, store))
    && (rejected ==> batches != [] && start + |batches[|batches| - 1]| == done)
    && (rejected ==> NoneRejects(orig, 0, start, store) && SomeRejects(orig, start, done, store))
  }

  /** One more batch over `[done, hi)`, run while nothing has rejected, keeps `Between`. */
  lemma BatchStep(orig: seq<Song>, prev: seq<Song>, cur: seq<Song>, batches: seq<seq<int>>, count: nat, done: nat,
                  start: nat, hi: nat, size: int, results: seq<bool>, batchRejected: bool, store: Song -> StoreRun)
    requires Between(orig, prev, batches, count, done, start, false, size, store)
    requires done < |orig| && hi == Min(done + size, |orig|)
    requires |cur| == |prev| && forall j :: 0 <= j < |cur| && !(done <= j < hi) ==> cur[j] == prev[j]
    requires forall j :: done <= j < hi ==> cur[j] == Outcome(prev[j], store)
    requires batchRejected <==> SomeRejects(prev, done, hi, store)
    requires |results| == hi - done && forall k :: 0 <= k < |results| ==> results[k] == Succeeds(prev[done + k], store)
    ensures Between(orig, cur, batches + [Range(done, hi)], count + CountTrue(results), hi, done, batchRejected, size, store)
  {
    BatchRows(orig, prev, cur, done, hi, store);
    FlattenAppend(batches, Range(done, hi));
    RangeSplit(0, done, hi);
    BatchSizesAppend(batches, Range(done, hi), size);
    ScheduleStep(batches, done, |orig|, size);
    if !batchRejected {
      forall k | 0 <= k < |results| ensures results[k] == Succeeds(orig[done + k], store) {
        assert prev[done + k] == orig[done + k];
      }
      BatchCount(orig, done, hi, results, store);
      NoneRejectsJoin(orig, 0, done, hi, store);
    }
  }

  /** What the loop of `downloadAll` leaves, read back as the method's promises. */
  lemma Report(orig: seq<Song>, cur: seq<Song>, batches: seq<seq<int>>, count: nat, done: nat, start: nat,
               rejected: bool, size: int, store: Song -> StoreRun)
    requires Between(orig, cur, batches, count, done, start, rejected, size, store)
    requires !rejected ==> done == |orig|
    ensures |Flatten(batches)| == done <= |cur| == |orig| && BatchSizes(batches, size)
    ensures !rejected ==> count == Completed(orig, store)
    ensures rejected ==> batches != [] && start + |batches[|batches| - 1]| == done
    ensures forall j :: 0 <= j < |cur| ==> cur[j] == if j < done then Outcome(orig[j], store) else orig[j]
    ensures !rejected <==> forall j :: 0 <= j < |cur| ==> !Rejects(orig[j], store)
    ensures rejected ==> exists j :: start <= j < done && Rejects(orig[j], store)
    ensures rejected ==> forall j :: 0 <= j < start ==> !Rejects(orig[j], store)
    ensures (0 < |orig| ==> size >= 1) && batches <= Batches(0, |orig|, size)
    ensures !rejected ==> batches == Batches(0, |orig|, size)
  {
    assert batches <= batches + Batches(done, |orig|, size);
    if !rejected {
      assert orig[..done] == orig;
    }
  }

  function Min(a: int, b: int): int { if a <= b then a else b }

  /** `downloadAll`'s default batch size. */
  const DefaultConcurrency := 3

  /** `downloadAll`'s `maxConcurrent`, 3 when omitted. */
  function BatchSize(maxConcurrent: Option<int>): int
  {
    if maxConcurrent.Some? then maxConcurrent.value else DefaultConcurrency
  }

  class List {
    /** `rowData`: the rows the list shows. */
    var rows: seq<Song>
    /** The values handed to the component's progress callback so far. */
    var heard: seq<int>

    constructor(rows: seq<Song>)
      ensures this.rows == rows && heard == []
    {
      this.rows := rows;
      heard := [];
    }

    /** `updateProgress`: the row's progress becomes `p`, and the component hears it when it
        passed a callback. */
    method UpdateProgress(index: nat, p: int, hasCallback: bool)
      requires index < |rows|
      modifies this
      ensures rows == old(rows)[index := old(rows)[index].(progress := Some(p))]
      ensures heard == old(heard) + (if hasCallback then [p] else [])
    {
      rows := rows[index := rows[index].(progress := Some(p))];
      if hasCallback {
        heard := heard + [p];
      }
    }

    /** The progress reports of the download store, each through `updateProgress`: the row keeps
        the last one, and the component hears them all when it passed a callback. */
    method ApplyReports(index: nat, reports: seq<int>, hasCallback: bool)
      requires index < |rows|
      modifies this
      ensures rows == old(rows)[index := old(rows)[index].(progress := if reports == [] then old(rows)[index].progress else Some(reports[|reports| - 1]))]
      ensures heard == old(heard) + (if hasCallback then reports else [])
    {
      for k := 0 to |reports|
        invariant rows == old(rows)[index := old(rows)[index].(progress := if k == 0 then old(rows)[index].progress else Some(reports[k - 1]))]
        invariant heard == old(heard) + (if hasCallback then reports[..k] else [])
      {
        UpdateProgress(index, reports[k], hasCallback);
        assert reports[..k + 1] == reports[..k] + [reports[k]];
      }
      assert reports[..|reports|] == reports;
    }

    /** What `download` does once the store has answered: the saved path, `downloaded` and 100
        for a non-empty path, `vip` otherwise, and 100 or 0 for the component. */
    method Finish(index: nat, answer: DownloadAnswer, hasCallback: bool) returns (ok: bool)
      requires index < |rows|
      modifies this
      ensures ok == answer.Truthy()
      ensures rows == old(rows)[index := Finished(old(rows)[index], answer)]
      ensures heard == old(heard) + (if hasCallback then [if ok then 100 else 0] else [])
    {
      if answer.Truthy() {
        rows := rows[index := rows[index].(path := Some(answer.path))];
        rows := rows[index := rows[index].(state := Some("downloaded"))];
        rows := rows[index := rows[index].(progress := Some(100))];
        if hasCallback {
          heard := heard + [100];
        }
        ok := true;
      } else {
        rows := rows[index := rows[index].(state := Some("vip"))];
        if hasCallback {
          heard := heard + [0];
        }
        ok := false;
      }
    }

    /** The start of `download`: progress 0, state `downloading`, then `updateProgress(2)`. */
    method Prepare(index: nat, hasCallback: bool)
      requires index < |rows|
      modifies this
      ensures rows == old(rows)[index := Prepared(old(rows)[index])]
      ensures heard == old(heard) + (if hasCallback then [2] else [])
    {
      rows := rows[index := rows[index].(progress := Some(0))];
      rows := rows[index := rows[index].(state := Some("downloading"))];
      UpdateProgress(index, 2, hasCallback);
    }

    /** The download store at work on the row: its reports, then the `url` and `lyrics` it wrote. */
    method RunStore(index: nat, run: StoreRun, hasCallback: bool)
      requires index < |rows|
      modifies this
      ensures rows == old(rows)[index := AfterStore(old(rows)[index], run)]
      ensures heard == old(heard) + (if hasCallback then run.reports else [])
    {
      ApplyReports(index, run.reports, hasCallback);
      rows := rows[index := rows[index].(url := run.url, lyrics := run.lyrics)];
    }

    /** `download(index, progressCallback)`.  An index with no row makes the first assignment
        throw, so the promise rejects (None) and nothing changes; otherwise only that row changes,
        to `Settled`.  The result says whether the store answered with a non-empty path, and is a
        rejection (None) when the store's promise rejects. */
    method Download(index: int, hasCallback: bool, store: Song -> StoreRun) returns (r: Option<bool>)
      modifies this
      ensures !(0 <= index < |old(rows)|) ==> r.None? && rows == old(rows) && heard == old(heard)
      ensures 0 <= index < |old(rows)| ==>
        var run := store(Prepared(old(rows)[index]));
        && r == (if run.answer.None? then None else Some(Saved(run)))
        && rows == old(rows)[index := Settled(old(rows)[index], run)]
        && heard == old(heard) + (if hasCallback then Heard(run) else [])
    {
      if !(0 <= index < |rows|) {
        return None;
      }
      ghost var row := rows[index];
      ghost var h0 := heard;
      Prepare(index, hasCallback);
      assert rows[index] == Prepared(row);
      var run := store(rows[index]);
      RunStore(index, run, hasCallback);
      assert rows == old(rows)[index := AfterStore(Prepared(row), run)];
      if run.answer.None? {
        assert hasCallback ==> heard == h0 + [2] + run.reports;
        return None;
      }
      var ok := Finish(index, run.answer.value, hasCallback);
      assert rows == old(rows)[index := Settled(row, run)];
      if hasCallback {
        assert heard == h0 + [2] + run.reports + [if ok then 100 else 0];
        assert heard == h0 + Heard(run);
      }
      r := Some(ok);
    }

    /** One batch: `download(i)` for every `i` in `[lo, hi)`, without a progress callback, all of
        them started before any settles.  `Promise.all` rejects when one of them rejects
        (`rejected`); otherwise it collects their results, in index order.  The rows of the batch
        end as `Outcome` says either way: a rejection does not stop the other downloads. */
    method RunBatch(lo: nat, hi: nat, store: Song -> StoreRun) returns (rejected: bool, results: seq<bool>)
      requires lo <= hi <= |rows|
      modifies this
      ensures |rows| == |old(rows)| && heard == old(heard)
      ensures forall j :: 0 <= j < |rows| && !(lo <= j < hi) ==> rows[j] == old(rows)[j]
      ensures forall j :: lo <= j < hi ==> rows[j] == Outcome(old(rows)[j], store)
      ensures rejected <==> SomeRejects(old(rows), lo, hi, store)
      ensures |results| == hi - lo && forall k :: 0 <= k < |results| ==> results[k] == Succeeds(old(rows)[lo + k], store)
    {
      results := [];
      rejected := false;
      for i := lo to hi
        invariant |rows| == |old(rows)| && heard == old(heard)
        invariant forall j :: 0 <= j < |rows| && !(lo <= j < i) ==> rows[j] == old(rows)[j]
        invariant forall j :: lo <= j < i ==> rows[j] == Outcome(old(rows)[j], store)
        invariant rejected <==> SomeRejects(old(rows), lo, i, store)
        invariant |results| == i - lo && forall k :: 0 <= k < |results| ==> results[k] == Succeeds(old(rows)[lo + k], store)
      {
        var ok := Download(i, false, store);
        rejected := rejected || ok.None?;
        results := results + [ok.Some? && ok.value];
      }
    }

    /** One turn of `downloadAll`'s loop: the batch over `[lo, hi)` runs, is added to the batches,
        and its successes to the count unless it rejected. */
    method NextBatch(ghost orig: seq<Song>, ghost start: nat, lo: nat, hi: nat, size: int, batches: seq<seq<int>>,
                     count: nat, store: Song -> StoreRun)
      returns (rejected: bool, batches': seq<seq<int>>, count': nat)
      requires Between(orig, rows, batches, count, lo, start, false, size, store)
      requires lo < |orig| && hi == Min(lo + size, |orig|)
      modifies this
      ensures heard == old(heard) && batches' == batches + [Range(lo, hi)]
      ensures Between(orig, rows, batches', count', hi, lo, rejected, size, store)
    {
      ghost var prev := rows;
      var results;
      rejected, results := RunBatch(lo, hi, store);
      BatchStep(orig, prev, rows, batches, count, lo, start, hi, size, results, rejected, store);
      batches' := batches + [Range(lo, hi)];
      count' := count + CountTrue(results);
    }

    /** `downloadAll(maxConcurrent)`: the rows in consecutive batches of `maxConcurrent` (3 when
        omitted), one batch after the other, until a batch rejects.  The batches run are the first
        ones of `Batches`, all of them when nothing rejects: they cover the indices from 0 in
        order, none is empty or larger than `maxConcurrent`; their rows end as
        `Outcome` says and the later rows are untouched.  The count comes back (Some) exactly when
        no row's store rejects, and it is the number of rows whose download succeeded; otherwise
        the last batch run holds a rejecting row and no earlier one does.  The loop never ends for
        a batch size below 1 when there are rows, so the model asks for one. */
    method DownloadAll(maxConcurrent: Option<int>, store: Song -> StoreRun)
      returns (completed: Option<nat>, batches: seq<seq<int>>)
      requires rows == [] || maxConcurrent.None? || maxConcurrent.value >= 1
      modifies this
      ensures |rows| == |old(rows)| && heard == old(heard)
      ensures Flatten(batches) == Range(0, |Flatten(batches)|) && |Flatten(batches)| <= |rows|
      ensures BatchSizes(batches, BatchSize(maxConcurrent))
      ensures batches <= Batches(0, |old(rows)|, BatchSize(maxConcurrent))
      ensures completed.Some? ==>
        batches == Batches(0, |old(rows)|, BatchSize(maxConcurrent))
      ensures forall j :: 0 <= j < |rows| ==>
        rows[j] == if j < |Flatten(batches)| then Outcome(old(rows)[j], store) else old(rows)[j]
      ensures completed.Some? <==> forall j :: 0 <= j < |rows| ==> !Rejects(old(rows)[j], store)
      ensures completed.Some? ==> completed.value == Completed(old(rows), store) && |Flatten(batches)| == |rows|
      ensures completed.None? ==> batches != [] && |batches[|batches| - 1]| <= |Flatten(batches)|
      ensures completed.None? ==>
        var n := |Flatten(batches)|;
        var m := n - |batches[|batches| - 1]|;
        && (exists j :: 0 <= m <= j < n && Rejects(old(rows)[j], store))
        && (forall j :: 0 <= j < m ==> !Rejects(old(rows)[j], store))
    {
      var size := BatchSize(maxConcurrent);
      var rejected, count;
      ghost var done, start;
      rejected, batches, count, done, start := RunBatches(size, store);
      Report(old(rows), rows, batches, count, done, start, rejected, size, store);
      if rejected {
        completed := None;
      } else {
        completed := Some(count);
      }
    }

    /** The loop of `downloadAll`: batch after batch from index 0, until the rows run out or a
        batch rejects. */
    method RunBatches(size: int, store: Song -> StoreRun)
      returns (rejected: bool, batches: seq<seq<int>>, count: nat, ghost done: nat, ghost start: nat)
      requires rows == [] || size >= 1
      modifies this
      ensures heard == old(heard) && (!rejected ==> done == |old(rows)|)
      ensures Between(old(rows), rows, batches, count, done, start, rejected, size, store)
    {
      count := 0;
      batches := [];
      var totalSongs := |rows|;
      var i := 0;
      rejected := false;
      done := 0;
      start := 0;
      while i < totalSongs && !rejected
        invariant 0 <= i && (i < totalSongs ==> size >= 1) && heard == old(heard)
        invariant !rejected ==> done == (if i < totalSongs then i else totalSongs)
        invariant Between(old(rows), rows, batches, count, done, start, rejected, size, store)
        decreases totalSongs - i
      {
        var hi := Min(i + size, totalSongs);
        rejected, batches, count := NextBatch(old(rows), start, i, hi, size, batches, count, store);
        start := i;
        i := i + size;
        done := hi;
      }
    }

    /** `open(index)`: the path handed to the main process's `open` channel, `""` when the row has
        none; an index with no row throws (None). */
    function OpenPath(index: int): (r: Option<string>)
      reads this
      ensures r.Some? <==> 0 <= index < |rows|
      ensures r.Some? ==> (r.value == "" <==> rows[index].path.None? || rows[index].path.value == "")
      ensures r.Some? && r.value != "" ==> rows[index].path == Some(r.value)
    {
      if !(0 <= index < |rows|) then None
      else match rows[index].path
        case Some(p) => Some(p)
        case None => Some("")
    }
  }
}

=== FILE: main_process.dfy ===
/**
 * The Electron main process (main.cjs): the `resolveShortUrl` handler that turns a share link into
 * a song id by following redirects by hand and scanning the page it lands on, the `download`
 * handler that runs the downloader with a synthetic progress ticker and reads its result line,
 * the error message shown when the downloader fails, the request-header hook that moves the
 * `flag` header into `Cookie`, and the greeting put in the window title.
 *
 * HTTP requests, the downloader process, `decodeURIComponent`, `JSON.parse`, the clock and the
 * dialogs are parameters or left out.
 */
module MainProcess {
  import opened TextScan
  import opened Songs
  import Netease

  // ---------------------------------------------------------------------------------------------
  // Normalising the short link

  /** `replace(/[\n\r\s]+/g, '')`: every white-space character removed, the rest kept in order. */
  function RemoveSpaces(s: string): (r: string)
    ensures |r| <= |s|
    ensures forall i :: 0 <= i < |r| ==> !IsJsSpace(r[i])
    ensures (forall i :: 0 <= i < |s| ==> !IsJsSpace(s[i])) ==> r == s
  {
    if s == [] then []
    else (if IsJsSpace(s[0]) then [] else [s[0]]) + RemoveSpaces(s[1..])
  }

  /** The cleaned link: trimmed, white space removed, and `https://` put in front unless it
      already starts with `http://` or `https://` in any letter case. */
  function NormalizeShortUrl(shortUrl: string): (u: string)
    ensures Netease.SchemeLength(u, 0) > 0
    ensures forall i :: 0 <= i < |u| ==> !IsJsSpace(u[i])
    ensures var c := RemoveSpaces(Trim(shortUrl));
      if Netease.SchemeLength(c, 0) > 0 then u == c else u == "https://" + c
  {
    var c := RemoveSpaces(Trim(shortUrl));
    if Netease.SchemeLength(c, 0) > 0 then c
    else
      HttpsPrefixed(c);
      "https://" + c
  }

  /** `https://` put in front of a text without white space gives an https link without white
      space. */
  lemma HttpsPrefixed(c: string)
    requires forall i :: 0 <= i < |c| ==> !IsJsSpace(c[i])
    ensures Netease.SchemeLength("https://" + c, 0) == 8
    ensures forall i :: 0 <= i < 8 + |c| ==> !IsJsSpace(("https://" + c)[i])
  {
    var u := "https://" + c;
    assert forall i :: 0 <= i < 8 ==> u[i] == "https://"[i];
    assert forall i :: 0 <= i < 8 ==> Lower("https://"[i]) == "https://"[i];
    assert forall i :: 8 <= i < |u| ==> u[i] == c[i - 8];
  }

  /** A value starting with `/` has no http(s) scheme. */
  lemma SlashHasNoScheme(location: string)
    requires location != [] && location[0] == '/'
    ensures Netease.SchemeLength(location, 0) == 0
  {
    assert Lower(location[0]) == '/';
    assert "https://"[0] == 'h' && "http://"[0] == 'h';
  }

  /** A cleaned link is its own cleaned form. */
  lemma NormalizeIdempotent(shortUrl: string)
    ensures NormalizeShortUrl(NormalizeShortUrl(shortUrl)) == NormalizeShortUrl(shortUrl)
  {
    var u := NormalizeShortUrl(shortUrl);
    assert RemoveSpaces(u) == u;
    assert TrimStartBy(u, IsJsSpace) == u;
    assert TrimEndBy(u, IsJsSpace) == u;
  }

  // ---------------------------------------------------------------------------------------------
  // url.parse, for http(s) links

  /** What the handler reads from `url.parse`: `protocol` ("http:" or "https:"), `host` and
      `pathname`. */
  datatype UrlParts = UrlParts(protocol: string, host: string, pathname: string)

  function LowerAll(s: string): (r: string)
    ensures |r| == |s| && forall i :: 0 <= i < |r| ==> r[i] == Lower(s[i])
  {
    if s == [] then [] else [Lower(s[0])] + LowerAll(s[1..])
  }

  predicate IsAuthorityChar(c: char) { c != '/' && c != '?' && c != '#' }

  predicate IsPathChar(c: char) { c != '?' && c != '#' }

  /** The parts of an http(s) link: the scheme in lower case with its colon, the authority up to
      the first `/`, `?` or `#` in lower case, and the path up to the query or fragment (`/` when
      there is none). */
  function ParseUrl(u: string): (parts: UrlParts)
    requires Netease.SchemeLength(u, 0) > 0
    ensures parts.protocol == (if Netease.SchemeLength(u, 0) == 8 then "https:" else "http:")
    ensures forall i :: 0 <= i < |parts.host| ==> IsAuthorityChar(parts.host[i])
    ensures StartsWith(parts.pathname, "/")
  {
    var n := Netease.SchemeLength(u, 0);
    var rest := u[n..];
    var h := RunEnd(rest, 0, IsAuthorityChar);
    var e := RunEnd(rest, h, IsPathChar);
    var host := LowerAll(rest[..h]);
    assert forall i :: 0 <= i < |host| ==> host[i] == Lower(rest[i]) && IsAuthorityChar(rest[i]);
    UrlParts(if n == 8 then "https:" else "http:", host, if e == h then "/" else rest[h..e])
  }

  // ---------------------------------------------------------------------------------------------
  // Location headers

  /** `pathname.substring(0, pathname.lastIndexOf('/') + 1)`: the directory part of the path. */
  function BaseDir(pathname: string): (d: string)
    ensures |d| <= |pathname| && d == pathname[..|d|]
    ensures '/' in pathname ==> d != [] && d[|d| - 1] == '/' && '/' !in pathname[|d|..]
    ensures '/' !in pathname ==> d == []
  {
    match FindLastChar(pathname, '/')
    case None => []
    case Some(k) => pathname[..k + 1]
  }

  /** The Location header made absolute as the handler writes it.  A value starting with `/` is
      checked first, so a protocol-relative `//host/path` is taken for a path on the initial host:
      the branch meant for it is never reached. */
  function LocationAsWritten(base: UrlParts, location: string): (r: string)
  {
    if StartsWith(location, "/") then base.protocol + "//" + base.host + location
    else if Netease.SchemeLength(location, 0) == 0 then
      if StartsWith(location, "//") then base.protocol + location
      else base.protocol + "//" + base.host + BaseDir(base.pathname) + location
    else location
  }

  /** The Location header made absolute against the initial link, with a protocol-relative value
      taking the initial scheme: an absolute http(s) value as it is, `//x` on the initial scheme,
      `/x` on the initial host, anything else next to the initial path. */
  function AbsoluteLocation(base: UrlParts, location: string): (r: string)
    ensures Netease.SchemeLength(location, 0) > 0 ==> r == location
    ensures StartsWith(location, "//") ==> r == base.protocol + location
    ensures StartsWith(location, "/") && !StartsWith(location, "//") ==> r == base.protocol + "//" + base.host + location
    ensures !StartsWith(location, "/") && Netease.SchemeLength(location, 0) == 0 ==>
      r == base.protocol + "//" + base.host + BaseDir(base.pathname) + location
  {
    if StartsWith(location, "//") then
      SlashHasNoScheme(location);
      base.protocol + location
    else if StartsWith(location, "/") then
      SlashHasNoScheme(location);
      base.protocol + "//" + base.host + location
    else if Netease.SchemeLength(location, 0) == 0 then
      base.protocol + "//" + base.host + BaseDir(base.pathname) + location
    else location
  }

  /** Both resolutions agree on everything but protocol-relative values. */
  lemma LocationAgreesOffProtocolRelative(base: UrlParts, location: string)
    requires !StartsWith(location, "//")
    ensures LocationAsWritten(base, location) == AbsoluteLocation(base, location)
  {
    if StartsWith(location, "/") {
      SlashHasNoScheme(location);
    }
  }

  /** The handler as written sends `//music.163.com/song?id=1`, received from a short link on
      `163cn.tv`, to `https://163cn.tv//music.163.com/song?id=1` (a path on the short-link host)
      instead of `https://music.163.com/song?id=1`. */
  lemma ProtocolRelativeMisresolved()
    ensures var base := UrlParts("https:", "163cn.tv", "/abc");
      var location := "//music.163.com/song?id=1";
      && LocationAsWritten(base, location) == "https://163cn.tv" + location
      && AbsoluteLocation(base, location) == "https:" + location
      && LocationAsWritten(base, location) != AbsoluteLocation(base, location)
  {
    var base := UrlParts("https:", "163cn.tv", "/abc");
    var location := "//music.163.com/song?id=1";
    assert location[..1] == "/" && location[..2] == "//";
    assert LocationAsWritten(base, location) == "https:" + "//" + "163cn.tv" + location;
    assert "https:" + "//" + "163cn.tv" == "https://163cn.tv";
    assert AbsoluteLocation(base, location) == "https:" + location;
  }

  // ---------------------------------------------------------------------------------------------
  // Scanning the landing page

  /** `song\?id=(\d+)` at `p` (ASCII case folded): the digits. */
  function SongKeyIdAt(s: string, p: nat): (r: Option<string>)
    ensures r.Some? <==> HasAtCi(s, p, "song?id=") && p + 8 < |s| && IsDigit(s[p + 8])
    ensures r.Some? ==> IsMaximalRun(s, p + 8, r.value, IsDigit)
  {
    if HasAtCi(s, p, "song?id=") then RunAt(s, p + 8, IsDigit) else None
  }

  /** The ids the global `/song\?id=(\d+)/gi` `exec` loop collects: each match, then the search
      goes on after it. */
  function SongIds(data: string): seq<string>
  {
    ExecAll(data, 0, SongKeyIdAt, 8)
  }

  /** Every collected id is a non-empty run of digits that follows a `song?id=`. */
  lemma SongIdsAreDigits(data: string)
    ensures forall i :: 0 <= i < |SongIds(data)| ==>
      SongIds(data)[i] != [] && forall j :: 0 <= j < |SongIds(data)[i]| ==> IsDigit(SongIds(data)[i][j])
  {
    ExecAllYields(data, 0, SongKeyIdAt, 8);
    forall i | 0 <= i < |SongIds(data)|
      ensures SongIds(data)[i] != [] && forall j :: 0 <= j < |SongIds(data)[i]| ==> IsDigit(SongIds(data)[i][j])
    {
      var q: nat :| q <= |data| && SongKeyIdAt(data, q) == Some(SongIds(data)[i]);
    }
  }

  /** The `exec` loop over the landing page: the ids of every `song?id=<digits>`, left to right,
      matches not overlapping. */
  method CollectSongIds(data: string) returns (songIds: seq<string>)
    ensures songIds == SongIds(data)
  {
    songIds := ExecLoop(data, SongKeyIdAt, 8);
  }

  /** The first id the loop collects is the leftmost `song?id=<digits>`, and it collects none
      exactly when there is none. */
  lemma FirstCollectedId(data: string)
    ensures SongIds(data) == [] <==> !MatchesSomewhere(data, SongKeyIdAt)
    ensures SongIds(data) != [] ==> IsLeftmostMatch(data, SongKeyIdAt, SongIds(data)[0])
  {
    ExecAllFirst(data, SongKeyIdAt, 8);
  }

  /** `c` is a quote `"` or `'`. */
  predicate IsQuote(c: char) { c == '"' || c == '\'' }

  /** `lit` (lower case) at `q` up to ASCII case: where the match ends. */
  function LitAt(s: string, q: nat, lit: string): (r: Option<nat>)
    ensures r.Some? <==> HasAtCi(s, q, lit)
    ensures r.Some? ==> r.value == q + |lit|
  {
    if HasAtCi(s, q, lit) then Some(q + |lit|) else None
  }

  /** `\s+` at `q`: where the run of white space ends, when there is at least one. */
  function SpacesAt(s: string, q: nat): (r: Option<nat>)
    ensures r.Some? <==> q < |s| && IsJsSpace(s[q])
    ensures r.Some? ==> q < r.value <= |s| && r.value == RunEnd(s, q, IsJsSpace)
  {
    if q < |s| && IsJsSpace(s[q]) then Some(RunEnd(s, q, IsJsSpace)) else None
  }

  /** `["']` at `q`. */
  function QuoteAt(s: string, q: nat): (r: Option<nat>)
    ensures r.Some? <==> q < |s| && IsQuote(s[q])
    ensures r.Some? ==> r.value == q + 1
  {
    if q < |s| && IsQuote(s[q]) then Some(q + 1) else None
  }

  /** The first of two alternatives, both lower case, that holds at `q`. */
  function EitherAt(s: string, q: nat, a: string, b: string): (r: Option<nat>)
    ensures r.Some? <==> HasAtCi(s, q, a) || HasAtCi(s, q, b)
    ensures r.Some? ==> r.value == q + |a| || r.value == q + |b|
  {
    if HasAtCi(s, q, a) then Some(q + |a|) else if HasAtCi(s, q, b) then Some(q + |b|) else None
  }

  /** `<meta\s+(?:property|name)=["'](?:og:url|music:song)["']\s+content=["']` at `p`: where the
      link inside the attribute starts. */
  function MetaOpenAt(s: string, p: nat): Option<nat>
  {
    match LitAt(s, p, "<meta")
    case None => None
    case Some(a) =>
      match SpacesAt(s, a)
      case None => None
      case Some(b) =>
        match EitherAt(s, b, "property", "name")
        case None => None
        case Some(c) =>
          match LitAt(s, c, "=")
          case None => None
          case Some(d) =>
            match QuoteAt(s, d)
            case None => None
            case Some(e) =>
              match EitherAt(s, e, "og:url", "music:song")
              case None => None
              case Some(f) =>
                match QuoteAt(s, f)
                case None => None
                case Some(g) =>
                  match SpacesAt(s, g)
                  case None => None
                  case Some(h) =>
                    match LitAt(s, h, "content=")
                    case None => None
                    case Some(i) => QuoteAt(s, i)
  }

  /** `(?:https?:\/\/)?music\.163\.com\/(?:#\/)?` at `q`: where `song?id=` should follow. */
  function MetaLinkAt(s: string, q: nat): Option<nat>
  {
    var h := q + Netease.SchemeLength(s, q);
    match LitAt(s, h, "music.163.com/")
    case None => None
    case Some(k) => if HasAtCi(s, k, "#/") then Some(k + 2) else Some(k)
  }

  /** `song\?id=(\d+)["']` at `k`: the digits, which a quote must follow. */
  function QuotedSongIdAt(s: string, k: nat): (r: Option<string>)
    ensures r.Some? ==> SongKeyIdAt(s, k) == r
  {
    match SongKeyIdAt(s, k)
    case None => None
    case Some(id) => if QuoteAt(s, k + 8 + |id|).Some? then Some(id) else None
  }

  /** The meta-tag pattern at `p`: the song id of an `og:url` or `music:song` meta tag. */
  function MetaAt(s: string, p: nat): (r: Option<string>)
    ensures r.Some? ==> exists k: nat :: k <= |s| && SongKeyIdAt(s, k).Some?
  {
    match MetaOpenAt(s, p)
    case None => None
    case Some(q) =>
      match MetaLinkAt(s, q)
      case None => None
      case Some(k) =>
        var r := QuotedSongIdAt(s, k);
        assert r.Some? ==> k <= |s|;
        r
  }

  /** `data-rid=["'](\d+)["']` at `p` (ASCII case folded): the digits. */
  function DataRidAt(s: string, p: nat): (r: Option<string>)
    ensures r.Some? ==> HasAtCi(s, p, "data-rid=") && p + 9 < |s| && IsQuote(s[p + 9])
    ensures r.Some? ==> IsMaximalRun(s, p + 10, r.value, IsDigit) && p + 10 + |r.value| < |s| && IsQuote(s[p + 10 + |r.value|])
  {
    if HasAtCi(s, p, "data-rid=") && p + 9 < |s| && IsQuote(s[p + 9]) then
      match RunAt(s, p + 10, IsDigit)
      case None => None
      case Some(id) => if p + 10 + |id| < |s| && IsQuote(s[p + 10 + |id|]) then Some(id) else None
    else None
  }

  /** `({.+?})<\/script>` at `b`: the braced text up to the first `}</script>` on the line. */
  function BracedAt(s: string, b: nat): (r: Option<string>)
    requires b < |s| && s[b] == '{'
    ensures r.Some? ==> OneLine(r.value) && |r.value| >= 3 && r.value[0] == '{' && r.value[|r.value| - 1] == '}'
  {
    match LazyEnd(s, b + 1, b + 2, "}</script>", AnyRest)
    case None => None
    case Some(k) =>
      BracedText(s, b, k);
      Some(s[b..k + 1])
  }

  /** The text from a `{` to the `}` of a `}</script>` further on the same line. */
  lemma BracedText(s: string, b: nat, k: nat)
    requires b < |s| && s[b] == '{' && b + 2 <= k
    requires HasAt(s, k, "}</script>") && LineFree(s, b + 1, k)
    ensures k < |s|
    ensures var v := s[b..k + 1]; OneLine(v) && |v| >= 3 && v[0] == '{' && v[|v| - 1] == '}'
  {
    var v := s[b..k + 1];
    assert s[k] == s[k..k + 10][0] == '}';
    assert forall i :: 0 <= i < |v| ==> v[i] == s[b + i];
  }

  /** `window\.REDUX_STATE\s*=\s*({.+?})<\/script>` at `p` (case sensitive): the braced text. */
  function ReduxAt(s: string, p: nat): (r: Option<string>)
    ensures r.Some? ==> HasAt(s, p, "window.REDUX_STATE")
    ensures r.Some? ==> OneLine(r.value) && |r.value| >= 3 && r.value[0] == '{' && r.value[|r.value| - 1] == '}'
  {
    if HasAt(s, p, "window.REDUX_STATE") then
      var a := RunEnd(s, p + 18, IsJsSpace);
      if a < |s| && s[a] == '=' then
        var b := RunEnd(s, a + 1, IsJsSpace);
        if b < |s| && s[b] == '{' then BracedAt(s, b) else None
      else None
    else None
  }

  /** The page scan, in the handler's order: the id of the leftmost song link; else the first id
      the `song?id=` loop collects; else the meta-tag id; else `data-rid`; else the `Song.id` that
      `json` reads from the `REDUX_STATE` object (None when it does not parse or has none); else
      nothing.  The second match the handler runs on the song link, `/id=(\d+)/i`, finds the same
      digits: the host and separators hold no `id=`. */
  function ScanHtml(data: string, json: string -> Option<string>): (r: Option<string>)
    ensures Netease.ExtractSongId(data).Some? ==> r == Netease.ExtractSongId(data)
    ensures Netease.ExtractSongId(data).None? && SongIds(data) != [] ==> r == Some(SongIds(data)[0])
    ensures Netease.ExtractSongId(data).None? && SongIds(data) == [] && !MatchesSomewhere(data, MetaAt) ==>
      r == match Leftmost(data, DataRidAt)
        case Some(id) => Some(id)
        case None => match Leftmost(data, ReduxAt) case Some(j) => json(j) case None => None
  {
    match Netease.ExtractSongId(data)
    case Some(id) => Some(id)
    case None =>
      var ids := SongIds(data);
      if ids != [] then Some(ids[0])
      else
        match Leftmost(data, MetaAt)
        case Some(id) => Some(id)
        case None =>
          match Leftmost(data, DataRidAt)
          case Some(id) => Some(id)
          case None =>
            match Leftmost(data, ReduxAt)
            case Some(j) => json(j)
            case None => None
  }

  /** The meta-tag step never decides: a page it would match holds `song?id=<digits>`, which the
      step before it already returns. */
  lemma MetaStepUnreachable(data: string)
    requires MatchesSomewhere(data, MetaAt)
    ensures SongIds(data) != []
  {
    var p: nat :| p <= |data| && MetaAt(data, p).Some?;
    var k: nat :| k <= |data| && SongKeyIdAt(data, k).Some?;
    FirstCollectedId(data);
  }

  // ---------------------------------------------------------------------------------------------
  // Following redirects

  /** A response: its status, its Location header, and the page it carries. */
  datatype Response = Response(status: int, location: Option<string>, body: string)

  /** A 3xx status (section 15.4 of RFC 9110). */
  predicate IsRedirect(r: Response) { 300 <= r.status < 400 }

  const MaxRedirects: nat := 10

  /** The scan the handler runs on a page that is not a redirect. */
  function PageScan(json: string -> Option<string>): string -> Option<string>
  {
    data => ScanHtml(data, json)
  }

  /** What the handler makes of a response to its `count`-th request after the first (`fetch`
      None: the request failed or timed out, which the outer `catch` turns into null); `scan` is
      what it makes of a page (`PageScan` in the handler) and `songId` the song-link match it tries
      on every redirect target (`Netease.ExtractSongId` in the handler). */
  function AfterResponse(base: UrlParts, resp: Option<Response>, count: nat,
                         fetch: string -> Option<Response>, scan: string -> Option<string>,
                       songId: string -> Option<string>, locate: (UrlParts, string) -> string): (r: Option<string>)
    requires count <= MaxRedirects
    decreases MaxRedirects - count, 1
    ensures resp.Some? && IsRedirect(resp.value) && !Truthy(resp.value.location) ==> r.None?
    ensures resp.Some? && !IsRedirect(resp.value) ==> r == scan(resp.value.body)
    ensures resp.None? ==> r.None?
  {
    match resp
    case None => None
    case Some(res) =>
      if IsRedirect(res) then
        match res.location
        case None => None
        case Some(location) =>
          if location == "" then None
          else FollowRedirect(base, locate(base, location), count, fetch, scan, songId, locate)
      else scan(res.body)
  }

  /** `handleRedirect` after `count` redirects: past the tenth it gives up before looking at the
      link; a link holding a song link gives its id with no request; anything else is fetched. */
  function FollowRedirect(base: UrlParts, url: string, count: nat,
                          fetch: string -> Option<Response>, scan: string -> Option<string>,
                          songId: string -> Option<string>, locate: (UrlParts, string) -> string): (r: Option<string>)
    requires count <= MaxRedirects
    decreases MaxRedirects - count, 0
    ensures count == MaxRedirects ==> r.None?
    ensures count < MaxRedirects && songId(url).Some? ==> r == songId(url)
  {
    if count + 1 > MaxRedirects then None
    else
      match songId(url)
      case Some(id) => Some(id)
      case None => AfterResponse(base, fetch(url), count + 1, fetch, scan, songId, locate)
  }

  /** The `resolveShortUrl` handler: the cleaned link's own song id when it holds a song link,
      otherwise what the first response leads to. */
  function ResolveShortUrl(shortUrl: string, fetch: string -> Option<Response>, json: string -> Option<string>): (r: Option<string>)
    ensures var u := NormalizeShortUrl(shortUrl);
      Netease.ExtractSongId(u).Some? ==> r == Netease.ExtractSongId(u)
  {
    var u := NormalizeShortUrl(shortUrl);
    match Netease.ExtractSongId(u)
    case Some(id) => Some(id)
    case None => AfterResponse(ParseUrl(u), fetch(u), 0, fetch, PageScan(json), Netease.ExtractSongId, LocationAsWritten)
  }

  /** One response of the chain, case by case: what `AfterResponse` gives for it.  Every status
      outside 3xx has its body scanned, a 404 or a 500 as much as a 200. */
  lemma AfterResponseStep(base: UrlParts, resp: Option<Response>, count: nat,
                          fetch: string -> Option<Response>, scan: string -> Option<string>,
                          songId: string -> Option<string>, locate: (UrlParts, string) -> string)
    requires count <= MaxRedirects
    ensures resp.None? ==> AfterResponse(base, resp, count, fetch, scan, songId, locate).None?
    ensures resp.Some? && !IsRedirect(resp.value) ==>
      AfterResponse(base, resp, count, fetch, scan, songId, locate) == scan(resp.value.body)
    ensures resp.Some? && IsRedirect(resp.value) && !Truthy(resp.value.location) ==>
      AfterResponse(base, resp, count, fetch, scan, songId, locate).None?
    ensures resp.Some? && IsRedirect(resp.value) && Truthy(resp.value.location) ==>
      var next := locate(base, resp.value.location.value);
      AfterResponse(base, resp, count, fetch, scan, songId, locate) == FollowRedirect(base, next, count, fetch, scan, songId, locate)
  {
  }

  /** One round of `handleRedirect`: either the chain ends here with its answer, or the redirect
      target `next` is the next link to request. */
  method RedirectRound(base: UrlParts, resp: Option<Response>, count: nat,
                       fetch: string -> Option<Response>, scan: string -> Option<string>,
                       songId: string -> Option<string>, locate: (UrlParts, string) -> string)
    returns (done: bool, r: Option<string>, next: string)
    requires count <= MaxRedirects
    ensures done ==> r == AfterResponse(base, resp, count, fetch, scan, songId, locate)
    ensures !done ==> count < MaxRedirects
    ensures !done ==> AfterResponse(base, fetch(next), count + 1, fetch, scan, songId, locate) == AfterResponse(base, resp, count, fetch, scan, songId, locate)
  {
    AfterResponseStep(base, resp, count, fetch, scan, songId, locate);
    next := "";
    if resp.None? {
      return true, None, next;
    }
    var res := resp.value;
    if !IsRedirect(res) {
      return true, scan(res.body), next;
    }
    if res.location.None? || res.location.value == "" {
      return true, None, next;
    }
    next := locate(base, res.location.value);
    if count + 1 > MaxRedirects {
      return true, None, next;
    }
    var id := songId(next);
    if id.Some? {
      return true, id, next;
    }
    done, r := false, None;
  }

  /** The request loop from the first request on: it returns what the chain of responses leads
      to, and the links it requests are `u` followed by at most ten redirect targets. */
  method FollowResponses(base: UrlParts, u: string, fetch: string -> Option<Response>, scan: string -> Option<string>,
                         songId: string -> Option<string>, locate: (UrlParts, string) -> string)
    returns (r: Option<string>, requests: seq<string>)
    ensures r == AfterResponse(base, fetch(u), 0, fetch, scan, songId, locate)
    ensures 1 <= |requests| <= MaxRedirects + 1 && requests[0] == u
  {
    ghost var goal := AfterResponse(base, fetch(u), 0, fetch, scan, songId, locate);
    var count := 0;
    var resp := fetch(u);
    requests := [u];
    var done := false;
    r := None;
    while !done
      invariant count <= MaxRedirects && |requests| == count + 1 && requests[0] == u
      invariant done ==> r == goal
      invariant !done ==> AfterResponse(base, resp, count, fetch, scan, songId, locate) == goal
      decreases MaxRedirects - count, if done then 0 else 1
    {
      var next;
      done, r, next := RedirectRound(base, resp, count, fetch, scan, songId, locate);
      if !done {
        count := count + 1;
        resp := fetch(next);
        requests := requests + [next];
      }
    }
  }

  /** The handler run step by step: it returns what `ResolveShortUrl` describes, and the links it
      requests are the cleaned link followed by at most ten redirect targets (none when the
      cleaned link already names the song). */
  method FollowShortUrl(shortUrl: string, fetch: string -> Option<Response>, json: string -> Option<string>)
    returns (r: Option<string>, requests: seq<string>)
    ensures r == ResolveShortUrl(shortUrl, fetch, json)
    ensures |requests| <= MaxRedirects + 1
    ensures Netease.ExtractSongId(NormalizeShortUrl(shortUrl)).Some? <==> requests == []
    ensures requests != [] ==> requests[0] == NormalizeShortUrl(shortUrl)
  {
    var u := NormalizeShortUrl(shortUrl);
    var direct := Netease.ExtractSongId(u);
    if direct.Some? {
      return direct, [];
    }
    r, requests := FollowResponses(ParseUrl(u), u, fetch, PageScan(json), Netease.ExtractSongId, LocationAsWritten);
  }

  /** A redirect to `location` whose target holds no song link: the chain goes on with the
      response to that target. */
  lemma OneRedirect(base: UrlParts, location: string, fetch: string -> Option<Response>,
                    scan: string -> Option<string>, songId: string -> Option<string>, locate: (UrlParts, string) -> string)
    requires location != "" && songId(locate(base, location)).None?
    ensures AfterResponse(base, Some(Response(302, Some(location), "")), 0, fetch, scan, songId, locate)
         == AfterResponse(base, fetch(locate(base, location)), 1, fetch, scan, songId, locate)
  {
  }

  /** Where the handler as written sends `//example.com/p` from `https://163cn.tv/abc`. */
  lemma ExampleLocationAsWritten()
    ensures LocationAsWritten(UrlParts("https:", "163cn.tv", "/abc"), "//example.com/p") == "https://163cn.tv//example.com/p"
  {
    var location := "//example.com/p";
    assert location[..1] == "/";
    assert "https:" + "//" + "163cn.tv" + location == "https://163cn.tv//example.com/p";
  }

  /** Where `AbsoluteLocation` sends `//example.com/p` from `https://163cn.tv/abc`. */
  lemma ExampleAbsoluteLocation()
    ensures AbsoluteLocation(UrlParts("https:", "163cn.tv", "/abc"), "//example.com/p") == "https://example.com/p"
  {
    var location := "//example.com/p";
    assert location[..2] == "//";
    assert "https:" + location == "https://example.com/p";
  }

  /** The Location bug changes the handler's answer, not only the link it requests: after a
      request to `https://163cn.tv/abc`, a 302 to `//example.com/p` leads the chain as written to
      `https://163cn.tv//example.com/p`; when that request fails the answer is null, while the
      chain with `AbsoluteLocation` requests `https://example.com/p` and answers with what the
      scan finds in its page. */
  lemma ProtocolRelativeChangesAnswer(fetch: string -> Option<Response>, scan: string -> Option<string>,
                                      songId: string -> Option<string>)
    requires fetch("https://163cn.tv//example.com/p").None?
    requires fetch("https://example.com/p") == Some(Response(200, None, "page")) && scan("page").Some?
    requires songId("https://163cn.tv//example.com/p").None? && songId("https://example.com/p").None?
    ensures var base := UrlParts("https:", "163cn.tv", "/abc");
      var first := Some(Response(302, Some("//example.com/p"), ""));
      && AfterResponse(base, first, 0, fetch, scan, songId, LocationAsWritten).None?
      && AfterResponse(base, first, 0, fetch, scan, songId, AbsoluteLocation) == scan("page")
  {
    var base := UrlParts("https:", "163cn.tv", "/abc");
    ExampleLocationAsWritten();
    ExampleAbsoluteLocation();
    OneRedirect(base, "//example.com/p", fetch, scan, songId, LocationAsWritten);
    OneRedirect(base, "//example.com/p", fetch, scan, songId, AbsoluteLocation);
    AfterResponseStep(base, fetch("https://163cn.tv//example.com/p"), 1, fetch, scan, songId, LocationAsWritten);
    AfterResponseStep(base, fetch("https://example.com/p"), 1, fetch, scan, songId, AbsoluteLocation);
  }

  // ---------------------------------------------------------------------------------------------
  // The download handler

  /** `downloadPath.replace(/"/g, '\\"')`. */
  function EscapeQuotes(s: string): (r: string)
    ensures |r| >= |s|
    ensures forall i :: 0 <= i < |r| && r[i] == '"' ==> i > 0 && r[i - 1] == '\\'
  {
    if s == [] then []
    else (if s[0] == '"' then "\\\"" else [s[0]]) + EscapeQuotes(s[1..])
  }

  /** Reads `\"` back as `"` and leaves every other character alone. */
  function UnescapeQuotes(s: string): string
  {
    if s == [] then []
    else if |s| >= 2 && s[0] == '\\' && s[1] == '"' then "\"" + UnescapeQuotes(s[2..])
    else [s[0]] + UnescapeQuotes(s[1..])
  }

  /** Escaping loses nothing: the escaped path reads back as the path. */
  lemma {:induction false} EscapeRoundTrip(s: string)
    ensures UnescapeQuotes(EscapeQuotes(s)) == s
  {
    if s != [] {
      EscapeRoundTrip(s[1..]);
      var rest := EscapeQuotes(s[1..]);
      if s[0] == '"' {
        assert EscapeQuotes(s) == "\\\"" + rest;
        assert ("\\\"" + rest)[2..] == rest;
      } else if s[0] == '\\' {
        assert EscapeQuotes(s) == [s[0]] + rest;
        assert ([s[0]] + rest)[1..] == rest;
        assert rest == [] || rest[0] != '"';
      } else {
        assert EscapeQuotes(s) == [s[0]] + rest;
        assert ([s[0]] + rest)[1..] == rest;
      }
      assert s == [s[0]] + s[1..];
    }
  }

  /** The downloader's command line: the executable in quotes, the renderer's arguments, and the
      download folder with its quotes escaped. */
  function Command(executable: string, args: string, downloadPath: string): (c: string)
    ensures StartsWith(c, "\"" + executable + "\"" + args + " --download-dir=\"")
    ensures EndsWith(c, EscapeQuotes(downloadPath) + "\"")
    ensures c == "\"" + executable + "\"" + args + " --download-dir=\"" + EscapeQuotes(downloadPath) + "\""
  {
    var head := "\"" + executable + "\"" + args + " --download-dir=\"";
    var tail := EscapeQuotes(downloadPath) + "\"";
    var c := head + tail;
    assert c[..|head|] == head;
    assert c[|c| - |tail|..] == tail;
    c
  }

  /** The progress events the interval sends when it fires `ticks` times before the downloader
      finishes: 4, 8, … up to 100, after which it stops itself. */
  function Ticks(ticks: nat): (events: seq<int>)
    ensures |events| == (if ticks < 25 then ticks else 25)
    ensures forall i :: 0 <= i < |events| ==> events[i] == 4 * (i + 1)
  {
    var n := if ticks < 25 then ticks else 25;
    seq(n, i requires 0 <= i < n => 4 * (i + 1))
  }

  /** The ticks rise strictly, stay within 4..100, and reach 100 on the 25th. */
  lemma TicksShape(ticks: nat)
    ensures var e := Ticks(ticks);
      && (forall i, j :: 0 <= i < j < |e| ==> e[i] < e[j])
      && (forall i :: 0 <= i < |e| ==> 4 <= e[i] <= 100)
      && (ticks >= 25 ==> e[|e| - 1] == 100)
  {
  }

  /** The interval loop: the counter goes up by 4 on every tick, a value is sent while it is at
      most 100, and the interval is cleared once it reaches 100. */
  method SyntheticProgress(ticks: nat) returns (events: seq<int>)
    ensures events == Ticks(ticks)
  {
    events := [];
    var counter := 0;
    var fired := 0;
    var cleared := false;
    while fired < ticks && !cleared
      invariant fired <= ticks
      invariant counter == 4 * fired && counter <= 100
      invariant cleared <==> counter >= 100
      invariant events == Ticks(fired)
    {
      counter := counter + 4;
      fired := fired + 1;
      if counter <= 100 {
        events := events + [counter];
      }
      if counter >= 100 {
        cleared := true;
      }
    }
    assert fired < ticks ==> fired == 25;
  }

  /** How the downloader process ended: its executable was not found (reported before the
      process is started, synchronously), it failed with an error code and its standard error, or
      it finished with its standard output. */
  datatype ExecOutcome = NotFound | Failed(code: string, stderr: string) | Finished(stdout: string)

  /** The message the "download error" dialog shows. */
  datatype ErrorMessage = MissingExecutable | MissingDependencies | PermissionDenied | GenericError

  /** The error box the handler shows: "download error" with its message after a failed run, or
      "download incomplete" after a run whose output lacks `successfully`. */
  datatype Dialog = DownloadError(message: ErrorMessage) | DownloadIncomplete

  /** The dialog message for a failed run: a missing executable first, then a missing Python
      module, then a permission problem, else the generic message. */
  function ErrorMessageFor(code: string, stderr: string): (m: ErrorMessage)
    ensures m == MissingExecutable <==> code == "ENOENT"
    ensures m == MissingDependencies <==> code != "ENOENT" && Contains(stderr, "ModuleNotFoundError")
    ensures m == PermissionDenied <==>
      code != "ENOENT" && !Contains(stderr, "ModuleNotFoundError") && Contains(stderr, "Permission denied")
  {
    if code == "ENOENT" then MissingExecutable
    else if Contains(stderr, "ModuleNotFoundError") then MissingDependencies
    else if Contains(stderr, "Permission denied") then PermissionDenied
    else GenericError
  }

  /** A character `.` matches. */
  predicate IsLineChar(c: char) { !IsLineTerminator(c) }

  /** What `.*` captures at `q`: the rest of the line. */
  function RestOfLine(s: string, q: nat): (r: string)
    requires q <= |s|
    ensures OneLine(r) && HasAt(s, q, r)
    ensures q + |r| == |s| || IsLineTerminator(s[q + |r|])
  {
    var e := RunEnd(s, q, IsLineChar);
    var v := s[q..e];
    assert forall i :: 0 <= i < |v| ==> v[i] == s[q + i];
    v
  }

  /** What `/successfully:(.*)/` captures: the rest of the line after the first `successfully:`. */
  function SuccessCapture(stdout: string): (r: Option<string>)
    ensures r.Some? <==> Contains(stdout, "successfully:")
    ensures r.Some? ==> var k := IndexOf(stdout, "successfully:", 0).value;
      k + 13 <= |stdout| && r.value == RestOfLine(stdout, k + 13)
  {
    match IndexOf(stdout, "successfully:", 0)
    case None => None
    case Some(k) => Some(RestOfLine(stdout, k + 13))
  }

  /** The handler's answer for a finished run's output: the decoded, trimmed capture, or null when
      there is no `successfully:` or nothing after it. */
  function SuccessResult(stdout: string, decode: string -> string): (r: DownloadAnswer)
    ensures r.SavedPath? <==> SuccessCapture(stdout).Some? && SuccessCapture(stdout).value != ""
    ensures r.SavedPath? ==> r.path == decode(Trim(SuccessCapture(stdout).value))
    ensures r.SavedPath? || r.NullAnswer?
  {
    match SuccessCapture(stdout)
    case Some(v) => if v != "" then SavedPath(decode(Trim(v))) else NullAnswer
    case None => NullAnswer
  }

  /** The `.*` run at `q` of a text that goes on with a line and a line feed is that line. */
  lemma LineAt(out: string, q: nat, line: string, after: string)
    requires q <= |out| && out[q..] == line + "\n" + after
    requires OneLine(line)
    ensures RestOfLine(out, q) == line
  {
    var e := q + |line|;
    assert forall i :: q <= i < e ==> out[i] == out[q..][i - q] == line[i - q];
    assert out[e] == out[q..][|line|] == '\n';
    RunEndIs(out, q, e, IsLineChar);
    assert out[q..e] == out[q..][..|line|];
    assert (line + "\n" + after)[..|line|] == line;
  }

  /** The capture after a marker found at `k` is the line that follows it. */
  lemma CaptureIsLine(out: string, k: nat, line: string, after: string)
    requires IndexOf(out, "successfully:", 0) == Some(k)
    requires k + 13 <= |out| && out[k + 13..] == line + "\n" + after
    requires OneLine(line)
    ensures SuccessCapture(out) == Some(line)
  {
    LineAt(out, k + 13, line, after);
    assert SuccessCapture(out) == Some(RestOfLine(out, k + 13));
  }

  /** When the output's first `successfully:` is followed by a line that carries the path, the
      answer is the decoded path. */
  lemma SuccessLineGivesPath(out: string, k: nat, path: string, after: string, decode: string -> string)
    requires IndexOf(out, "successfully:", 0) == Some(k)
    requires k + 13 <= |out| && out[k + 13..] == path + "\n" + after
    requires path != "" && OneLine(path)
    ensures SuccessResult(out, decode) == SavedPath(decode(Trim(path)))
  {
    CaptureIsLine(out, k, path, after);
  }

  /** The first marker of `before + "successfully:"` is still the first once text follows it, and
      what follows it is that text. */
  lemma MarkerFound(before: string, rest: string)
    requires IndexOf(before + "successfully:", "successfully:", 0) == Some(|before|)
    ensures IndexOf(before + "successfully:" + rest, "successfully:", 0) == Some(|before|)
    ensures (before + "successfully:" + rest)[|before| + 13..] == rest
  {
    IndexOfPrefix(before + "successfully:", rest, "successfully:", 0);
  }

  /** A match found inside a prefix is found at the same place in the whole text. */
  lemma {:induction false} IndexOfPrefix(a: string, b: string, lit: string, p: nat)
    requires IndexOf(a, lit, p).Some? && IndexOf(a, lit, p).value + |lit| <= |a|
    decreases |a| + 1 - p
    ensures IndexOf(a + b, lit, p) == IndexOf(a, lit, p)
  {
    if !HasAt(a, p, lit) {
      assert !HasAt(a + b, p, lit) by {
        if p + |lit| <= |a| {
          assert (a + b)[p..p + |lit|] == a[p..p + |lit|];
        }
      }
      IndexOfPrefix(a, b, lit, p + 1);
    } else {
      assert (a + b)[p..p + |lit|] == a[p..p + |lit|];
    }
  }

  /** The run ended and its output says `successfully`: the handler's success callback runs. */
  predicate Succeeded(o: ExecOutcome) { o.Finished? && Contains(o.stdout, "successfully") }

  /** The `download` handler.  Arguments that are empty or lack `-u "` give `false` with nothing
      run.  Otherwise the command is run; the interval fires `ticks` times before the run ends.
      A missing executable gives `false` at once, before the interval has fired, and the error
      callback stops it; a failed run gives `false` and the "download error" box with its message;
      a finished run whose output says `successfully` sends a last 100 and gives the parsed
      result; any other output gives `false` and the "download incomplete" box. */
  method HandleDownload(args: string, executable: string, downloadPath: string, ticks: nat,
                        run: string -> ExecOutcome, decode: string -> string)
    returns (r: DownloadAnswer, command: Option<string>, events: seq<int>, dialog: Option<Dialog>)
    ensures args == "" || !Contains(args, "-u \"") ==>
      r == FalseAnswer && command.None? && events == [] && dialog.None?
    ensures args != "" && Contains(args, "-u \"") ==>
      && command == Some(Command(executable, args, downloadPath))
      && r == (if Succeeded(run(command.value)) then SuccessResult(run(command.value).stdout, decode) else FalseAnswer)
      && events == (if run(command.value).NotFound? then []
                    else Ticks(ticks) + (if Succeeded(run(command.value)) then [100] else []))
      && dialog == match run(command.value)
           case NotFound => None
           case Failed(code, stderr) => Some(DownloadError(ErrorMessageFor(code, stderr)))
           case Finished(stdout) => if Contains(stdout, "successfully") then None else Some(DownloadIncomplete)
  {
    dialog := None;
    if args == "" || !Contains(args, "-u \"") {
      return FalseAnswer, None, [], None;
    }
    var c := Command(executable, args, downloadPath);
    command := Some(c);
    match run(c)
    case NotFound =>
      events := [];
      r := FalseAnswer;
    case Failed(code, stderr) =>
      events := SyntheticProgress(ticks);
      dialog := Some(DownloadError(ErrorMessageFor(code, stderr)));
      r := FalseAnswer;
    case Finished(stdout) =>
      events := SyntheticProgress(ticks);
      if Contains(stdout, "successfully") {
        events := events + [100];
        r := SuccessResult(stdout, decode);
      } else {
        dialog := Some(DownloadIncomplete);
        r := FalseAnswer;
      }
  }

  // ---------------------------------------------------------------------------------------------
  // The request-header hook

  /** The headers of one outgoing request, which the hook edits in place. */
  class RequestHeaders {
    var headers: map<string, string>

    constructor(headers: map<string, string>)
      ensures this.headers == headers
    {
      this.headers := headers;
    }

    /** `onBeforeSendHeaders`: a non-empty `flag` header is removed and its value sent as
        `Cookie`; without one the headers go out untouched. */
    method MoveFlagToCookie()
      modifies this
      ensures "flag" in old(headers) && old(headers)["flag"] != "" ==>
        headers == (old(headers) - {"flag"})["Cookie" := old(headers)["flag"]]
      ensures !("flag" in old(headers) && old(headers)["flag"] != "") ==> headers == old(headers)
      ensures forall k :: k != "flag" && k != "Cookie" ==>
        (k in headers <==> k in old(headers)) && (k in headers ==> headers[k] == old(headers)[k])
    {
      if "flag" in headers && headers["flag"] != "" {
        var cookie := headers["flag"];
        headers := (headers - {"flag"})["Cookie" := cookie];
      }
    }
  }

  // ---------------------------------------------------------------------------------------------
  // The window title

  datatype Greeting = GoodMorning | GoodAfternoon | GoodEvening

  /** `setTitle`: morning before noon, afternoon until 19:00, evening after. */
  function GreetingAt(hour: int): (g: Greeting)
    requires 0 <= hour < 24
    ensures g == GoodMorning <==> hour < 12
    ensures g == GoodAfternoon <==> 12 <= hour < 19
    ensures g == GoodEvening <==> 19 <= hour
  {
    if 0 <= hour < 12 then GoodMorning
    else if 12 <= hour < 19 then GoodAfternoon
    else GoodEvening
  }

  /** The title text for a greeting. */
  function Title(g: Greeting): (t: string)
    ensures StartsWith(t, "Creamplayer - Good ")
  {
    var part := match g
      case GoodMorning => "Morning"
      case GoodAfternoon => "Afternoon"
      case GoodEvening => "Evening";
    var t := "Creamplayer - Good " + part;
    assert t[..19] == "Creamplayer - Good ";
    t
  }

  function Phase(g: Greeting): nat
  {
    match g
    case GoodMorning => 0
    case GoodAfternoon => 1
    case GoodEvening => 2
  }

  /** Through the day the greeting only moves forward. */
  lemma GreetingMovesForward(h1: int, h2: int)
    requires 0 <= h1 <= h2 < 24
    ensures Phase(GreetingAt(h1)) <= Phase(GreetingAt(h2))
  {
  }
}

=== FILE: netease.dfy ===
/**
 * The renderer's catalogue client (src/api/netease.ts): recognising share links, share texts and
 * song or playlist links in what the user types, resolving short links through a chain of
 * fallbacks, choosing which player-URL requests to make, and turning the catalogue's answers into
 * list rows.
 *
 * Regular expressions are written as matchers: a function telling what the pattern captures when
 * a match starts at one position; a non-global `match` is the leftmost position where the matcher
 * succeeds (TextScan.Leftmost).  `/i` folds ASCII letters only.
 */
module Netease {
  import opened TextScan
  import opened Songs

  // ---------------------------------------------------------------------------------------------
  // Short ids: /163cn\.tv\/([a-zA-Z0-9]+)/i

  const ShortHost := "163cn.tv/"
  const MusicHost := "music.163.com/"
  const YMusicHost := "y.music.163.com/"

  /** `163cn\.tv\/([a-zA-Z0-9]+)` at `p`: the alphanumeric run after the host. */
  function ShortIdAt(s: string, p: nat): (r: Option<string>)
    ensures r.Some? <==> HasAtCi(s, p, ShortHost) && p + 9 < |s| && IsAsciiAlnum(s[p + 9])
    ensures r.Some? ==> IsMaximalRun(s, p + 9, r.value, IsAsciiAlnum)
  {
    if HasAtCi(s, p, ShortHost) then RunAt(s, p + 9, IsAsciiAlnum) else None
  }

  /** `extractShortId`: the id of the leftmost `163cn.tv/` that is followed by a letter or digit. */
  function ExtractShortId(url: string): (r: Option<string>)
    ensures r.Some? <==> exists p: nat :: p <= |url| && HasAtCi(url, p, ShortHost) && p + 9 < |url| && IsAsciiAlnum(url[p + 9])
    ensures r.Some? ==> IsLeftmostMatch(url, ShortIdAt, r.value)
    ensures r.Some? ==> r.value != [] && forall i :: 0 <= i < |r.value| ==> IsAsciiAlnum(r.value[i])
  {
    var r := Leftmost(url, ShortIdAt);
    ShortIdSomewhere(url);
    if r.Some? then MatchedRun(url, ShortIdAt, r.value); r else r
  }

  lemma ShortIdSomewhere(url: string)
    ensures MatchesSomewhere(url, ShortIdAt) <==>
      exists p: nat :: p <= |url| && HasAtCi(url, p, ShortHost) && p + 9 < |url| && IsAsciiAlnum(url[p + 9])
  {
    if exists p: nat :: p <= |url| && HasAtCi(url, p, ShortHost) && p + 9 < |url| && IsAsciiAlnum(url[p + 9]) {
      var p: nat :| p <= |url| && HasAtCi(url, p, ShortHost) && p + 9 < |url| && IsAsciiAlnum(url[p + 9]);
      assert ShortIdAt(url, p).Some?;
    }
  }

  /** The leftmost match of a matcher that captures alphanumeric or digit runs is such a run. */
  lemma MatchedRun(s: string, at: (string, nat) -> Option<string>, v: string)
    requires at == ShortIdAt || at == SongIdAt || at == PlaylistIdAt
    requires IsLeftmostMatch(s, at, v)
    ensures v != [] && forall i :: 0 <= i < |v| ==> IsAsciiAlnum(v[i])
    ensures at != ShortIdAt ==> forall i :: 0 <= i < |v| ==> IsDigit(v[i])
  {
    var p: nat :| p <= |s| && at(s, p) == Some(v);
  }

  // ---------------------------------------------------------------------------------------------
  // Short links: /(https?:\/\/<host>[a-zA-Z0-9]+)/i for the three hosts, tried in order

  /** Length of the `https?:\/\/` prefix at `p` (ASCII case folded), 0 when there is none. */
  function SchemeLength(s: string, p: nat): (n: nat)
    ensures n == 8 <==> HasAtCi(s, p, "https://")
    ensures n == 7 <==> !HasAtCi(s, p, "https://") && HasAtCi(s, p, "http://")
    ensures n == 0 || n == 7 || n == 8
  {
    if HasAtCi(s, p, "https://") then 8 else if HasAtCi(s, p, "http://") then 7 else 0
  }

  /** Every character of `s` is ASCII. */
  predicate AllAscii(s: string)
  {
    forall i :: 0 <= i < |s| ==> IsAscii(s[i])
  }

  /** Every character of `s` from `i` up to `j` is ASCII. */
  predicate AsciiBetween(s: string, i: nat, j: nat)
    requires i <= j <= |s|
  {
    forall k :: i <= k < j ==> IsAscii(s[k])
  }

  /** Characters matched case-insensitively against an ASCII literal are ASCII. */
  lemma CiMatchIsAscii(s: string, p: nat, lit: string)
    requires AllAscii(lit) && HasAtCi(s, p, lit)
    ensures AsciiBetween(s, p, p + |lit|)
  {
    forall k | p <= k < p + |lit|
      ensures IsAscii(s[k])
    {
      assert Lower(s[k]) == lit[k - p];
    }
  }

  /** The `https?:\/\/` prefix at `p`, when there is one, is ASCII. */
  lemma SchemeIsAscii(s: string, p: nat)
    requires SchemeLength(s, p) > 0
    ensures p + SchemeLength(s, p) <= |s| && AsciiBetween(s, p, p + SchemeLength(s, p))
  {
    if SchemeLength(s, p) == 8 {
      assert AllAscii("https://");
      CiMatchIsAscii(s, p, "https://");
    } else {
      assert AllAscii("http://");
      CiMatchIsAscii(s, p, "http://");
    }
  }

  /** `https?:\/\/<host>[a-zA-Z0-9]+` at `p`: the whole match, which ends where the alphanumeric
      run ends. */
  function HostLinkAt(s: string, p: nat, host: string): (r: Option<string>)
    ensures r.Some? <==> var n := SchemeLength(s, p);
      n > 0 && HasAtCi(s, p + n, host) && p + n + |host| < |s| && IsAsciiAlnum(s[p + n + |host|])
    ensures r.Some? ==> HasAt(s, p, r.value) && |r.value| > SchemeLength(s, p) + |host|
    ensures r.Some? ==> p + |r.value| == |s| || !IsAsciiAlnum(s[p + |r.value|])
    ensures r.Some? ==> forall k :: p + SchemeLength(s, p) + |host| <= k < p + |r.value| ==> IsAsciiAlnum(s[k])
  {
    var n := SchemeLength(s, p);
    if n > 0 && HasAtCi(s, p + n, host) then
      match RunAt(s, p + n + |host|, IsAsciiAlnum)
      case None => None
      case Some(run) => Some(s[p..p + n + |host| + |run|])
    else None
  }

  /** A link to an ASCII host is ASCII throughout. */
  lemma HostLinkIsAscii(s: string, p: nat, host: string)
    requires AllAscii(host) && HostLinkAt(s, p, host).Some?
    ensures AllAscii(HostLinkAt(s, p, host).value)
  {
    var u := HostLinkAt(s, p, host).value;
    var n := SchemeLength(s, p);
    var e := p + |u|;
    SchemeIsAscii(s, p);
    CiMatchIsAscii(s, p + n, host);
    assert AsciiBetween(s, p, e) by {
      forall k | p <= k < e
        ensures IsAscii(s[k])
      {
        if k >= p + n + |host| {
          assert IsAsciiAlnum(s[k]);
        }
      }
    }
    forall i | 0 <= i < |u|
      ensures IsAscii(u[i])
    {
      assert u[i] == s[p..e][i] == s[p + i];
    }
  }

  function ShortLinkAt(s: string, p: nat): Option<string> { HostLinkAt(s, p, ShortHost) }

  function MusicLinkAt(s: string, p: nat): Option<string> { HostLinkAt(s, p, MusicHost) }

  function YMusicLinkAt(s: string, p: nat): Option<string> { HostLinkAt(s, p, YMusicHost) }

  /** `extractShortUrl`: the leftmost `163cn.tv` link; failing that the leftmost link of the form
      `https?://music.163.com/<alnum>`, then `https?://y.music.163.com/<alnum>`. */
  function ExtractShortUrl(text: string): (r: Option<string>)
    ensures MatchesSomewhere(text, ShortLinkAt) ==> r.Some? && IsLeftmostMatch(text, ShortLinkAt, r.value)
    ensures !MatchesSomewhere(text, ShortLinkAt) && MatchesSomewhere(text, MusicLinkAt) ==>
      r.Some? && IsLeftmostMatch(text, MusicLinkAt, r.value)
    ensures !MatchesSomewhere(text, ShortLinkAt) && !MatchesSomewhere(text, MusicLinkAt) && MatchesSomewhere(text, YMusicLinkAt) ==>
      r.Some? && IsLeftmostMatch(text, YMusicLinkAt, r.value)
    ensures r.None? <==>
      !MatchesSomewhere(text, ShortLinkAt) && !MatchesSomewhere(text, MusicLinkAt) && !MatchesSomewhere(text, YMusicLinkAt)
    ensures r.Some? ==> IsSubstring(r.value, text) && AllAscii(r.value)
  {
    var a := Leftmost(text, ShortLinkAt);
    if a.Some? then FoundLinkFacts(text, ShortLinkAt, ShortHost); a
    else
      var b := Leftmost(text, MusicLinkAt);
      if b.Some? then FoundLinkFacts(text, MusicLinkAt, MusicHost); b
      else
        var c := Leftmost(text, YMusicLinkAt);
        if c.Some? then FoundLinkFacts(text, YMusicLinkAt, YMusicHost); c else None
  }

  lemma HostsAreAscii()
    ensures AllAscii(ShortHost) && AllAscii(MusicHost) && AllAscii(YMusicHost)
  {
  }

  /** The leftmost link to `host` is an ASCII substring of the text. */
  lemma FoundLinkFacts(text: string, at: (string, nat) -> Option<string>, host: string)
    requires (at == ShortLinkAt && host == ShortHost) || (at == MusicLinkAt && host == MusicHost)
      || (at == YMusicLinkAt && host == YMusicHost)
    ensures var r := Leftmost(text, at); r.Some? ==> IsSubstring(r.value, text) && AllAscii(r.value)
  {
    var r := FirstAt(text, 0, at);
    if r.Some? {
      var p := r.value.0;
      HostsAreAscii();
      assert at(text, p) == HostLinkAt(text, p, host);
      LinkFacts(text, p, host);
    }
  }

  /** A link found at `p` is an ASCII substring of the text. */
  lemma LinkFacts(text: string, p: nat, host: string)
    requires AllAscii(host) && HostLinkAt(text, p, host).Some?
    ensures IsSubstring(HostLinkAt(text, p, host).value, text) && AllAscii(HostLinkAt(text, p, host).value)
  {
    HostLinkIsAscii(text, p, host);
    assert HasAt(text, p, HostLinkAt(text, p, host).value);
  }

  // ---------------------------------------------------------------------------------------------
  // Song and playlist links: /music\.163\.com(?:\/#|\/|\/#\/|\/)?<key>(\d+)/i

  /** The alternatives of the optional separator group, in the order the engine tries them. */
  const Separators: seq<string> := ["/#", "/", "/#/", "/", ""]

  /** `music.163.com`, separator `sep`, then `key` and a digit, at `p` (ASCII case folded). */
  predicate KeyedLinkAt(s: string, p: nat, sep: string, key: string)
  {
    var q := p + 13 + |sep| + |key|;
    HasAtCi(s, p, "music.163.com") && HasAtCi(s, p + 13, sep) && HasAtCi(s, q - |key|, key) && q < |s| && IsDigit(s[q])
  }

  /** Tries the separators `seps[k..]` in order after the host; the digits after the first that
      fits. */
  function SeparatedIdAt(s: string, p: nat, key: string, seps: seq<string>, k: nat): (r: Option<string>)
    decreases |seps| - k
    ensures r.Some? <==> exists i :: k <= i < |seps| && KeyedLinkAt(s, p, seps[i], key)
    ensures r.Some? ==>
      exists i :: k <= i < |seps| && KeyedLinkAt(s, p, seps[i], key) && IsMaximalRun(s, p + 13 + |seps[i]| + |key|, r.value, IsDigit)
  {
    if k >= |seps| then None
    else if KeyedLinkAt(s, p, seps[k], key) then
      var q := p + 13 + |seps[k]| + |key|;
      Some(s[q..RunEnd(s, q, IsDigit)])
    else
      SeparatedIdAt(s, p, key, seps, k + 1)
  }

  /** A song link at `p`: the id after `song?id=`. */
  function SongIdAt(s: string, p: nat): Option<string> { SeparatedIdAt(s, p, "song?id=", Separators, 0) }

  /** A playlist link at `p`: the id after `playlist?id=`. */
  function PlaylistIdAt(s: string, p: nat): Option<string> { SeparatedIdAt(s, p, "playlist?id=", Separators, 0) }

  /** `extractSongId`: the digits of the leftmost song link. */
  function ExtractSongId(text: string): (r: Option<string>)
    ensures r.Some? <==> exists p: nat, i :: p <= |text| && 0 <= i < |Separators| && KeyedLinkAt(text, p, Separators[i], "song?id=")
    ensures r.Some? ==> IsLeftmostMatch(text, SongIdAt, r.value)
    ensures r.Some? ==> r.value != [] && forall i :: 0 <= i < |r.value| ==> IsDigit(r.value[i])
  {
    var r := Leftmost(text, SongIdAt);
    KeyedLinkSomewhere(text, SongIdAt, "song?id=");
    if r.Some? then MatchedRun(text, SongIdAt, r.value); r else r
  }

  /** `extractPlaylistId`: the digits of the leftmost playlist link. */
  function ExtractPlaylistId(text: string): (r: Option<string>)
    ensures r.Some? <==> exists p: nat, i :: p <= |text| && 0 <= i < |Separators| && KeyedLinkAt(text, p, Separators[i], "playlist?id=")
    ensures r.Some? ==> IsLeftmostMatch(text, PlaylistIdAt, r.value)
    ensures r.Some? ==> r.value != [] && forall i :: 0 <= i < |r.value| ==> IsDigit(r.value[i])
  {
    var r := Leftmost(text, PlaylistIdAt);
    KeyedLinkSomewhere(text, PlaylistIdAt, "playlist?id=");
    if r.Some? then MatchedRun(text, PlaylistIdAt, r.value); r else r
  }

  lemma KeyedLinkSomewhere(text: string, at: (string, nat) -> Option<string>, key: string)
    requires (at == SongIdAt && key == "song?id=") || (at == PlaylistIdAt && key == "playlist?id=")
    ensures MatchesSomewhere(text, at) <==>
      exists p: nat, i :: p <= |text| && 0 <= i < |Separators| && KeyedLinkAt(text, p, Separators[i], key)
  {
    if exists p: nat, i :: p <= |text| && 0 <= i < |Separators| && KeyedLinkAt(text, p, Separators[i], key) {
      var p: nat, i :| p <= |text| && 0 <= i < |Separators| && KeyedLinkAt(text, p, Separators[i], key);
      assert at(text, p).Some?;
    }
  }

  // ---------------------------------------------------------------------------------------------
  // containsLinks (all four tests are case-sensitive)

  /** `music\.163\.com.*<key>` matches somewhere at or after `p`. */
  function HostThenKeyFrom(s: string, p: nat, key: string): (r: bool)
    decreases |s| - p
    ensures r <==> exists i :: p <= i <= |s| && HasAt(s, i, "music.163.com") && OnSameLine(s, i + 13, key)
  {
    if p > |s| then false
    else if HasAt(s, p, "music.163.com") && OnSameLine(s, p + 13, key) then true
    else HostThenKeyFrom(s, p + 1, key)
  }

  /** `containsLinks`: an `http://` or `https://`, a `music.163.com` followed on the same line by
      `song?id=` or `playlist?id=`, or a `163cn.tv/`. */
  function ContainsLinks(text: string): (r: bool)
    ensures r <==>
      || IsSubstring("http://", text) || IsSubstring("https://", text)
      || (exists i :: 0 <= i <= |text| && HasAt(text, i, "music.163.com") && OnSameLine(text, i + 13, "song?id="))
      || (exists i :: 0 <= i <= |text| && HasAt(text, i, "music.163.com") && OnSameLine(text, i + 13, "playlist?id="))
      || IsSubstring("163cn.tv/", text)
  {
    ContainsIsSubstring(text, "http://");
    ContainsIsSubstring(text, "https://");
    ContainsIsSubstring(text, "163cn.tv/");
    || Contains(text, "http://") || Contains(text, "https://")
    || HostThenKeyFrom(text, 0, "song?id=") || HostThenKeyFrom(text, 0, "playlist?id=")
    || Contains(text, "163cn.tv/")
  }

  // ---------------------------------------------------------------------------------------------
  // Share-text templates

  /** A lazy `(.+?)` starting at `q` and closed by `》`, with nothing required after it. */
  function TitleCloses(s: string, q: nat): bool
  {
    q <= |s| && LazyEnd(s, q, q + 1, "》", AnyRest).Some?
  }

  /** Where a greedy `\s*` that starts at `q` stops. */
  function SkipSpaces(s: string, q: nat): (e: nat)
    requires q <= |s|
    decreases |s| - q
    ensures q <= e <= |s|
  {
    if q < |s| && IsJsSpace(s[q]) then SkipSpaces(s, q + 1) else q
  }

  /** `\s*-\s*来自@网易云音乐` at `q`. */
  function FromCloudMusicTail(s: string, q: nat): bool
  {
    q <= |s| &&
    var a := SkipSpaces(s, q);
    HasAt(s, a, "-") && HasAt(s, SkipSpaces(s, a + 1), "来自@网易云音乐")
  }

  /** A lazy `(.+?)` starting at `q`, closed by `》` and followed by the "from Cloud Music" tail. */
  function TitleThenTail(s: string, q: nat): bool
  {
    q <= |s| && LazyEnd(s, q, q + 1, "》", FromCloudMusicTail).Some?
  }

  /** `artist`, then `的单曲《`, then `name`, then `》`, at `q`: both groups non-empty and on one line. */
  predicate IsSingle(s: string, q: nat, artist: string, name: string)
  {
    && artist != [] && name != [] && OneLine(artist) && OneLine(name)
    && HasAt(s, q, artist) && HasAt(s, q + |artist|, "的单曲《")
    && HasAt(s, q + |artist| + 4, name) && HasAt(s, q + |artist| + 4 + |name|, "》")
  }

  /** The two groups of `(.+?)的单曲《(.+?)》` once both lazy ends are known. */
  lemma SingleParts(s: string, q: nat, e1: nat, e2: nat)
    requires q < e1 && e1 + 4 < e2 && e2 < |s|
    requires HasAt(s, e1, "的单曲《") && HasAt(s, e2, "》")
    requires LineFree(s, q, e1) && LineFree(s, e1 + 4, e2)
    ensures IsSingle(s, q, s[q..e1], s[e1 + 4..e2])
  {
    assert forall i | q <= i < e1 :: s[q..e1][i - q] == s[i];
    assert forall i | e1 + 4 <= i < e2 :: s[e1 + 4..e2][i - e1 - 4] == s[i];
  }

  /** `(.+?)的单曲《(.+?)》` with the first group starting at `q`: the two groups (artist, title). */
  function SingleAt(s: string, q: nat): (r: Option<(string, string)>)
    ensures r.Some? ==> IsSingle(s, q, r.value.0, r.value.1)
  {
    if q >= |s| then None
    else
      match LazyEnd(s, q, q + 1, "的单曲《", TitleCloses)
      case None => None
      case Some(e1) =>
        match LazyEnd(s, e1 + 4, e1 + 4 + 1, "》", AnyRest)
        case None => None
        case Some(e2) =>
          SingleParts(s, q, e1, e2);
          Some((s[q..e1], s[e1 + 4..e2]))
  }

  /** Template 1, `分享(.+?)的单曲《(.+?)》`, at `p`: (artist, title). */
  function SharedSingleAt(s: string, p: nat): (r: Option<(string, string)>)
    ensures r.Some? ==> HasAt(s, p, "分享") && IsSingle(s, p + 2, r.value.0, r.value.1)
  {
    if HasAt(s, p, "分享") then SingleAt(s, p + 2) else None
  }

  /** Template 2, `我在网易云音乐听《(.+?)》`, at `p`: the title. */
  function ListeningAt(s: string, p: nat): (r: Option<string>)
    ensures r.Some? ==> HasAt(s, p, "我在网易云音乐听《") && HasAt(s, p + 9, r.value) && HasAt(s, p + 9 + |r.value|, "》")
    ensures r.Some? ==> r.value != [] && OneLine(r.value)
  {
    if HasAt(s, p, "我在网易云音乐听《") && p + 9 < |s| then
      match LazyEnd(s, p + 9, p + 9 + 1, "》", AnyRest)
      case None => None
      case Some(e) =>
        assert forall i | p + 9 <= i < e :: s[p + 9..e][i - p - 9] == s[i];
        Some(s[p + 9..e])
    else None
  }

  /** Template 3, `(.+?)的单曲《(.+?)》\s*-\s*来自@网易云音乐`, at `p`: (artist, title). */
  function SingleFromAt(s: string, p: nat): (r: Option<(string, string)>)
    ensures r.Some? ==> IsSingle(s, p, r.value.0, r.value.1)
  {
    if p >= |s| then None
    else
      match LazyEnd(s, p, p + 1, "的单曲《", TitleThenTail)
      case None => None
      case Some(e1) =>
        match LazyEnd(s, e1 + 4, e1 + 4 + 1, "》", FromCloudMusicTail)
        case None => None
        case Some(e2) =>
          SingleParts(s, p, e1, e2);
          Some((s[p..e1], s[e1 + 4..e2]))
  }

  /** Song information recovered from a share text (`extractCompleteShareInfo`). */
  datatype ShareInfo = ShareInfo(songName: Option<string>, artist: Option<string>, album: Option<string>)

  /** `extractCompleteShareInfo`: the first template that matches anywhere decides; its groups
      are trimmed; the album is never filled in. */
  function ExtractCompleteShareInfo(text: string): (r: ShareInfo)
    ensures r.album.None?
    ensures r.songName.Some? <==>
      MatchesSomewhere(text, SharedSingleAt) || MatchesSomewhere(text, ListeningAt) || MatchesSomewhere(text, SingleFromAt)
    ensures r.artist.Some? <==>
      MatchesSomewhere(text, SharedSingleAt) || (!MatchesSomewhere(text, ListeningAt) && MatchesSomewhere(text, SingleFromAt))
    ensures r.songName.Some? ==> Trim(r.songName.value) == r.songName.value
    ensures r.artist.Some? ==> Trim(r.artist.value) == r.artist.value
    ensures var g := Leftmost(text, SharedSingleAt);
      g.Some? ==> r == ShareInfo(Some(Trim(g.value.1)), Some(Trim(g.value.0)), None)
    ensures var name := Leftmost(text, ListeningAt);
      Leftmost(text, SharedSingleAt).None? && name.Some? ==> r == ShareInfo(Some(Trim(name.value)), None, None)
    ensures var g := Leftmost(text, SingleFromAt);
      Leftmost(text, SharedSingleAt).None? && Leftmost(text, ListeningAt).None? && g.Some? ==>
        r == ShareInfo(Some(Trim(g.value.1)), Some(Trim(g.value.0)), None)
  {
    match Leftmost(text, SharedSingleAt)
    case Some(g) => TrimTwice(g.0); TrimTwice(g.1); ShareInfo(Some(Trim(g.1)), Some(Trim(g.0)), None)
    case None =>
      match Leftmost(text, ListeningAt)
      case Some(name) => TrimTwice(name); ShareInfo(Some(Trim(name)), None, None)
      case None =>
        match Leftmost(text, SingleFromAt)
        case Some(g) => TrimTwice(g.0); TrimTwice(g.1); ShareInfo(Some(Trim(g.1)), Some(Trim(g.0)), None)
        case None => ShareInfo(None, None, None)
  }

  lemma TrimTwice(s: string)
    ensures Trim(Trim(s)) == Trim(s)
  {
    TrimByIdempotent(s, IsJsSpace);
  }

  /** `extractSongInfoFromShareText`'s result. */
  datatype SongInfo = SongInfo(song: Option<string>, artist: Option<string>)

  /** `extractSongInfoFromShareText`: template 1 only, groups untrimmed. */
  function ExtractSongInfoFromShareText(text: string): (r: SongInfo)
    ensures r.song.Some? <==> MatchesSomewhere(text, SharedSingleAt)
    ensures r.song.Some? <==> r.artist.Some?
    ensures r.song.Some? ==> IsLeftmostMatch(text, SharedSingleAt, (r.artist.value, r.song.value))
    ensures r.song.Some? ==> r.song.value != "" && r.artist.value != ""
  {
    match Leftmost(text, SharedSingleAt)
    case Some(g) =>
      assert SharedSingleAt(text, FirstAt(text, 0, SharedSingleAt).value.0) == Some(g);
      SongInfo(Some(g.1), Some(g.0))
    case None => SongInfo(None, None)
  }

  /** Whenever the untrimmed extractor finds a song, the full extractor reports the same song and
      artist, trimmed. */
  lemma ShareInfoTrimsSongInfo(text: string)
    ensures var info := ExtractSongInfoFromShareText(text);
      info.song.Some? ==>
        ExtractCompleteShareInfo(text) == ShareInfo(Some(Trim(info.song.value)), Some(Trim(info.artist.value)), None)
  {
  }

  /** Every template contains CJK text, so a text made of ASCII only (every short link the
      extractor returns is one) yields no share information at all. */
  lemma AsciiTextHasNoShareInfo(text: string)
    requires AllAscii(text)
    ensures ExtractCompleteShareInfo(text) == ShareInfo(None, None, None)
  {
    forall p: nat | p <= |text|
      ensures SharedSingleAt(text, p).None? && ListeningAt(text, p).None? && SingleFromAt(text, p).None?
    {
      NoTemplateInAscii(text, p);
    }
  }

  lemma NoTemplateInAscii(text: string, p: nat)
    requires AllAscii(text)
    ensures SharedSingleAt(text, p).None? && ListeningAt(text, p).None? && SingleFromAt(text, p).None?
  {
    NoSingleFromInAscii(text, p);
    NoSharedSingleInAscii(text, p);
    NoListeningInAscii(text, p);
  }

  lemma NoSingleFromInAscii(text: string, p: nat)
    requires AllAscii(text)
    ensures SingleFromAt(text, p).None?
  {
    var r := SingleFromAt(text, p);
    if r.Some? {
      SingleNotAscii(text, p, r.value.0, r.value.1);
    }
  }

  /** A text holding `<artist>的单曲《<name>》` is not ASCII. */
  lemma SingleNotAscii(s: string, q: nat, artist: string, name: string)
    requires IsSingle(s, q, artist, name)
    ensures !AllAscii(s)
  {
    NonAsciiLiteral(s, q + |artist|, "的单曲《");
  }

  lemma NoSharedSingleInAscii(text: string, p: nat)
    requires AllAscii(text)
    ensures SharedSingleAt(text, p).None?
  {
    if SharedSingleAt(text, p).Some? {
      NonAsciiLiteral(text, p, "分享");
    }
  }

  lemma NoListeningInAscii(text: string, p: nat)
    requires AllAscii(text)
    ensures ListeningAt(text, p).None?
  {
    if ListeningAt(text, p).Some? {
      NonAsciiLiteral(text, p, "我在网易云音乐听《");
    }
  }

  /** An ASCII text holds no literal that starts with a non-ASCII character. */
  lemma NonAsciiLiteral(s: string, q: nat, lit: string)
    requires HasAt(s, q, lit) && lit != [] && !IsAscii(lit[0])
    ensures !AllAscii(s)
  {
    assert s[q] == s[q..q + |lit|][0];
  }

  // ---------------------------------------------------------------------------------------------
  // parseInput

  datatype InputKind = SongIdInput | PlaylistInput | SearchInput

  /** The `meta` field: absent, the share-text song information, or an exact-match request. */
  datatype Meta = NoMeta | SharedSong(info: SongInfo) | ExactMatch(info: SongInfo)

  datatype ParsedInput = ParsedInput(kind: InputKind, value: string, isLink: bool, meta: Meta)

  /** The exact-search query built from share-text information: `song artist`, or the song alone. */
  function ExactQuery(info: SongInfo): string
    requires info.song.Some?
  {
    if Truthy(info.artist) then info.song.value + " " + info.artist.value else info.song.value
  }

  /** The short link settles the answer: it resolves, or the text carries a share song. */
  predicate ShortLinkDecides(input: string, resolve: string -> Option<string>)
  {
    var short := ExtractShortUrl(input);
    short.Some? && (Truthy(resolve(short.value)) || Truthy(ExtractSongInfoFromShareText(input).song))
  }

  /** `parseInput`.  `resolve` stands for `resolveShortUrl` (its answer for the extracted short
      link).  The order: a short link that resolves; a short link with share text (exact search);
      a song link; a playlist link; any other link with share text (exact search); any other link
      (empty search); plain text (search for the text itself). */
  function ParseInput(input: string, resolve: string -> Option<string>): (r: ParsedInput)
    ensures !r.isLink ==> r == ParsedInput(SearchInput, input, false, NoMeta)
    ensures !r.isLink ==>
      !ContainsLinks(input) && ExtractSongId(input).None? && ExtractPlaylistId(input).None?
    ensures ContainsLinks(input) ==> r.isLink
    ensures var short := ExtractShortUrl(input);
      short.Some? && Truthy(resolve(short.value)) ==>
        r == ParsedInput(SongIdInput, resolve(short.value).value, true, SharedSong(ExtractSongInfoFromShareText(input)))
    ensures r.kind == SongIdInput ==> r.value != "" && r.isLink
    ensures r.kind == SongIdInput && r.meta.NoMeta? ==>
      ExtractSongId(input) == Some(r.value) && forall i :: 0 <= i < |r.value| ==> IsDigit(r.value[i])
    ensures r.kind == PlaylistInput ==>
      ExtractSongId(input).None? && ExtractPlaylistId(input) == Some(r.value) && r.isLink && r.meta.NoMeta?
    ensures r.meta.ExactMatch? ==>
      var info := ExtractSongInfoFromShareText(input);
      r.kind == SearchInput && r.isLink && r.meta.info == info && info.song.Some? && info.artist.Some?
      && r.value == info.song.value + " " + info.artist.value
    ensures r.kind == SearchInput && r.isLink && !r.meta.ExactMatch? ==>
      r.value == "" && r.meta.NoMeta? && ExtractSongInfoFromShareText(input).song.None? && ContainsLinks(input)
    ensures r.meta.SharedSong? ==>
      ExtractShortUrl(input).Some? && r.kind == SongIdInput && Some(r.value) == resolve(ExtractShortUrl(input).value)
  {
    var info := ExtractSongInfoFromShareText(input);
    var shortUrl := ExtractShortUrl(input);
    var resolved := if shortUrl.Some? then resolve(shortUrl.value) else None;
    if Truthy(resolved) then ParsedInput(SongIdInput, resolved.value, true, SharedSong(info))
    else if shortUrl.Some? && Truthy(info.song) then ParsedInput(SearchInput, ExactQuery(info), true, ExactMatch(info))
    else
      var songId := ExtractSongId(input);
      if Truthy(songId) then ParsedInput(SongIdInput, songId.value, true, NoMeta)
      else
        var playlistId := ExtractPlaylistId(input);
        if Truthy(playlistId) then ParsedInput(PlaylistInput, playlistId.value, true, NoMeta)
        else
          var hasLinks := ContainsLinks(input);
          if hasLinks && Truthy(info.song) then ParsedInput(SearchInput, ExactQuery(info), true, ExactMatch(info))
          else if hasLinks then ParsedInput(SearchInput, "", true, NoMeta)
          else ParsedInput(SearchInput, input, false, NoMeta)
  }

  /** `parseInput` branch by branch, in the order it tries them: an unresolved short link with a
      share song searches for that song exactly; once the short link has not settled the answer, a
      song link gives its id, else a playlist link its id, else any other link an exact search
      (with a share song) or an empty search, and text without links is searched for as it is. */
  lemma ParseInputBranches(input: string, resolve: string -> Option<string>)
    ensures var short := ExtractShortUrl(input); var info := ExtractSongInfoFromShareText(input);
      short.Some? && !Truthy(resolve(short.value)) && Truthy(info.song) ==>
        ParseInput(input, resolve) == ParsedInput(SearchInput, ExactQuery(info), true, ExactMatch(info))
    ensures !ShortLinkDecides(input, resolve) && ExtractSongId(input).Some? ==>
      ParseInput(input, resolve) == ParsedInput(SongIdInput, ExtractSongId(input).value, true, NoMeta)
    ensures !ShortLinkDecides(input, resolve) && ExtractSongId(input).None? && ExtractPlaylistId(input).Some? ==>
      ParseInput(input, resolve) == ParsedInput(PlaylistInput, ExtractPlaylistId(input).value, true, NoMeta)
    ensures var info := ExtractSongInfoFromShareText(input);
      (!ShortLinkDecides(input, resolve) && ExtractSongId(input).None? && ExtractPlaylistId(input).None?
       && ContainsLinks(input)) ==>
        ParseInput(input, resolve) ==
          if Truthy(info.song) then ParsedInput(SearchInput, ExactQuery(info), true, ExactMatch(info))
          else ParsedInput(SearchInput, "", true, NoMeta)
    ensures (!ShortLinkDecides(input, resolve) && ExtractSongId(input).None? && ExtractPlaylistId(input).None?
             && !ContainsLinks(input)) ==> ParseInput(input, resolve) == ParsedInput(SearchInput, input, false, NoMeta)
  {
  }

  // ---------------------------------------------------------------------------------------------
  // A full song link

  /** What comes before the id in a full song link. */
  const SongLinkPrefix := "https://" + MusicHost + "song?id="

  /** What the alternative short-link pattern keeps of a full song link. */
  const TruncatedSongLink := "https://" + MusicHost + "song"

  /** `s` is the full song link for `id`: `https://`, the host and `/`, `song?id=`, the id. */
  predicate IsSongLink(s: string, id: string)
  {
    |s| == 30 + |id| && HasAt(s, 0, "https://") && HasAt(s, 8, MusicHost) && HasAt(s, 22, "song?id=")
    && s[30..] == id
  }

  /** `id` is a non-empty run of digits. */
  predicate IsDigitId(id: string)
  {
    id != [] && forall i :: 0 <= i < |id| ==> IsDigit(id[i])
  }

  lemma SongLinkIs(id: string)
    ensures IsSongLink(SongLinkPrefix + id, id)
  {
    var s := SongLinkPrefix + id;
    HasAtMiddle("", "https://", MusicHost + "song?id=" + id);
    assert "" + "https://" + (MusicHost + "song?id=" + id) == s;
    HasAtMiddle("https://", MusicHost, "song?id=" + id);
    assert "https://" + MusicHost + ("song?id=" + id) == s;
    HasAtMiddle("https://" + MusicHost, "song?id=", id);
    assert s[|SongLinkPrefix|..] == id;
  }

  /** A character of the link at `k`, read from its parts. */
  lemma SongLinkChar(s: string, id: string, k: nat)
    requires IsSongLink(s, id) && k < |s|
    ensures k < 8 ==> s[k] == "https://"[k]
    ensures 8 <= k < 22 ==> s[k] == MusicHost[k - 8]
    ensures 22 <= k < 30 ==> s[k] == "song?id="[k - 22]
    ensures 30 <= k ==> s[k] == id[k - 30]
  {
    if k < 8 {
      assert s[k] == s[0..8][k];
    } else if k < 22 {
      assert s[k] == s[8..22][k - 8];
    } else if k < 30 {
      assert s[k] == s[22..30][k - 22];
    } else {
      assert s[k] == s[30..][k - 30];
    }
  }

  /** In a full song link no scheme starts after the first character. */
  lemma SongLinkSchemeOnlyFirst(s: string, id: string, p: nat)
    requires IsSongLink(s, id) && IsDigitId(id) && 1 <= p
    ensures SchemeLength(s, p) == 0
  {
    if p < |s| {
      SongLinkChar(s, id, p);
      assert s[p] != 'h' && s[p] != 'H';
      assert "https://"[0] == 'h' && "http://"[0] == 'h';
    }
  }

  /** No short link is found in a full song link. */
  lemma SongLinkNoShortLink(s: string, id: string)
    requires IsSongLink(s, id) && IsDigitId(id)
    ensures !MatchesSomewhere(s, ShortLinkAt)
  {
    forall p: nat | p <= |s|
      ensures ShortLinkAt(s, p).None?
    {
      if p >= 1 {
        SongLinkSchemeOnlyFirst(s, id, p);
      } else {
        SongLinkNoShortLinkAtStart(s, id);
      }
    }
  }

  lemma SongLinkNoShortLinkAtStart(s: string, id: string)
    requires IsSongLink(s, id)
    ensures ShortLinkAt(s, 0).None?
  {
    if SchemeLength(s, 0) > 0 {
      SongLinkChar(s, id, 8);
      assert Lower(s[8]) != ShortHost[0];
    }
  }

  /** The alternative short-link pattern matches a full song link at 0, up to `song`. */
  lemma SongLinkMusicLink(s: string, id: string)
    requires IsSongLink(s, id)
    ensures MusicLinkAt(s, 0) == Some(TruncatedSongLink)
  {
    HasAtCiOfExact(s, 0, "https://");
    HasAtCiOfExact(s, 8, MusicHost);
    forall k | 22 <= k <= 26
      ensures k < 26 ==> IsAsciiAlnum(s[k])
      ensures k == 26 ==> s[k] == '?'
    {
      SongLinkChar(s, id, k);
    }
    RunEndIs(s, 22, 26, IsAsciiAlnum);
    assert RunAt(s, 22, IsAsciiAlnum) == Some(s[22..26]);
    assert s[22..26] == s[22..30][..4] == "song?id="[..4] == "song";
    assert s[0..26] == s[0..8] + s[8..22] + s[22..26];
  }

  /** The alternative short-link pattern cuts a full song link down to `https://music.163.com/song`. */
  lemma FullSongLinkShortUrl(id: string)
    requires IsDigitId(id)
    ensures ExtractShortUrl(SongLinkPrefix + id) == Some(TruncatedSongLink)
  {
    var s := SongLinkPrefix + id;
    SongLinkIs(id);
    SongLinkNoShortLink(s, id);
    SongLinkMusicLink(s, id);
    assert ExtractShortUrl(s) == MusicLinkAt(s, 0) by {
      var v := ExtractShortUrl(s).value;
      var p: nat :| p <= |s| && MusicLinkAt(s, p) == Some(v) && forall k: nat :: k < p ==> MusicLinkAt(s, k).None?;
      assert p == 0;
    }
  }

  /** No song link starts before the host. */
  lemma SongLinkNoIdBeforeHost(s: string, id: string, p: nat)
    requires IsSongLink(s, id) && p < 8
    ensures SongIdAt(s, p).None?
  {
    SongLinkChar(s, id, p);
    assert Lower(s[p]) != 'm';
    assert !HasAtCi(s, p, "music.163.com") by { assert "music.163.com"[0] == 'm'; }
  }

  /** The song-id pattern finds the id of a full song link. */
  lemma FullSongLinkId(id: string)
    requires IsDigitId(id)
    ensures ExtractSongId(SongLinkPrefix + id) == Some(id)
  {
    var s := SongLinkPrefix + id;
    SongLinkIs(id);
    forall p: nat | p < 8
      ensures SongIdAt(s, p).None?
    {
      SongLinkNoIdBeforeHost(s, id, p);
    }
    SongLinkIdAt(s, id);
    assert ExtractSongId(s) == Some(id) by {
      var v := ExtractSongId(s).value;
      var p: nat :| p <= |s| && SongIdAt(s, p) == Some(v) && forall k: nat :: k < p ==> SongIdAt(s, k).None?;
      assert p == 8;
    }
  }

  /** At 8 the "/" separator fits and the digit run is the whole id. */
  lemma SongLinkIdAt(s: string, id: string)
    requires IsSongLink(s, id) && IsDigitId(id)
    ensures SongIdAt(s, 8) == Some(id)
  {
    SongLinkSlashFits(s, id);
    SongLinkHashFails(s, id);
    SongLinkDigitRun(s, id);
    SecondSeparatorFits(s, 8, "song?id=", Separators);
  }

  /** When the first separator does not fit and the second does, the digits after the second are
      the answer. */
  lemma SecondSeparatorFits(s: string, p: nat, key: string, seps: seq<string>)
    requires 2 <= |seps|
    requires !KeyedLinkAt(s, p, seps[0], key) && KeyedLinkAt(s, p, seps[1], key)
    ensures var q := p + 13 + |seps[1]| + |key|;
      SeparatedIdAt(s, p, key, seps, 0) == Some(s[q..RunEnd(s, q, IsDigit)])
  {
    assert SeparatedIdAt(s, p, key, seps, 0) == SeparatedIdAt(s, p, key, seps, 1);
  }

  lemma SongLinkSlashFits(s: string, id: string)
    requires IsSongLink(s, id) && IsDigitId(id)
    ensures KeyedLinkAt(s, 8, Separators[1], "song?id=")
  {
    assert s[8..21] == s[8..22][..13] && s[21..22] == s[8..22][13..];
    assert MusicHost[..13] == "music.163.com" && MusicHost[13..] == "/";
    HasAtCiOfExact(s, 8, "music.163.com");
    HasAtCiOfExact(s, 21, "/");
    HasAtCiOfExact(s, 22, "song?id=");
    SongLinkChar(s, id, 30);
  }

  lemma SongLinkHashFails(s: string, id: string)
    requires IsSongLink(s, id)
    ensures !KeyedLinkAt(s, 8, Separators[0], "song?id=")
  {
    SongLinkChar(s, id, 22);
    assert Lower(s[22]) != "/#"[1];
  }

  lemma SongLinkDigitRun(s: string, id: string)
    requires IsSongLink(s, id) && IsDigitId(id)
    ensures RunEnd(s, 30, IsDigit) == |s| && s[30..|s|] == id
  {
    assert forall k :: 30 <= k < |s| ==> s[k] == s[30..][k - 30];
    RunEndIs(s, 30, |s|, IsDigit);
  }

  /** A full song link carries no share text. */
  lemma FullSongLinkNoShareText(id: string)
    requires IsDigitId(id)
    ensures ExtractSongInfoFromShareText(SongLinkPrefix + id) == SongInfo(None, None)
  {
    var s := SongLinkPrefix + id;
    SongLinkIs(id);
    SongLinkAscii(s, id);
    forall p: nat | p <= |s|
      ensures SharedSingleAt(s, p).None?
    {
      NoTemplateInAscii(s, p);
    }
  }

  lemma SongLinkAscii(s: string, id: string)
    requires IsSongLink(s, id) && IsDigitId(id)
    ensures AllAscii(s)
  {
    forall i | 0 <= i < |s|
      ensures IsAscii(s[i])
    {
      SongLinkChar(s, id, i);
    }
  }

  /** A full song link `https://music.163.com/song?id=<digits>` goes to the short-link resolver
      first, cut down to `https://music.163.com/song` by the alternative short-link pattern; its
      own id is used only when the resolver's answer is empty. */
  lemma FullSongLinkParse(id: string, resolve: string -> Option<string>)
    requires IsDigitId(id)
    ensures var r := ParseInput(SongLinkPrefix + id, resolve);
      var answer := resolve(TruncatedSongLink);
      if Truthy(answer) then r.kind == SongIdInput && r.value == answer.value
      else r == ParsedInput(SongIdInput, id, true, NoMeta)
  {
    FullSongLinkShortUrl(id);
    FullSongLinkId(id);
    FullSongLinkNoShareText(id);
  }
}

=== FILE: netease_client.dfy ===
/**
 * The request-making half of the catalogue client (src/api/netease.ts): the short-link resolver's
 * fallback chain, the rule choosing the play-URL requests, the song lookup, the exported `search`
 * and `download`.
 *
 * Every request is an oracle: a field of `Services` telling what the main process, the browser's
 * `fetch` or a catalogue endpoint answers, with None standing for a failed request, a thrown
 * error or an answer without the expected data.
 */
module NeteaseClient {
  import opened TextScan
  import opened Songs
  import opened Netease

  /** What `fetch` with `redirect: 'follow'` reports: `response.ok`, `response.url` after the
      redirects, and `response.text()` (None when reading it fails). */
  datatype FetchResult = FetchResult(ok: bool, finalUrl: string, body: Option<string>)

  /** A `/song/enhance/player/url?ids=[id]&br=<br>` request; `flag` is the login cookie header the
      authenticated request carries. */
  datatype PlayerRequest = PlayerRequest(id: string, br: int, flag: Option<string>)

  /** What a player request gives `url`: the first entry's `url`, a `null` one, an entry with no
      `url` field (undefined, which is not `=== null`), or a failure: the request is rejected, or
      the answer has no first entry and reading it throws.  A failure rejects `url`. */
  datatype PlayerAnswer = UrlGiven(url: string) | NullUrl | NoUrlField | PlayerFailed

  /** The URL `url` resolves with for an answer that is not a failure. */
  function AnswerUrl(a: PlayerAnswer): Option<string>
  {
    if a.UrlGiven? then Some(a.url) else None
  }

  /** The answers of everything the client asks. */
  datatype Services = Services(
    invoke: string -> Option<string>,                        // main process, `resolveShortUrl`
    fetch: string -> Option<FetchResult>,                    // browser `fetch`
    detail: string -> Option<CatalogSong>,                   // `/song/detail`, its first track
    search: (string, int, int) -> Option<seq<CatalogSong>>,  // `/cloudsearch/pc`, its tracks
    playlist: string -> Option<seq<string>>,                 // `/v6/playlist/detail`, its track ids
    player: PlayerRequest -> PlayerAnswer)                   // first entry of the player answer

  // ---------------------------------------------------------------------------------------------
  // resolveShortUrl

  /** The guard `/163cn\.tv|music\.163\.com/i`. */
  predicate LooksLikeCatalogLink(s: string)
  {
    ContainsCiFrom(s, "163cn.tv", 0) || ContainsCiFrom(s, "music.163.com", 0)
  }

  /** The five strategies, in the order they are tried. */
  datatype Strategy = MainProcess | DirectId | Redirect | ShareText | ShortIdSearch

  const Strategies: seq<Strategy> := [MainProcess, DirectId, Redirect, ShareText, ShortIdSearch]

  /** Strategy 1 asks the main process about the link, with `https://` put in front when it does
      not start with `http`. */
  function MainProcessUrl(shortUrl: string): (r: string)
    ensures StartsWith(r, "http")
    ensures StartsWith(shortUrl, "http") ==> r == shortUrl
    ensures !StartsWith(shortUrl, "http") ==> |r| == |shortUrl| + 8 && r[8..] == shortUrl && StartsWith(r, "https://")
  {
    if StartsWith(shortUrl, "http") then shortUrl
    else
      var r := "https://" + shortUrl;
      assert r[..4] == "http" && r[..8] == "https://";
      r
  }

  /** Strategy 1: the main process's answer, when it is not empty. */
  function MainProcessAttempt(shortUrl: string, api: Services): (r: Option<string>)
    ensures r.Some? <==> Truthy(api.invoke(MainProcessUrl(shortUrl)))
    ensures r.Some? ==> r == api.invoke(MainProcessUrl(shortUrl))
  {
    var answer := api.invoke(MainProcessUrl(shortUrl));
    if Truthy(answer) then answer else None
  }

  predicate IsDirectSeparator(c: char) { c == '\\' || c == '/' || c == '=' || c == ':' }

  /** `<key>[\\/=:](\d{5,12})` at `p`, the key compared up to ASCII case. */
  function KeyedDigitsAt(s: string, p: nat, key: string): (r: Option<string>)
    ensures r.Some? ==> HasAtCi(s, p, key) && p + |key| < |s| && IsDirectSeparator(s[p + |key|])
    ensures r.Some? ==> 5 <= |r.value| <= 12 && IsSubstring(r.value, s)
    ensures r.Some? ==> forall i :: 0 <= i < |r.value| ==> IsDigit(r.value[i])
  {
    var q := p + |key|;
    if HasAtCi(s, p, key) && q < |s| && IsDirectSeparator(s[q]) then
      var r := BoundedDigitsAt(s, q + 1, 5, 12);
      assert r.Some? ==> HasAt(s, q + 1, r.value);
      r
    else None
  }

  /** `(?:song|music|s)[\\/=:](\d{5,12})` at `p`: the alternatives in the order the engine tries them. */
  function DirectIdAt(s: string, p: nat): (r: Option<string>)
    ensures r.Some? ==> 5 <= |r.value| <= 12 && IsSubstring(r.value, s)
    ensures r.Some? ==> forall i :: 0 <= i < |r.value| ==> IsDigit(r.value[i])
  {
    match KeyedDigitsAt(s, p, "song")
    case Some(id) => Some(id)
    case None =>
      match KeyedDigitsAt(s, p, "music")
      case Some(id) => Some(id)
      case None => KeyedDigitsAt(s, p, "s")
  }

  /** `/(?:song|music|s)[\\/=:](\d{5,12})/i`: five to twelve digits after the leftmost key and
      separator followed by at least five digits. */
  function ExtractDirectId(s: string): (r: Option<string>)
    ensures r.Some? ==> IsLeftmostMatch(s, DirectIdAt, r.value)
    ensures r.Some? ==> 5 <= |r.value| <= 12 && IsSubstring(r.value, s)
    ensures r.Some? ==> forall i :: 0 <= i < |r.value| ==> IsDigit(r.value[i])
  {
    var r := Leftmost(s, DirectIdAt);
    if r.Some? then DirectIdFacts(s, r.value); r else r
  }

  lemma DirectIdFacts(s: string, v: string)
    requires IsLeftmostMatch(s, DirectIdAt, v)
    ensures 5 <= |v| <= 12 && IsSubstring(v, s) && forall i :: 0 <= i < |v| ==> IsDigit(v[i])
  {
    var p: nat :| p <= |s| && DirectIdAt(s, p) == Some(v);
  }

  /** Strategy 2: a directly embedded id, kept when the catalogue knows the song. */
  function DirectIdAttempt(shortUrl: string, api: Services): (r: Option<string>)
    ensures r.Some? <==> ExtractDirectId(shortUrl).Some? && api.detail(ExtractDirectId(shortUrl).value).Some?
    ensures r.Some? ==> r == ExtractDirectId(shortUrl)
  {
    match ExtractDirectId(shortUrl)
    case Some(id) => if api.detail(id).Some? then Some(id) else None
    case None => None
  }

  /** `shortUrl.replace(/^http:/, 'https:')`. */
  function ForceHttps(s: string): (r: string)
    ensures HasAt(s, 0, "http:") ==> r == "https:" + s[5..]
    ensures !HasAt(s, 0, "http:") ==> r == s
  {
    if HasAt(s, 0, "http:") then "https:" + s[5..] else s
  }

  /** `song?id=(\d{5,12})` at `p` (case-sensitive). */
  function HtmlSongIdAt(s: string, p: nat): (r: Option<string>)
    ensures r.Some? ==> HasAt(s, p, "song?id=") && 5 <= |r.value| <= 12 && HasAt(s, p + 8, r.value)
    ensures r.Some? ==> forall i :: 0 <= i < |r.value| ==> IsDigit(r.value[i])
  {
    if HasAt(s, p, "song?id=") then BoundedDigitsAt(s, p + 8, 5, 12) else None
  }

  /** Strategy 3: follow the redirects; the song link in the final URL, else the first
      `song?id=` of at least five digits in the page. */
  function RedirectAttempt(shortUrl: string, api: Services): (r: Option<string>)
    ensures r.Some? ==> api.fetch(ForceHttps(shortUrl)).Some? && api.fetch(ForceHttps(shortUrl)).value.ok
    ensures r.Some? ==> r.value != [] && forall i :: 0 <= i < |r.value| ==> IsDigit(r.value[i])
    ensures var resp := api.fetch(ForceHttps(shortUrl));
      resp.Some? && resp.value.ok && ExtractSongId(resp.value.finalUrl).Some? ==>
        r == ExtractSongId(resp.value.finalUrl)
    ensures var resp := api.fetch(ForceHttps(shortUrl));
      resp.Some? && resp.value.ok && ExtractSongId(resp.value.finalUrl).None? && resp.value.body.Some? ==>
        r == Leftmost(resp.value.body.value, HtmlSongIdAt)
    ensures var resp := api.fetch(ForceHttps(shortUrl));
      resp.Some? && ExtractSongId(resp.value.finalUrl).None? && resp.value.body.None? ==> r.None?
  {
    match api.fetch(ForceHttps(shortUrl))
    case None => None
    case Some(resp) =>
      if !resp.ok then None
      else match ExtractSongId(resp.finalUrl)
        case Some(id) => Some(id)
        case None =>
          match resp.body
          case None => None
          case Some(html) =>
            Leftmost(html, HtmlSongIdAt)
  }

  /** A search hit that has exactly the shared title and lists the shared artist. */
  predicate IsExactHit(c: CatalogSong, name: string, artist: string)
  {
    c.name == name && artist in c.artists
  }

  /** `Array.prototype.find` over the hits from `i` on: the index of the first exact hit. */
  function FindExact(songs: seq<CatalogSong>, name: string, artist: string, i: nat): (r: Option<nat>)
    decreases |songs| - i
    ensures r.Some? ==> i <= r.value < |songs| && IsExactHit(songs[r.value], name, artist)
    ensures r.Some? ==> forall j :: i <= j < r.value ==> !IsExactHit(songs[j], name, artist)
    ensures r.None? ==> forall j :: i <= j < |songs| ==> !IsExactHit(songs[j], name, artist)
  {
    if i >= |songs| then None
    else if IsExactHit(songs[i], name, artist) then Some(i)
    else FindExact(songs, name, artist, i + 1)
  }

  /** The id strategy 4 picks: the first exact hit, else the top hit. */
  function PickHit(songs: seq<CatalogSong>, name: string, artist: string): (r: string)
    requires songs != []
    ensures (exists i :: 0 <= i < |songs| && IsExactHit(songs[i], name, artist)) ==>
      exists i :: 0 <= i < |songs| && IsExactHit(songs[i], name, artist) && r == songs[i].id
        && forall j :: 0 <= j < i ==> !IsExactHit(songs[j], name, artist)
    ensures (forall i :: 0 <= i < |songs| ==> !IsExactHit(songs[i], name, artist)) ==> r == songs[0].id
  {
    match FindExact(songs, name, artist, 0)
    case Some(i) => songs[i].id
    case None => songs[0].id
  }

  /** The search strategy 4 makes with the share information: `title artist`, five hits, the first
      exact hit or else the top one. */
  function SearchShared(info: ShareInfo, api: Services): (r: Option<string>)
    ensures r.Some? ==> Truthy(info.songName) && Truthy(info.artist)
    ensures r.Some? ==>
      var hits := api.search(info.songName.value + " " + info.artist.value, 5, 0);
      hits.Some? && hits.value != [] && r.value == PickHit(hits.value, info.songName.value, info.artist.value)
  {
    if Truthy(info.songName) && Truthy(info.artist) then
      match api.search(info.songName.value + " " + info.artist.value, 5, 0)
      case Some(hits) => if hits != [] then Some(PickHit(hits, info.songName.value, info.artist.value)) else None
      case None => None
    else None
  }

  /** Strategy 4: the share information is read from the link text itself. */
  function ShareTextAttempt(shortUrl: string, api: Services): Option<string>
  {
    SearchShared(ExtractCompleteShareInfo(shortUrl), api)
  }

  /** Strategy 5: the top hit of a search for the short-link key. */
  function ShortIdAttempt(shortUrl: string, api: Services): (r: Option<string>)
    ensures r.Some? <==> var key := ExtractShortId(shortUrl);
      key.Some? && api.search(key.value, 1, 0).Some? && api.search(key.value, 1, 0).value != []
    ensures r.Some? ==> r.value == api.search(ExtractShortId(shortUrl).value, 1, 0).value[0].id
  {
    var key := ExtractShortId(shortUrl);
    if Truthy(key) then
      match api.search(key.value, 1, 0)
      case Some(hits) => if hits != [] then Some(hits[0].id) else None
      case None => None
    else None
  }

  function Attempt(s: Strategy, shortUrl: string, api: Services): Option<string>
  {
    match s
    case MainProcess => MainProcessAttempt(shortUrl, api)
    case DirectId => DirectIdAttempt(shortUrl, api)
    case Redirect => RedirectAttempt(shortUrl, api)
    case ShareText => ShareTextAttempt(shortUrl, api)
    case ShortIdSearch => ShortIdAttempt(shortUrl, api)
  }

  /** The first answer of `answers`. */
  function FirstSome(answers: seq<Option<string>>): (r: Option<string>)
    ensures r.Some? <==> exists i :: 0 <= i < |answers| && answers[i].Some?
    ensures r.Some? ==> exists i :: (0 <= i < |answers| && r == answers[i]
      && forall j :: 0 <= j < i ==> answers[j].None?)
  {
    if answers == [] then None
    else if answers[0].Some? then answers[0]
    else
      var r := FirstSome(answers[1..]);
      assert forall i :: 1 <= i < |answers| ==> answers[1..][i - 1] == answers[i];
      r
  }

  /** What the strategies answer, in the order they are tried; `attempt` tells what each one
      answers for the link at hand. */
  function Answers(attempt: Strategy -> Option<string>): (a: seq<Option<string>>)
    ensures |a| == |Strategies| && forall i :: 0 <= i < |a| ==> a[i] == attempt(Strategies[i])
  {
    [attempt(MainProcess), attempt(DirectId), attempt(Redirect), attempt(ShareText), attempt(ShortIdSearch)]
  }

  /** What `resolveShortUrl` answers when its strategies answer as `attempt` says: nothing for a
      text without a catalogue host, otherwise the first strategy's answer. */
  function ResolveWith(shortUrl: string, attempt: Strategy -> Option<string>): (r: Option<string>)
    ensures !LooksLikeCatalogLink(shortUrl) ==> r.None?
    ensures LooksLikeCatalogLink(shortUrl) ==> r == FirstSome(Answers(attempt))
  {
    if LooksLikeCatalogLink(shortUrl) then FirstSome(Answers(attempt)) else None
  }

  /** The strategies' answers for `shortUrl` given the services. */
  function StrategyAnswers(shortUrl: string, api: Services): Strategy -> Option<string>
  {
    s => Attempt(s, shortUrl, api)
  }

  function Resolve(shortUrl: string, api: Services): Option<string>
  {
    ResolveWith(shortUrl, StrategyAnswers(shortUrl, api))
  }

  /** `resolveShortUrl` as the resolver `parseInput` is given. */
  function Resolver(api: Services): string -> Option<string>
  {
    s => Resolve(s, api)
  }

  /** `resolveShortUrl`: the strategies run in order and stop at the first answer; `attempt(s)` is
      what strategy `s` answers for this link (`StrategyAnswers` defines it from the services) and
      `tried` lists the strategies that were run. */
  method ResolveShortUrl(shortUrl: string, attempt: Strategy -> Option<string>) returns (r: Option<string>, tried: seq<Strategy>)
    ensures r == ResolveWith(shortUrl, attempt)
    ensures !LooksLikeCatalogLink(shortUrl) ==> tried == []
    ensures LooksLikeCatalogLink(shortUrl) ==> 1 <= |tried| <= |Strategies|
    ensures forall i :: 0 <= i < |tried| ==> tried[i] == Strategies[i]
    ensures forall i :: 0 <= i < |tried| - 1 ==> attempt(tried[i]).None?
    ensures r.Some? ==> tried != [] && r == attempt(tried[|tried| - 1])
    ensures r.None? && LooksLikeCatalogLink(shortUrl) ==> |tried| == |Strategies|
  {
    tried := [];
    if !LooksLikeCatalogLink(shortUrl) {
      return None, tried;
    }
    tried := [MainProcess];
    r := attempt(MainProcess);
    if r.Some? {
      StopsAt(shortUrl, attempt, 0, tried, r);
      return;
    }
    tried := tried + [DirectId];
    r := attempt(DirectId);
    if r.Some? {
      StopsAt(shortUrl, attempt, 1, tried, r);
      return;
    }
    tried := tried + [Redirect];
    r := attempt(Redirect);
    if r.Some? {
      StopsAt(shortUrl, attempt, 2, tried, r);
      return;
    }
    tried := tried + [ShareText];
    r := attempt(ShareText);
    if r.Some? {
      StopsAt(shortUrl, attempt, 3, tried, r);
      return;
    }
    tried := tried + [ShortIdSearch];
    r := attempt(ShortIdSearch);
    StopsAt(shortUrl, attempt, 4, tried, r);
  }

  /** The run stops after strategy `k`, because it answered or because it was the last one. */
  lemma StopsAt(shortUrl: string, attempt: Strategy -> Option<string>, k: nat, tried: seq<Strategy>, r: Option<string>)
    requires LooksLikeCatalogLink(shortUrl)
    requires k < |Strategies| && tried == Strategies[..k + 1] && r == attempt(Strategies[k])
    requires forall j :: 0 <= j < k ==> attempt(Strategies[j]).None?
    requires r.Some? || k == |Strategies| - 1
    ensures r == ResolveWith(shortUrl, attempt)
    ensures 1 <= |tried| <= |Strategies|
    ensures forall i :: 0 <= i < |tried| ==> tried[i] == Strategies[i]
    ensures forall i :: 0 <= i < |tried| - 1 ==> attempt(tried[i]).None?
    ensures r.Some? ==> r == attempt(tried[|tried| - 1])
    ensures r.None? ==> |tried| == |Strategies|
  {
    var a := Answers(attempt);
    if r.Some? {
      FirstSomeAt(a, k);
    } else {
      FirstSomeNone(a);
    }
  }

  lemma FirstSomeAt(a: seq<Option<string>>, k: nat)
    requires k < |a| && a[k].Some? && forall j :: 0 <= j < k ==> a[j].None?
    ensures FirstSome(a) == a[k]
  {
  }

  lemma FirstSomeNone(a: seq<Option<string>>)
    requires forall j :: 0 <= j < |a| ==> a[j].None?
    ensures FirstSome(a).None?
  {
  }

  /** `parseInput` hands the resolver the short link it extracted, which is ASCII, while every share
      template holds CJK text: strategy 4 never answers there. */
  lemma ShareTextIdleForExtractedLink(input: string, api: Services)
    requires ExtractShortUrl(input).Some?
    ensures ShareTextAttempt(ExtractShortUrl(input).value, api).None?
  {
    AsciiTextHasNoShareInfo(ExtractShortUrl(input).value);
    assert ExtractCompleteShareInfo(ExtractShortUrl(input).value).songName.None?;
  }

  // ---------------------------------------------------------------------------------------------
  // url

  const MaxQuality: int := 2147483647

  /** The requests `url` makes, in order; `firstUrl` is the anonymous request's answer, which
      decides whether the authenticated one follows: only a `null` URL does, a failure rejects
      `url` before it. */
  function PlayRequests(id: string, cookie: string, quality: int, anonymous: bool, firstUrl: PlayerRequest -> PlayerAnswer): (sent: seq<PlayerRequest>)
    ensures 1 <= |sent| <= 2
    ensures forall i :: 0 <= i < |sent| ==> sent[i].id == id && sent[i].br == (if quality == 0 then MaxQuality else quality)
    ensures forall i :: 0 <= i < |sent| ==> sent[i].flag.None? || sent[i].flag == Some(cookie)
    ensures cookie == "" ==> sent == [PlayerRequest(id, if quality == 0 then MaxQuality else quality, None)]
    ensures cookie != "" && (quality == 0 || quality == MaxQuality) ==> |sent| == 1 && sent[0].flag == Some(cookie)
    ensures cookie != "" && quality != 0 && quality != MaxQuality && !anonymous ==> |sent| == 1 && sent[0].flag == Some(cookie)
    ensures cookie != "" && quality != 0 && quality != MaxQuality && anonymous ==>
      sent[0].flag.None? && (|sent| == 2 <==> firstUrl(sent[0]) == NullUrl) && (|sent| == 2 ==> sent[1].flag == Some(cookie))
  {
    var br := if quality == 0 then MaxQuality else quality;
    var plain := PlayerRequest(id, br, None);
    var signed := PlayerRequest(id, br, Some(cookie));
    if cookie == "" then [plain]
    else if br == MaxQuality then [signed]
    else if anonymous then (if firstUrl(plain) == NullUrl then [plain, signed] else [plain])
    else [signed]
  }

  /** `url`: the requests go out through the shared `res`.  It rejects (`ok` false, no URL) when
      the last request made fails, and otherwise resolves with that request's URL. */
  method PlayUrl(id: string, cookie: string, quality: int, anonymous: bool, player: PlayerRequest -> PlayerAnswer)
    returns (ok: bool, u: Option<string>, sent: seq<PlayerRequest>)
    ensures sent == PlayRequests(id, cookie, quality, anonymous, player)
    ensures ok <==> player(sent[|sent| - 1]) != PlayerFailed
    ensures u == AnswerUrl(player(sent[|sent| - 1]))
  {
    var br := quality;
    if br == 0 {
      br := MaxQuality;
    }
    var res: PlayerAnswer;
    sent := [];
    if cookie == "" {
      res := player(PlayerRequest(id, br, None));
      sent := sent + [PlayerRequest(id, br, None)];
    } else if br == MaxQuality {
      res := player(PlayerRequest(id, br, Some(cookie)));
      sent := sent + [PlayerRequest(id, br, Some(cookie))];
    } else if anonymous {
      res := player(PlayerRequest(id, br, None));
      sent := sent + [PlayerRequest(id, br, None)];
      if res == NullUrl {
        res := player(PlayerRequest(id, br, Some(cookie)));
        sent := sent + [PlayerRequest(id, br, Some(cookie))];
      }
    } else {
      res := player(PlayerRequest(id, br, Some(cookie)));
      sent := sent + [PlayerRequest(id, br, Some(cookie))];
    }
    ok := res != PlayerFailed;
    u := AnswerUrl(res);
  }

  /** A failed request ends `url`: when the first request fails no second one follows, and a
      second one follows only a `null` URL. */
  lemma FailureStopsRequests(id: string, cookie: string, quality: int, anonymous: bool, player: PlayerRequest -> PlayerAnswer)
    ensures var sent := PlayRequests(id, cookie, quality, anonymous, player);
      && (player(sent[0]) == PlayerFailed ==> |sent| == 1)
      && (|sent| == 2 ==> player(sent[0]) == NullUrl)
  {
  }

  // ---------------------------------------------------------------------------------------------
  // lyric

  const LyricPrefix := "http://music.163.com/api/song/lyric?os=pc&id="
  const LyricSuffix := "&lv=-1&tv=1"

  /** `lyric`: the lyric endpoint for `id`; the id can be read back between the fixed parts. */
  function LyricUrl(id: string): (r: string)
    ensures StartsWith(r, LyricPrefix) && EndsWith(r, LyricSuffix)
    ensures |r| == |LyricPrefix| + |id| + |LyricSuffix|
    ensures r[|LyricPrefix|..|r| - |LyricSuffix|] == id
  {
    var r := LyricPrefix + id + LyricSuffix;
    assert r[..|LyricPrefix|] == LyricPrefix;
    assert r[|r| - |LyricSuffix|..] == LyricSuffix;
    assert r[|LyricPrefix|..|r| - |LyricSuffix|] == id;
    r
  }

  // ---------------------------------------------------------------------------------------------
  // getSongById, search, download

  /** `getSongById`: the list row for the first track the detail endpoint returns, null when there
      is none or the request fails. */
  function GetSongById(id: string, api: Services): (r: Option<Song>)
    ensures r.Some? <==> api.detail(id).Some?
    ensures r.Some? ==> (r.value.id == api.detail(id).value.id && r.value.url.None? && r.value.path.None?
      && r.value.artist == Join(api.detail(id).value.artists, "/"))
  {
    match api.detail(id)
    case Some(c) => Some(FromCatalog(c))
    case None => None
  }

  /** A bound of `Array.prototype.slice`: a negative one counts from the end; both are clamped. */
  function SliceBound(k: int, n: nat): (r: nat)
    ensures r <= n
    ensures 0 <= k <= n ==> r == k
    ensures k > n ==> r == n
    ensures k < 0 ==> r == if n + k < 0 then 0 else n + k
  {
    if k < 0 then (if n + k < 0 then 0 else n + k) else if k > n then n else k
  }

  /** `xs.slice(start, end)`: the piece between the clamped bounds, empty when they cross.  The
      search passes `offset` and `offset + limit`, both non-negative and in order. */
  function JsSlice<T>(xs: seq<T>, start: int, end: int): (r: seq<T>)
    ensures |r| <= |xs|
    ensures 0 <= start <= end ==> |r| <= end - start
    ensures 0 <= start <= end ==>
      r == xs[SliceBound(start, |xs|)..SliceBound(end, |xs|)]
    ensures SliceBound(end, |xs|) <= SliceBound(start, |xs|) ==> r == []
    ensures SliceBound(start, |xs|) < SliceBound(end, |xs|) ==> r == xs[SliceBound(start, |xs|)..SliceBound(end, |xs|)]
  {
    var from := SliceBound(start, |xs|);
    var to := SliceBound(end, |xs|);
    if from < to then xs[from..to] else []
  }

  /** The rows found for `ids`, in the order of the ids; ids the catalogue does not know are
      skipped. */
  function FoundRows(ids: seq<string>, api: Services): (r: seq<Song>)
    ensures |r| <= |ids|
    ensures forall k :: 0 <= k < |r| ==> exists i :: 0 <= i < |ids| && GetSongById(ids[i], api) == Some(r[k])
  {
    if ids == [] then []
    else
      var front := FoundRows(ids[..|ids| - 1], api);
      assert forall i :: 0 <= i < |ids| - 1 ==> ids[..|ids| - 1][i] == ids[i];
      match GetSongById(ids[|ids| - 1], api)
      case Some(song) => front + [song]
      case None => front
  }

  /** Every row found for an id in the page is in the result. */
  lemma {:induction false} FoundRowsComplete(ids: seq<string>, api: Services, i: nat)
    requires i < |ids| && GetSongById(ids[i], api).Some?
    ensures GetSongById(ids[i], api).value in FoundRows(ids, api)
  {
    if i < |ids| - 1 {
      assert ids[..|ids| - 1][i] == ids[i];
      FoundRowsComplete(ids[..|ids| - 1], api, i);
    }
  }

  /** The playlist branch: the rows found for a page of track ids, pushed one id after the other. */
  method PageRows(ids: seq<string>, api: Services) returns (songs: seq<Song>)
    ensures songs == FoundRows(ids, api)
  {
    songs := [];
    var i := 0;
    while i < |ids|
      invariant 0 <= i <= |ids|
      invariant songs == FoundRows(ids[..i], api)
    {
      assert ids[..i + 1][..i] == ids[..i];
      var song := GetSongById(ids[i], api);
      if song.Some? {
        songs := songs + [song.value];
      }
      i := i + 1;
    }
    assert ids[..i] == ids;
  }

  /** The text-search branch: one row per hit, in the order of the hits. */
  method HitRows(hits: seq<CatalogSong>) returns (songs: seq<Song>)
    ensures |songs| == |hits| && forall k :: 0 <= k < |songs| ==> songs[k] == FromCatalog(hits[k])
  {
    songs := [];
    var i := 0;
    while i < |hits|
      invariant 0 <= i <= |hits|
      invariant |songs| == i && forall k :: 0 <= k < i ==> songs[k] == FromCatalog(hits[k])
    {
      songs := songs + [FromCatalog(hits[i])];
      i := i + 1;
    }
  }

  /** The exported `search`: the parsed input decides the branch; a song id gives at most one row,
      a playlist the found rows of the page `offset .. offset + limit` of its track ids, an exact
      match request the top hit of a one-track search, plain text the rows of a text search.
      `resolve` is the short-link resolver, `Resolver(api)` in the application. */
  method Search(value: string, limit: int, offset: int, resolve: string -> Option<string>, api: Services)
    returns (songs: seq<Song>)
    ensures SearchAnswer(ParseInput(value, resolve), limit, offset, api, songs)
  {
    var parsed := ParseInput(value, resolve);
    songs := SearchParsed(parsed, limit, offset, api);
  }

  /** What `search` answers for a parsed input: for a song id the one song found by id, for a
      playlist the found rows of the page `offset .. offset + limit` of its track ids (at most
      `limit` of them), for an exact match request the top hit of a one-track search, for any
      other link nothing, for blank text nothing, and for other text the rows of a text search,
      hit by hit. */
  predicate SearchAnswer(parsed: ParsedInput, limit: int, offset: int, api: Services, songs: seq<Song>)
  {
    && (parsed.kind == SongIdInput ==>
          songs == (match GetSongById(parsed.value, api) case Some(s) => [s] case None => []))
    && (parsed.kind == PlaylistInput ==>
          songs == (match api.playlist(parsed.value)
            case Some(ids) => FoundRows(JsSlice(ids, offset, offset + limit), api)
            case None => []))
    && (parsed.kind == PlaylistInput && 0 <= offset && 0 <= limit ==> |songs| <= limit)
    && (parsed.meta.ExactMatch? ==>
          songs == (match api.search(parsed.value, 1, 0)
            case Some(hits) => if hits == [] then [] else [FromCatalog(hits[0])]
            case None => []))
    && (parsed.kind == SearchInput && parsed.isLink && !parsed.meta.ExactMatch? ==> songs == [])
    && (!parsed.isLink && Trim(parsed.value) == "" ==> songs == [])
    && (!parsed.isLink && Trim(parsed.value) != "" ==>
          var hits := api.search(parsed.value, limit, offset);
          && (hits.None? ==> songs == [])
          && (hits.Some? ==> |songs| == |hits.value| && forall k :: 0 <= k < |songs| ==> songs[k] == FromCatalog(hits.value[k])))
  }

  /** `search` once the input has been parsed (as `ParseInput` parses it: text that is no link is
      searched for as it is, and an exact match request is a search). */
  method SearchParsed(parsed: ParsedInput, limit: int, offset: int, api: Services)
    returns (songs: seq<Song>)
    requires parsed.isLink || (parsed.kind == SearchInput && parsed.meta.NoMeta?)
    requires parsed.meta.ExactMatch? ==> parsed.kind == SearchInput
    ensures SearchAnswer(parsed, limit, offset, api, songs)
  {
    if parsed.isLink {
      if parsed.kind == SongIdInput {
        var song := GetSongById(parsed.value, api);
        songs := if song.Some? then [song.value] else [];
      } else if parsed.kind == PlaylistInput {
        var trackIds := api.playlist(parsed.value);
        if trackIds.None? {
          return [];
        }
        songs := PageRows(JsSlice(trackIds.value, offset, offset + limit), api);
      } else if parsed.kind == SearchInput && parsed.meta.ExactMatch? {
        var hits := api.search(parsed.value, 1, 0);
        if hits.None? || hits.value == [] {
          return [];
        }
        songs := [FromCatalog(hits.value[0])];
      } else {
        songs := [];
      }
    } else {
      if Trim(parsed.value) == "" {
        return [];
      }
      var hits := api.search(parsed.value, limit, offset);
      if hits.None? {
        return [];
      }
      songs := HitRows(hits.value);
    }
  }

  /** The exported `download`: the song gains the play URL (null when the catalogue has none for
      this account) and the lyric endpoint, and nothing else changes; it rejects (None), leaving the
      song untouched, when `url` rejects.  Omitted arguments take `url`'s defaults: no cookie, the
      highest quality, anonymous first. */
  method Download(song: Song, cookie: Option<string>, quality: Option<int>, anonymous: Option<bool>, api: Services)
    returns (r: Option<Song>, sent: seq<PlayerRequest>)
    ensures var c := if cookie.Some? then cookie.value else "";
      var q := if quality.Some? then quality.value else MaxQuality;
      var a := if anonymous.Some? then anonymous.value else true;
      sent == PlayRequests(song.id, c, q, a, api.player)
    ensures var last := api.player(sent[|sent| - 1]);
      r == if last == PlayerFailed then None
           else Some(song.(url := AnswerUrl(last), lyrics := Some(LyricUrl(song.id))))
  {
    var c := if cookie.Some? then cookie.value else "";
    var q := if quality.Some? then quality.value else MaxQuality;
    var a := if anonymous.Some? then anonymous.value else true;
    var ok, u;
    ok, u, sent := PlayUrl(song.id, c, q, a, api.player);
    if !ok {
      return None, sent;
    }
    var updated := song.(url := u);
    updated := updated.(lyrics := Some(LyricUrl(song.id)));
    r := Some(updated);
  }
}

=== FILE: preload.dfy ===
/**
 * The preload bridge (preload.cjs): the `invoke` gate that lets only seven IPC channels through,
 * and the single slot holding the renderer's download-progress callback, which every
 * `download-progress` event from the main process is delivered to.
 *
 * Callbacks are told apart by an identity (a `nat`); what a callback does with a value is not
 * part of this model, only which callback receives which value.
 */
module Preload {
  import opened TextScan

  /** The channels `invoke` forwards. */
  const ValidChannels: seq<string> :=
    ["download", "open", "netease-login", "get-netease-login", "set-download-path", "get-download-path", "resolveShortUrl"]

  /** `validChannels.includes(channel)`. */
  function IsValidChannel(channel: string): (r: bool)
    ensures r <==> exists i :: 0 <= i < |ValidChannels| && ValidChannels[i] == channel
  {
    channel in ValidChannels
  }

  /** A call the bridge made to `ipcRenderer.invoke`. */
  datatype IpcCall = IpcCall(channel: string, args: string)

  /** A progress value handed to a callback. */
  datatype Delivery = Delivery(callback: nat, progress: int)

  class Bridge {
    /** `progressCallback`: the registered callback, None for `null`. */
    var slot: Option<nat>
    /** The `ipcRenderer.invoke` calls made so far. */
    var sent: seq<IpcCall>
    /** The progress values handed to callbacks so far. */
    var delivered: seq<Delivery>

    /** The state when the preload script has run: no callback, nothing sent or delivered. */
    constructor()
      ensures slot.None? && sent == [] && delivered == []
    {
      slot := None;
      sent := [];
      delivered := [];
    }

    /** `invoke`: an allowed channel goes to the main process and its answer comes back; any other
        channel gives `undefined` (None) and no IPC call. */
    method Invoke<A>(channel: string, args: string, ipc: (string, string) -> A) returns (r: Option<A>)
      modifies this
      ensures IsValidChannel(channel) ==> r == Some(ipc(channel, args)) && sent == old(sent) + [IpcCall(channel, args)]
      ensures !IsValidChannel(channel) ==> r.None? && sent == old(sent)
      ensures slot == old(slot) && delivered == old(delivered)
    {
      if channel in ValidChannels {
        sent := sent + [IpcCall(channel, args)];
        r := Some(ipc(channel, args));
      } else {
        r := None;
      }
    }

    /** `onDownloadProgress`: the new callback replaces whatever was stored. */
    method OnDownloadProgress(callback: nat)
      modifies this
      ensures slot == Some(callback)
      ensures sent == old(sent) && delivered == old(delivered)
    {
      slot := Some(callback);
    }

    /** `removeDownloadProgress`: the slot is emptied. */
    method RemoveDownloadProgress()
      modifies this
      ensures slot.None?
      ensures sent == old(sent) && delivered == old(delivered)
    {
      slot := None;
    }

    /** A `download-progress` event: delivered to the stored callback, dropped when there is none. */
    method ProgressEvent(progress: int)
      modifies this
      ensures old(slot).Some? ==> delivered == old(delivered) + [Delivery(old(slot).value, progress)]
      ensures old(slot).None? ==> delivered == old(delivered)
      ensures slot == old(slot) && sent == old(sent)
    {
      if slot.Some? {
        delivered := delivered + [Delivery(slot.value, progress)];
      }
    }
  }

  /** Registering a second callback leaves only the second one to hear from the main process, and
      after removal events are dropped. */
  method LatestCallbackWins(first: nat, second: nat, p: int, q: int) returns (b: Bridge)
    ensures fresh(b)
    ensures b.delivered == [Delivery(second, p)]
    ensures b.slot.None?
  {
    b := new Bridge();
    b.OnDownloadProgress(first);
    b.OnDownloadProgress(second);
    b.ProgressEvent(p);
    b.RemoveDownloadProgress();
    b.ProgressEvent(q);
  }
}

=== FILE: songs.dfy ===
/**
 * The records the renderer and the main process pass around (src/types/song.ts): a catalogue
 * track as the list shows it, a track as the catalogue API returns it, and the three answers the
 * main process's download handler can give.
 */
module Songs {
  import opened TextScan

  /** A track in the result list.  `url`, `lyrics`, `state`, `path` and `progress` are the
      optional fields the download path fills in; None is an absent field. */
  datatype Song = Song(
    id: string,
    name: string,
    artist: string,
    album: string,
    cover: string,
    publishTime: string,
    url: Option<string>,
    lyrics: Option<string>,
    state: Option<string>,
    path: Option<string>,
    progress: Option<int>)

  /** A track as the catalogue's song-detail and search endpoints describe it; `publishTime` is
      the already formatted date. */
  datatype CatalogSong = CatalogSong(
    id: string,
    name: string,
    artists: seq<string>,
    album: string,
    cover: string,
    publishTime: string)

  /** What the `download` IPC handler resolves with: the saved path, `null`, or `false`. */
  datatype DownloadAnswer = SavedPath(path: string) | NullAnswer | FalseAnswer
  {
    /** The value a JavaScript `if (res)` accepts. */
    predicate Truthy() { SavedPath? && path != "" }
  }

  /** The list row built from a catalogue track: artists joined with "/", nothing downloaded yet. */
  function FromCatalog(c: CatalogSong): (s: Song)
    ensures s.id == c.id && s.name == c.name && s.album == c.album && s.cover == c.cover
    ensures s.artist == Join(c.artists, "/")
    ensures s.url.None? && s.lyrics.None? && s.state.None? && s.path.None? && s.progress.None?
  {
    Song(c.id, c.name, Join(c.artists, "/"), c.album, c.cover, c.publishTime, None, None, None, None, None)
  }
}

=== FILE: text_scan.dfy ===
/**
 * Text scanning shared by the whole model.
 *
 * The application matches its inputs with regular expressions (JavaScript in the renderer and in
 * the main process, Python in the downloader).  Here every pattern is written out as a scanner:
 * a "matcher" tells whether the pattern matches at one position, and `FirstAt` finds the leftmost
 * position, which is what a non-global JavaScript `String.prototype.match` (and Python `re.search`)
 * reports.  This module holds the character classes those libraries use, literal matching (exact
 * and ASCII case-insensitive), maximal runs, trimming and the small string utilities the other
 * modules share.
 */
module TextScan {

  datatype Option<+T> = None | Some(value: T)

  // ---------------------------------------------------------------------------------------------
  // Character classes

  predicate IsDigit(c: char) { '0' <= c <= '9' }

  predicate IsAsciiAlnum(c: char) { 'a' <= c <= 'z' || 'A' <= c <= 'Z' || IsDigit(c) }

  predicate IsAscii(c: char) { c < '\U{80}' }

  /** ASCII lower-casing.  A regular expression with the `i` flag and without the `u` flag never
      folds a non-ASCII character onto an ASCII one, so this is all the folding the patterns of
      this application can see. */
  function Lower(c: char): (r: char)
    ensures IsAscii(r) <==> IsAscii(c)
  {
    if 'A' <= c <= 'Z' then (c as int + 32) as char else c
  }

  /** The characters JavaScript's `.` does not match. */
  predicate IsLineTerminator(c: char) {
    c == '\n' || c == '\r' || c == '\U{2028}' || c == '\U{2029}'
  }

  /** JavaScript `\s`: the WhiteSpace and LineTerminator characters, which is also the set
      `String.prototype.trim` removes. */
  predicate IsJsSpace(c: char) {
    || c == '\t' || c == '\U{B}' || c == '\U{C}' || c == ' ' || c == '\U{A0}' || c == '\U{1680}'
    || ('\U{2000}' <= c <= '\U{200A}') || c == '\U{202F}' || c == '\U{205F}' || c == '\U{3000}'
    || c == '\U{FEFF}' || IsLineTerminator(c)
  }

  /** Python `str.isspace`, the set `str.strip()` removes. */
  predicate IsPySpace(c: char) {
    || ('\t' <= c <= '\r') || ('\U{1C}' <= c <= '\U{1F}') || c == ' ' || c == '\U{85}'
    || c == '\U{A0}' || c == '\U{1680}' || ('\U{2000}' <= c <= '\U{200A}') || c == '\U{2028}'
    || c == '\U{2029}' || c == '\U{202F}' || c == '\U{205F}' || c == '\U{3000}'
  }

  /** The line boundaries of Python `str.splitlines` ("\r\n" counts as one boundary). */
  predicate IsPyLineBreak(c: char) {
    || c == '\n' || c == '\r' || c == '\U{B}' || c == '\U{C}' || ('\U{1C}' <= c <= '\U{1E}')
    || c == '\U{85}' || c == '\U{2028}' || c == '\U{2029}'
  }

  // ---------------------------------------------------------------------------------------------
  // Literals

  /** `lit` occurs in `s` at position `p`. */
  predicate HasAt(s: string, p: nat, lit: string)
  {
    p + |lit| <= |s| && s[p..p + |lit|] == lit
  }

  /** `s` occurs somewhere in `t`. */
  predicate IsSubstring(s: string, t: string)
  {
    exists k: nat :: k <= |t| && HasAt(t, k, s)
  }

  /** `lit`, written in lower case, occurs in `s` at position `p` up to ASCII case. */
  predicate HasAtCi(s: string, p: nat, lit: string)
  {
    p + |lit| <= |s| && forall i :: 0 <= i < |lit| ==> Lower(s[p + i]) == lit[i]
  }

  predicate StartsWith(s: string, lit: string) { HasAt(s, 0, lit) }

  predicate EndsWith(s: string, lit: string) { |lit| <= |s| && HasAt(s, |s| - |lit|, lit) }

  /** Leftmost occurrence of `lit` in `s` at or after `p`. */
  function IndexOf(s: string, lit: string, p: nat): (r: Option<nat>)
    decreases |s| + 1 - p
    ensures r.Some? ==> p <= r.value <= |s| && HasAt(s, r.value, lit)
    ensures r.Some? ==> forall k :: p <= k < r.value ==> !HasAt(s, k, lit)
    ensures r.None? ==> forall k :: p <= k ==> !HasAt(s, k, lit)
  {
    if p > |s| then None
    else if HasAt(s, p, lit) then Some(p)
    else IndexOf(s, lit, p + 1)
  }

  /** JavaScript `String.prototype.includes` and Python `in` on strings. */
  predicate Contains(s: string, lit: string) {
    IndexOf(s, lit, 0).Some?
  }

  /** `lit`, written in lower case, occurs in `s` at or after `p` up to ASCII case (a JavaScript
      `/lit/i` test). */
  function ContainsCiFrom(s: string, lit: string, p: nat): (r: bool)
    decreases |s| + 1 - p
    ensures r <==> exists k: nat :: p <= k <= |s| && HasAtCi(s, k, lit)
  {
    if p > |s| then false
    else if HasAtCi(s, p, lit) then true
    else
      var r := ContainsCiFrom(s, lit, p + 1);
      assert forall k: nat :: p <= k <= |s| && HasAtCi(s, k, lit) ==> p + 1 <= k;
      r
  }

  /** `b` occurs in `a + b + c` right after `a`. */
  lemma HasAtMiddle(a: string, b: string, c: string)
    ensures HasAt(a + b + c, |a|, b)
  {
    assert (a + b + c)[|a|..|a| + |b|] == b;
  }

  /** An exact occurrence of a literal without upper-case letters is also a case-folded one. */
  lemma HasAtCiOfExact(s: string, p: nat, lit: string)
    requires HasAt(s, p, lit) && forall i :: 0 <= i < |lit| ==> !('A' <= lit[i] <= 'Z')
    ensures HasAtCi(s, p, lit)
  {
    forall k | p <= k < p + |lit|
      ensures Lower(s[k]) == lit[k - p]
    {
      assert s[k] == s[p..p + |lit|][k - p];
    }
  }

  lemma ContainsIsSubstring(s: string, lit: string)
    ensures Contains(s, lit) <==> IsSubstring(lit, s)
  {
    if IsSubstring(lit, s) {
      var k: nat :| k <= |s| && HasAt(s, k, lit);
      ContainsAt(s, lit, k);
    }
  }

  lemma ContainsAt(s: string, lit: string, p: nat)
    requires HasAt(s, p, lit)
    ensures Contains(s, lit)
  {
  }

  /** Leftmost position of the character `c` (Python `str.find` / JavaScript `indexOf`). */
  function FindChar(s: string, c: char): (r: Option<nat>)
    ensures r.Some? ==> r.value < |s| && s[r.value] == c && c !in s[..r.value]
    ensures r.None? <==> c !in s
  {
    if s == [] then None
    else if s[0] == c then Some(0)
    else match FindChar(s[1..], c)
      case None => None
      case Some(k) => assert s[1..][..k] == s[1..k + 1]; Some(k + 1)
  }

  /** Rightmost position of the character `c` (`lastIndexOf` / `rfind`). */
  function FindLastChar(s: string, c: char): (r: Option<nat>)
    ensures r.Some? ==> r.value < |s| && s[r.value] == c && c !in s[r.value + 1..]
    ensures r.None? <==> c !in s
  {
    if s == [] then None
    else if s[|s| - 1] == c then Some(|s| - 1)
    else
      var r := FindLastChar(s[..|s| - 1], c);
      assert r.Some? ==> s[r.value + 1..] == s[..|s| - 1][r.value + 1..] + [s[|s| - 1]];
      assert r.None? ==> s == s[..|s| - 1] + [s[|s| - 1]];
      r
  }

  // ---------------------------------------------------------------------------------------------
  // Runs and the leftmost match

  /** End of the maximal run of `cls` characters starting at `p` (a greedy `cls+` or `cls*`). */
  function RunEnd(s: string, p: nat, cls: char -> bool): (e: nat)
    requires p <= |s|
    decreases |s| - p
    ensures p <= e <= |s|
    ensures forall i :: p <= i < e ==> cls(s[i])
    ensures e == |s| || !cls(s[e])
  {
    if p < |s| && cls(s[p]) then RunEnd(s, p + 1, cls) else p
  }

  /** A run of `cls` characters from `p` that stops at `e` is the maximal run. */
  lemma {:induction false} RunEndIs(s: string, p: nat, e: nat, cls: char -> bool)
    requires p <= e <= |s|
    requires forall i :: p <= i < e ==> cls(s[i])
    requires e == |s| || !cls(s[e])
    decreases e - p
    ensures RunEnd(s, p, cls) == e
  {
    if p < e {
      RunEndIs(s, p + 1, e, cls);
    }
  }

  /** The leftmost position `q >= p` at which the matcher `at` succeeds, with its result. */
  function FirstAt<T>(s: string, p: nat, at: (string, nat) -> Option<T>): (r: Option<(nat, T)>)
    decreases |s| + 1 - p
    ensures r.Some? ==> p <= r.value.0 <= |s| && at(s, r.value.0) == Some(r.value.1)
    ensures r.Some? ==> forall k :: p <= k < r.value.0 ==> at(s, k).None?
    ensures r.None? ==> forall k :: p <= k <= |s| ==> at(s, k).None?
  {
    if p > |s| then None
    else match at(s, p)
      case Some(v) => Some((p, v))
      case None => FirstAt(s, p + 1, at)
  }

  /** The matcher succeeds at some position of `s` (a regular-expression `test`). */
  ghost predicate MatchesSomewhere<T>(s: string, at: (string, nat) -> Option<T>)
  {
    exists p: nat :: p <= |s| && at(s, p).Some?
  }

  /** `v` is what the matcher yields at the leftmost position where it succeeds. */
  ghost predicate IsLeftmostMatch<T>(s: string, at: (string, nat) -> Option<T>, v: T)
  {
    exists p: nat :: p <= |s| && at(s, p) == Some(v) && forall k: nat :: k < p ==> at(s, k).None?
  }

  /** The value a non-global `match` captures: the matcher's result at the leftmost position. */
  function Leftmost<T>(s: string, at: (string, nat) -> Option<T>): (r: Option<T>)
    ensures r.Some? <==> MatchesSomewhere(s, at)
    ensures r.Some? ==> IsLeftmostMatch(s, at, r.value)
  {
    match FirstAt(s, 0, at)
    case None => None
    case Some((p, v)) => assert at(s, p).Some?; Some(v)
  }

  /** The captures a global regular expression's `exec` loop collects from `p` on, for a pattern
      made of `lead` characters followed by the captured group: the leftmost match, then the
      search goes on where that match ended (`lastIndex`). */
  function ExecAll(s: string, p: nat, at: (string, nat) -> Option<string>, lead: nat): seq<string>
    requires lead > 0
    decreases if p <= |s| then |s| + 1 - p else 0
  {
    match FirstAt(s, p, at)
    case None => []
    case Some((q, v)) => [v] + ExecAll(s, q + lead + |v|, at, lead)
  }

  /** Every capture the loop collects is a value the matcher yields at some position. */
  lemma {:induction false} ExecAllYields(s: string, p: nat, at: (string, nat) -> Option<string>, lead: nat)
    requires lead > 0
    decreases if p <= |s| then |s| + 1 - p else 0
    ensures forall i :: 0 <= i < |ExecAll(s, p, at, lead)| ==>
      exists q: nat :: q <= |s| && at(s, q) == Some(ExecAll(s, p, at, lead)[i])
  {
    match FirstAt(s, p, at)
    case None =>
      assert ExecAll(s, p, at, lead) == [];
    case Some((q, v)) =>
      ExecAllYields(s, q + lead + |v|, at, lead);
      var rest := ExecAll(s, q + lead + |v|, at, lead);
      assert ExecAll(s, p, at, lead) == [v] + rest;
      forall i | 0 <= i < |[v] + rest|
        ensures exists k: nat :: k <= |s| && at(s, k) == Some(([v] + rest)[i])
      {
        if i == 0 {
          assert at(s, q) == Some(([v] + rest)[0]);
        } else {
          assert ([v] + rest)[i] == rest[i - 1];
        }
      }
  }

  /** The loop collects nothing exactly when the pattern matches nowhere, and its first capture is
      the leftmost match's. */
  lemma ExecAllFirst(s: string, at: (string, nat) -> Option<string>, lead: nat)
    requires lead > 0
    ensures ExecAll(s, 0, at, lead) == [] <==> !MatchesSomewhere(s, at)
    ensures ExecAll(s, 0, at, lead) != [] ==> IsLeftmostMatch(s, at, ExecAll(s, 0, at, lead)[0])
  {
    match FirstAt(s, 0, at)
    case None =>
    case Some((q, v)) =>
      assert at(s, q).Some?;
  }

  /** One round of the loop keeps `found + ExecAll(s, p, ..)` at the whole answer, and when no
      match is left `found` is the whole answer. */
  lemma ExecStep(s: string, p: nat, at: (string, nat) -> Option<string>, lead: nat, found: seq<string>)
    requires lead > 0
    requires found + ExecAll(s, p, at, lead) == ExecAll(s, 0, at, lead)
    ensures FirstAt(s, p, at).None? ==> found == ExecAll(s, 0, at, lead)
    ensures FirstAt(s, p, at).Some? ==>
      var q := FirstAt(s, p, at).value.0;
      var v := FirstAt(s, p, at).value.1;
      p < q + lead + |v| && (found + [v]) + ExecAll(s, q + lead + |v|, at, lead) == ExecAll(s, 0, at, lead)
  {
    match FirstAt(s, p, at)
    case None =>
      assert found + [] == found;
    case Some((q, v)) =>
      var rest := ExecAll(s, q + lead + |v|, at, lead);
      assert found + ([v] + rest) == (found + [v]) + rest;
  }

  /** `while ((m = re.exec(s)) !== null) found.push(m[1])` over a global regular expression. */
  method ExecLoop(s: string, at: (string, nat) -> Option<string>, lead: nat) returns (found: seq<string>)
    requires lead > 0
    ensures found == ExecAll(s, 0, at, lead)
  {
    found := [];
    var lastIndex := 0;
    while true
      invariant found + ExecAll(s, lastIndex, at, lead) == ExecAll(s, 0, at, lead)
      decreases if lastIndex <= |s| then |s| + 1 - lastIndex else 0
    {
      ExecStep(s, lastIndex, at, lead, found);
      var m := FirstAt(s, lastIndex, at);
      if m.None? {
        return;
      }
      found := found + [m.value.1];
      lastIndex := m.value.0 + lead + |m.value.1|;
    }
  }

  // ---------------------------------------------------------------------------------------------
  // Runs as captures, truthiness

  /** `v` is the non-empty maximal run of `cls` characters that starts at `q` in `s`
      (what a greedy `cls+` captures there). */
  predicate IsMaximalRun(s: string, q: nat, v: string, cls: char -> bool)
  {
    && v != [] && HasAt(s, q, v)
    && (forall i :: 0 <= i < |v| ==> cls(v[i]))
    && (q + |v| == |s| || !cls(s[q + |v|]))
  }

  /** The run a greedy `cls+` captures at `q`, when there is one. */
  function RunAt(s: string, q: nat, cls: char -> bool): (r: Option<string>)
    ensures r.Some? <==> q < |s| && cls(s[q])
    ensures r.Some? ==> IsMaximalRun(s, q, r.value, cls)
  {
    if q < |s| && cls(s[q]) then Some(s[q..RunEnd(s, q, cls)]) else None
  }

  /** What `\d{lo,hi}` (greedy) captures at `q`: at least `lo` digits, at most `hi` of them. */
  function BoundedDigitsAt(s: string, q: nat, lo: nat, hi: nat): (r: Option<string>)
    requires 0 < lo <= hi
    ensures r.Some? <==> q <= |s| && RunEnd(s, q, IsDigit) - q >= lo
    ensures r.Some? ==> lo <= |r.value| <= hi && HasAt(s, q, r.value)
    ensures r.Some? ==> forall i :: 0 <= i < |r.value| ==> IsDigit(r.value[i])
    ensures r.Some? && |r.value| < hi ==> q + |r.value| == |s| || !IsDigit(s[q + |r.value|])
  {
    if q > |s| then None
    else
      var e := RunEnd(s, q, IsDigit);
      if e - q < lo then None
      else if e - q <= hi then Some(s[q..e])
      else Some(s[q..q + hi])
  }

  /** No line terminator in `s[a..b]`: the span can be matched by `.*`. */
  predicate LineFree(s: string, a: nat, b: nat)
    requires b <= |s|
  {
    forall m :: a <= m < b ==> !IsLineTerminator(s[m])
  }

  /** `v` holds no line terminator: `.` can match each of its characters. */
  predicate OneLine(v: string)
  {
    forall i :: 0 <= i < |v| ==> !IsLineTerminator(v[i])
  }

  /** Where a lazy group `(.+?)` starting at `start` ends when the pattern goes on with the literal
      `close` and then whatever `rest` accepts: the first end at or after `e`, before any line
      terminator, after which `close` and `rest` match (the order the engine backtracks in). */
  function LazyEnd(s: string, start: nat, e: nat, close: string, rest: (string, nat) -> bool): (r: Option<nat>)
    requires start < e <= |s| + 1 && LineFree(s, start, e - 1)
    decreases |s| + 1 - e
    ensures r.Some? ==> e <= r.value <= |s| && LineFree(s, start, r.value)
    ensures r.Some? ==> HasAt(s, r.value, close) && rest(s, r.value + |close|)
  {
    if e > |s| || IsLineTerminator(s[e - 1]) then None
    else if HasAt(s, e, close) && rest(s, e + |close|) then Some(e)
    else LazyEnd(s, start, e + 1, close, rest)
  }

  /** `LazyEnd` finds the shortest group that fits, and reports none only when no group fits. */
  lemma {:induction false} LazyEndIsFirst(s: string, start: nat, e: nat, close: string, rest: (string, nat) -> bool)
    requires start < e <= |s| + 1 && LineFree(s, start, e - 1)
    decreases |s| + 1 - e
    ensures var r := LazyEnd(s, start, e, close, rest);
      r.Some? ==> forall k :: e <= k < r.value ==> !(HasAt(s, k, close) && rest(s, k + |close|))
    ensures var r := LazyEnd(s, start, e, close, rest);
      r.None? ==> forall k :: e <= k <= |s| && LineFree(s, start, k) ==> !(HasAt(s, k, close) && rest(s, k + |close|))
  {
    if e > |s| || IsLineTerminator(s[e - 1]) {
    } else if HasAt(s, e, close) && rest(s, e + |close|) {
    } else {
      LazyEndIsFirst(s, start, e + 1, close, rest);
    }
  }

  /** The pattern ends here: `rest` that accepts anything. */
  function AnyRest(s: string, p: nat): bool { true }

  /** `lit` occurs at or after `p` with no line terminator before it: `.*lit` matches at `p`. */
  function OnSameLine(s: string, p: nat, lit: string): (r: bool)
    decreases |s| - p
    ensures r <==> exists j :: p <= j <= |s| && HasAt(s, j, lit) && LineFree(s, p, j)
  {
    if HasAt(s, p, lit) then true
    else if p < |s| && !IsLineTerminator(s[p]) then
      var r := OnSameLine(s, p + 1, lit);
      assert r ==> exists j :: p <= j <= |s| && HasAt(s, j, lit) && LineFree(s, p, j);
      r
    else false
  }

  /** A JavaScript string-valued answer taken as a condition: present and not empty. */
  predicate Truthy(o: Option<string>) { o.Some? && o.value != "" }

  // ---------------------------------------------------------------------------------------------
  // Trimming

  function TrimStartBy(s: string, cls: char -> bool): (r: string)
    ensures |r| <= |s| && r == s[|s| - |r|..]
    ensures r == [] || !cls(r[0])
    ensures forall i :: 0 <= i < |s| - |r| ==> cls(s[i])
  {
    if s != [] && cls(s[0]) then TrimStartBy(s[1..], cls) else s
  }

  function TrimEndBy(s: string, cls: char -> bool): (r: string)
    ensures |r| <= |s| && r == s[..|r|]
    ensures r == [] || !cls(r[|r| - 1])
    ensures forall i :: |r| <= i < |s| ==> cls(s[i])
  {
    if s != [] && cls(s[|s| - 1]) then TrimEndBy(s[..|s| - 1], cls) else s
  }

  /** Removes leading and trailing `cls` characters. */
  function TrimBy(s: string, cls: char -> bool): (r: string)
    ensures r == [] || (!cls(r[0]) && !cls(r[|r| - 1]))
    ensures IsSubstring(r, s)
  {
    var t := TrimStartBy(s, cls);
    var r := TrimEndBy(t, cls);
    assert HasAt(s, |s| - |t|, r);
    r
  }

  lemma TrimByIdempotent(s: string, cls: char -> bool)
    ensures TrimBy(TrimBy(s, cls), cls) == TrimBy(s, cls)
  {
    var r := TrimBy(s, cls);
    assert TrimStartBy(r, cls) == r;
    assert TrimEndBy(r, cls) == r;
  }

  /** Every character of `s` is a `cls` character. */
  predicate AllBy(s: string, cls: char -> bool)
  {
    forall i :: 0 <= i < |s| ==> cls(s[i])
  }

  /** Trimming leaves nothing exactly when every character is trimmed. */
  lemma TrimByEmpty(s: string, cls: char -> bool)
    ensures TrimBy(s, cls) == [] <==> AllBy(s, cls)
  {
    if TrimBy(s, cls) != [] {
      var t := TrimStartBy(s, cls);
      assert t != [] && !cls(t[0]) && t[0] == s[|s| - |t|];
    }
  }

  /** JavaScript `String.prototype.trim`. */
  function Trim(s: string): string { TrimBy(s, IsJsSpace) }

  /** Python `str.strip()`. */
  function Strip(s: string): string { TrimBy(s, IsPySpace) }

  // ---------------------------------------------------------------------------------------------
  // Assembling strings

  /** JavaScript `Array.prototype.join` / Python `str.join`. */
  function Join(parts: seq<string>, sep: string): string
  {
    if parts == [] then []
    else if |parts| == 1 then parts[0]
    else parts[0] + sep + Join(parts[1..], sep)
  }

  function DigitChar(d: nat): (c: char)
    requires d < 10
    ensures IsDigit(c)
  {
    ('0' as int + d) as char
  }

  /** Decimal notation of a natural number. */
  function NatToString(n: nat): (r: string)
    ensures r != [] && forall i :: 0 <= i < |r| ==> IsDigit(r[i])
  {
    if n < 10 then [DigitChar(n)] else NatToString(n / 10) + [DigitChar(n % 10)]
  }

  /** Python `str(int)`. */
  function IntToString(n: int): string
  {
    if n < 0 then "-" + NatToString(-n) else NatToString(n)
  }

  // ---------------------------------------------------------------------------------------------
  // Code-point order on strings (Python string comparison)

  predicate LexLess(a: string, b: string)
  {
    if a == [] then b != []
    else b != [] && (a[0] < b[0] || (a[0] == b[0] && LexLess(a[1..], b[1..])))
  }

  lemma {:induction false} LexLessIrreflexive(a: string)
    ensures !LexLess(a, a)
  {
    if a != [] { LexLessIrreflexive(a[1..]); }
  }

  lemma {:induction false} LexLessTransitive(a: string, b: string, c: string)
    requires LexLess(a, b) && LexLess(b, c)
    ensures LexLess(a, c)
  {
    if a != [] && b != [] && c != [] && a[0] == b[0] && b[0] == c[0] {
      LexLessTransitive(a[1..], b[1..], c[1..]);
    }
  }

  lemma {:induction false} LexLessTotal(a: string, b: string)
    requires a != b
    ensures LexLess(a, b) || LexLess(b, a)
  {
    if a != [] && b != [] && a[0] == b[0] {
      assert a == [a[0]] + a[1..] && b == [b[0]] + b[1..];
      LexLessTotal(a[1..], b[1..]);
    }
  }

  lemma {:induction false} LexLessAsymmetric(a: string, b: string)
    requires LexLess(a, b)
    ensures !LexLess(b, a)
  {
    if a != [] && b != [] && a[0] == b[0] {
      LexLessAsymmetric(a[1..], b[1..]);
    }
  }
}
